=== FILE: README.md ===
# BLS and DataUSA ingesters, modelled in Dafny

The repository mirrors two public data sources into a storage bucket.

- **BLS ingester.** `BLSIngest.ingest` reads the directory listing of one
  section of the BLS download site. It drops the anchors on the skip list. It
  parses each remaining anchor into a file name, a relative path and an
  `isoformat()` timestamp, taken from the `MM/DD/YYYY HH:MM AM` text before
  the anchor. It compares that timestamp with the one recorded in a BigQuery
  metadata table. A new or newer file is streamed into the blob `bls/<path>`,
  and then its record is upserted with a `MERGE`.
- **DataUSA ingester.** `DataUsaIngest` joins a `drilldowns` list with commas.
  It builds the API URL with `urlencode` and streams the answer into
  `datausa/<region>/cube_acs_yg_total_population_data/<day>.json`.

The model is pure and functional. Everything the code reads from the outside
is a parameter:

- the listing page is a sequence of anchors;
- the metadata table is a map from (section, file name) to an instant;
- the bucket is a map from blob name to bytes;
- the server is a map from URL to response body, where a missing URL is a
  failed request;
- the current day is an argument.

An exception becomes the `Failure` of a `Result`, named after the Python
exception it stands for. `RemoteError` stands for what the HTTP client
raises on a failed request and for BigQuery rejecting the `DATETIME` text of
an upsert; other client failures are listed under "Left out".

Modules:

- `Results`: `Option`, `Result` and the fail-fast map.
- `Strings`: `strip`, the `\s+` collapse, `split` and `join`, and how they
  cut a line into its whitespace-separated words.
- `Timestamps`: a `strptime` engine driven by a directive list, its renderer,
  and the round trips between the two.
- `Listing`: the skip filter and the parsing of an anchor.
- `Metadata`: the table, the snapshot `__get_metadata` returns, and the
  upsert.
- `Sink`: chunked streaming into a blob.
- `Sync`: the decision and the ingest loop.
- `Query`: UTF-8, `quote_plus` and `urlencode`, each with a strict decoder as
  its partner.
- `DataUsa`: the drilldowns normalisation, the API URL and the snapshot path.

A failing download or metadata write raises out of `ingest`, so the first
failure ends the run. `Sync.Loop` stops there, and the blob already written
for that file stays. The code has no retries, time-outs, parallelism or run
summary, and neither does the model.

## Model

| member | source | states |
|---|---|---|
| Listing.Keep | module/bls/ingest.py:38-41 | An anchor is kept exactly when its text is not on the skip list, and the kept anchors never outnumber the page's. |
| Listing.KeepAppend | module/bls/ingest.py:39-41 | The filter works anchor by anchor and keeps page order: filtering a concatenation is concatenating the filtered halves. |
| Listing.KeepIdempotent | module/bls/ingest.py:39-41 | Filtering the filtered list again removes nothing more. |
| Listing.SkipRespected | module/bls/ingest.py:38-41 | No entry of the parsed file list bears a skipped name, and every anchor whose text is not skipped yields an entry. |
| Listing.StripSlashes | module/bls/ingest.py:53 | The file path is the `href` with its leading and trailing slashes removed: it neither starts nor ends with `/`, it is a contiguous slice of the `href`, and everything outside that slice is `/`. |
| Listing.StripSlashesIdempotent | module/bls/ingest.py:53 | Stripping an already stripped path changes nothing. |
| Strings.Strip | module/bls/ingest.py:47 | `str.strip()`: the result is the slice left after removing the whitespace at both ends, and it neither starts nor ends with whitespace. |
| Strings.StripIdempotent | module/bls/ingest.py:47 | Stripping twice is stripping once. |
| Strings.Collapse | module/bls/ingest.py:48 | `re.sub(r'\s+', ' ', s)`: the result has only plain spaces and never two in a row. It keeps the same non-space characters in the same order, and it starts with a space exactly when the input starts with whitespace. |
| Strings.CollapseGap | module/bls/ingest.py:48 | A whole run of whitespace, of any length and mix, becomes one space. |
| Strings.CollapseAppend | module/bls/ingest.py:48 | The substitution works run by run: collapsing two texts that do not meet inside a whitespace run is collapsing each and concatenating. |
| Strings.CollapseSeparated | module/bls/ingest.py:48 | Two texts separated by a whitespace run collapse to the two collapsed texts joined by exactly one space. |
| Strings.CollapseIdempotent | module/bls/ingest.py:48 | Collapsing collapsed text changes nothing. |
| Strings.JoinSplit | module/bls/ingest.py:49 | Joining the parts of `split(sep)` with `sep` gives the text back. |
| Strings.SplitJoin | module/bls/ingest.py:49 | Splitting a join of separator-free parts gives the parts back. |
| Strings.Split | module/bls/ingest.py:49 | `str.split(sep)` gives at least one part, and no part holds the separator. |
| Strings.Join | module/bls/ingest.py:55 | Joining no parts gives the empty text; joining parts gives their lengths plus one separator between each two. |
| Strings.Tokens | module/bls/ingest.py:47-49 | The words of the stripped, collapsed and split text contain no whitespace and there is at least one. They are all non-empty unless the text is all whitespace, in which case there is a single empty word. |
| Strings.TokensOfRuns | module/bls/ingest.py:47-49 | Words separated by whitespace runs of any length and mix, with any whitespace around them, are split into exactly those words. |
| Listing.ListingInstant | module/bls/ingest.py:47-57 | The listing timestamp fails exactly when there are fewer than three words (`IndexError`) or the rejoined words do not parse with `%m/%d/%Y %I:%M %p` (`ValueError`). On success it is a valid instant with second 0. |
| Listing.ParseTag | module/bls/ingest.py:46-59 | One anchor succeeds exactly when its previous sibling is a text node, it has an `href`, and its timestamp parses. The entry holds the anchor text, the stripped `href` and the `isoformat()` of the listed instant. No sibling is an `AttributeError`; an element sibling such as `<br>` is a `TypeError`, because its `strip` is a child search that finds nothing; a text sibling without an `href` is an `AttributeError`; otherwise the timestamp's own error. |
| Listing.ParseAll | module/bls/ingest.py:44-60 | The file list has one entry per anchor, in order. A failure is the error of the first failing anchor, and every anchor before it parsed. |
| Listing.EntryTimestampParses | module/bls/ingest.py:54-57 | The recorded `isoformat()` text parses back with `%Y-%m-%dT%H:%M:%S` to the instant the listing showed. |
| Listing.ListingLineReads | module/bls/ingest.py:47-56 | For a line of any leading whitespace, four words separated by whitespace runs and any trailing whitespace, the listing timestamp is `strptime` of the first three words joined by single spaces. |
| Listing.ListingLineParses | module/bls/ingest.py:47-57 | A listing line of any leading whitespace, the 12-hour date, the time and `AM`/`PM` (with month, day and hour zero-padded or not), the size column, whitespace runs of any length between them and any trailing whitespace, is read back as exactly the instant it shows. |
| Listing.FileList | module/bls/ingest.py:38-60 | A parsed file list has one entry per kept anchor, in page order, each the anchor's parse and named by its text. A failure is the error of some listed, non-skipped anchor. |
| Timestamps.To24 | module/bls/ingest.py:56 | `%I` with `%p` gives an hour in 0..23, which is 12 or later exactly in the afternoon. |
| Timestamps.ClockRoundTrip | module/bls/ingest.py:56 | The 12-hour and 24-hour readings convert into each other in both directions: 12 AM is hour 0 and 12 PM is hour 12. |
| Timestamps.Strptime | module/bls/ingest.py:54-57 | `datetime.strptime` yields only valid instants, and every failure is a `ValueError`. |
| Timestamps.ListingRoundTrip | module/bls/ingest.py:54-56 | An instant without seconds, printed in the listing's 12-hour format, parses back to itself. |
| Timestamps.ListingRoundTripIn | module/bls/ingest.py:54-56 | The same holds when the month, day and hour are printed without zero padding, which `%m`, `%d` and `%I` also accept. |
| Timestamps.RoundTripIn | module/bls/ingest.py:54-57 | For every well-formed format that determines the instant, printing it (zero-padded or not) and parsing the text back with the same format gives the instant. |
| Timestamps.RenderInPadded | module/bls/ingest.py:57 | The zero-padded printing is the rendering with no loose field. |
| Timestamps.RenderWidth | module/bls/ingest.py:57 | A zero-padded rendering has a fixed width per directive: four for a year, two for the other numbers and for `AM`/`PM`, one for a literal or a space. |
| Timestamps.IsoRoundTrip | module/bls/ingest.py:57 | `isoformat()` text parses back with `%Y-%m-%dT%H:%M:%S` to the same instant. |
| Timestamps.SpaceRoundTrip | module/bls/ingest.py:85 | BigQuery's text for a `DATETIME` (`cast(... as string)`) parses back with `%Y-%m-%d %H:%M:%S` to the same instant. |
| Timestamps.SpellingsAgree | module/bls/ingest.py:172-180 | The recorded spelling and the listed spelling of one instant parse, each with its own format, to that same instant. |
| Timestamps.IsoIsNotSpaceFormat | module/bls/ingest.py:172-180 | `isoformat()` text never parses with the space format, which is why the loop reads each side with its own format. |
| Timestamps.RawComparisonMisleads | module/bls/ingest.py:172-180 | Compared as raw strings, the space spelling sorts before the `T` spelling of the very same instant, so only the parsed comparison is sound. |
| Timestamps.BeforeIsEarlier | module/bls/ingest.py:177 | `datetime`'s field-by-field `>` holds exactly when one instant lies earlier on the timeline than the other. |
| Metadata.Known | module/bls/ingest.py:82-98 | The snapshot has a key for a file name exactly when the table has a row for that name in the section. |
| Metadata.KnownParsesBack | module/bls/ingest.py:85 | The text the snapshot gives for a file parses with `%Y-%m-%d %H:%M:%S` to exactly the stored instant. |
| Metadata.KnownIgnoresOtherSections | module/bls/ingest.py:87 | Rows of other sections never show in the snapshot. |
| Metadata.Upsert | module/bls/ingest.py:113-129 | The `MERGE` fails (with `RemoteError`) when `DATETIME(...)` rejects the text, and succeeds otherwise. The keys become the old keys plus this file's key, this key holds the parsed instant, and every other row is unchanged. |
| Metadata.UpsertInsertOrUpdate | module/bls/ingest.py:121-128 | The row count grows by one exactly when the key was new; otherwise the row is updated in place. |
| Metadata.UpsertIdempotent | module/bls/ingest.py:113-129 | Running the same `MERGE` twice leaves the table as running it once. |
| Metadata.UpsertStoresInstant | module/bls/ingest.py:125-128 | Upserting an instant's `isoformat()` text stores that very instant. |
| Sink.NonEmpty | module/bls/ingest.py:156-158 | The chunks written are exactly the non-empty ones: none more, and none of them empty. |
| Sink.NonEmptyKeepsBytes | module/bls/ingest.py:156-158 | Skipping empty chunks loses no byte and reorders none. |
| Sink.WriteStream | module/bls/ingest.py:155-158 | The write loop hands the writer exactly the non-empty chunks in order, and the blob ends up holding the concatenation of all chunks. |
| Sink.ChunksOf | module/bls/ingest.py:156 | One chunking `iter_content(1024)` can produce for an uncompressed, unchunked body: non-empty pieces of at most 1024 bytes, all full but the last, and none for an empty body. |
| Sink.ChunksOfJoin | module/bls/ingest.py:156 | The `iter_content(1024)` pieces of a body, joined again, are the body. |
| Sink.Download | module/bls/ingest.py:148-158 | A streamed download succeeds exactly when the request succeeds. The blob then holds exactly the body and nothing else in the bucket changes; a failed request writes nothing. |
| Sync.FileUrl | module/bls/ingest.py:23 | The file URL is `base/section/` followed by the file name, as line 149 appends it. |
| Sync.FileUrlInjective | module/bls/ingest.py:149 | Different files of one section are fetched from different URLs. |
| Sync.BlobPath | module/bls/ingest.py:146 | The blob name is `bls/` followed by exactly the file path. |
| Sync.BlobPathInjective | module/bls/ingest.py:146 | Different paths land in different blobs. |
| Sync.Decide | module/bls/ingest.py:172-181 | A name missing from the snapshot is ingested. Otherwise the decision raises `ValueError` exactly when either text fails its format, and it says ingest exactly when the recorded instant is earlier than the listed one. |
| Sync.DecideByTimeline | module/bls/ingest.py:174-180 | The decision is a comparison of positions on the timeline. |
| Sync.IngestFile | module/bls/ingest.py:137-159 | The file's URL is streamed into `bls/<path>`, and only that blob changes. |
| Sync.Step | module/bls/ingest.py:172-190 | An iteration that writes nothing leaves the store alone. One that raises leaves the table alone. One that writes puts the remote body at the file's blob. |
| Sync.StepDecides | module/bls/ingest.py:172-190 | The blob is written exactly when the decision says ingest and the request succeeds. The iteration completes exactly when the file is skipped, or when it is written and the upsert succeeds. |
| Sync.StepRecords | module/bls/ingest.py:187-190 | A completed write is followed by the upsert of the listed timestamp text. |
| Sync.StepTableFrame | module/bls/ingest.py:113-129 | An iteration touches no table row but the file's own. |
| Sync.Loop | module/bls/ingest.py:170-192 | The loop writes only listed files, and never more files than are listed. |
| Sync.LoopStopsAtError | module/bls/ingest.py:183-190 | The first exception ends the run: files after the failing one make no difference. |
| Sync.LoopKeepsRow | module/bls/ingest.py:170-192 | A row of another section, or of a file the run did not list, keeps its value. |
| Sync.LoopAddsListedRow | module/bls/ingest.py:170-192 | The only rows a run creates are those of listed files of its section. |
| Sync.LoopKeepsBlob | module/bls/ingest.py:170-192 | A blob that no listed file is written to keeps its content. |
| Sync.Sync | module/bls/ingest.py:164-192 | A listing that fails to parse ends the run with that error, before any write. A run writes no more files than the page lists, and every file it writes is named by an anchor on the page and is not on the skip list. |
| Sync.SyncSkips | module/bls/ingest.py:38-41 | Files on the skip list are never written, and no record is created for them. |
| Sync.SyncKeepsOthers | module/bls/ingest.py:164-192 | Rows of other sections, and blobs outside the `bls/` folder, are left untouched by a run. |
| Sync.SyncCovers | module/bls/ingest.py:170-190 | After a run that completes, every listed file has a record no earlier than its listed timestamp. |
| Sync.SyncIdempotent | module/bls/ingest.py:164-192 | Running again right after a completed run over the same page writes nothing and changes nothing. |
| Sync.StepMonotone | module/bls/ingest.py:172-190 | One iteration never moves a row earlier than the snapshot read before the loop showed it: the file's row is rewritten only when the snapshot shows it strictly earlier than the listing. |
| Sync.LoopMonotone | module/bls/ingest.py:170-192 | The same holds for the whole loop, whatever the order and repetition of the listed files. |
| Sync.SyncMonotone | module/bls/ingest.py:164-192 | A run never moves a record earlier: every row the table held before `ingest` is still there, at the same instant or a later one. |
| Sync.StepRowOrigin | module/bls/ingest.py:183-190 | After one iteration every row is either the row before it or the file's own row holding the instant the listing shows. |
| Sync.LoopRowOrigin | module/bls/ingest.py:170-192 | After the loop every row is either the row it started from or the row of some listed file holding that file's listed instant. |
| Sync.SyncRowOrigin | module/bls/ingest.py:164-192 | After a run every row is either unchanged or the row of a file of the parsed listing holding the instant the listing shows for it. |
| Query.EncodeChar | cloud_run_functions/module/datausa/ingest.py:24 | The UTF-8 encoding of a character is 1 to 4 bytes. A single byte encodes exactly the ASCII characters, and a longer encoding is a lead byte followed by continuation bytes. |
| Query.Utf8RoundTrip | cloud_run_functions/module/datausa/ingest.py:24 | UTF-8 decoding gives back the text that was encoded. |
| Query.QuoteByte | cloud_run_functions/module/datausa/ingest.py:24 | A byte stays as it is exactly when it is unreserved. A space becomes `+`, and anything else becomes `%` followed by two hex digits. |
| Query.QuotePlusRoundTrip | cloud_run_functions/module/datausa/ingest.py:24 | The strict decoder `UnquotePlus` undoes `quote_plus`: it recovers the text from `quote_plus` output. |
| Query.QuotePlus | cloud_run_functions/module/datausa/ingest.py:24 | Every character of `quote_plus` output is an unreserved character, a `+` or part of a `%XX` escape, so it never holds the `&` and `=` that structure a query string. |
| Query.QuotePlusUnreserved | cloud_run_functions/module/datausa/ingest.py:24 | Text of unreserved ASCII characters is its own escape. |
| Query.QuotePlusComma | cloud_run_functions/module/datausa/ingest.py:23-24 | A comma between unreserved words is escaped as `%2C` and the words stay. |
| Query.Urlencode | cloud_run_functions/module/datausa/ingest.py:24 | The query is empty exactly when there are no pairs; otherwise splitting it on `&` gives one `key=value` field per pair, in order. |
| Query.UrlencodeRoundTrip | cloud_run_functions/module/datausa/ingest.py:24 | Parsing a query that `urlencode` built gives the pairs back, in order. |
| Query.TwoPairs | cloud_run_functions/module/datausa/ingest.py:24 | Two pairs of unreserved words, the first value holding one comma, encode as `k1=a%2Cb&k2=v2`. |
| DataUsa.JoinItems | cloud_run_functions/module/datausa/ingest.py:23 | `','.join(items)` succeeds exactly when every item is text and gives the texts joined with commas; otherwise it raises `TypeError`. |
| DataUsa.JoinItemsShort | cloud_run_functions/module/datausa/ingest.py:23 | Joining no items gives the empty text, and joining one text gives that text without a comma. |
| DataUsa.JoinItemsSplits | cloud_run_functions/module/datausa/ingest.py:23 | Splitting the joined value on commas gives the comma-free items back. |
| DataUsa.Normalise | cloud_run_functions/module/datausa/ingest.py:19-23 | Every key keeps its place and every entry but a list under `drilldowns` is unchanged. That list becomes its comma-joined text, and the step fails (`TypeError`) exactly when the list holds something other than text. |
| DataUsa.NormaliseWithoutList | cloud_run_functions/module/datausa/ingest.py:19-22 | Without a list under `drilldowns` the parameters are untouched. |
| DataUsa.NormaliseIdempotent | cloud_run_functions/module/datausa/ingest.py:19-23 | Normalising twice is normalising once. |
| DataUsa.DecimalDigits | cloud_run_functions/module/datausa/ingest.py:24 | `str()` of a natural number is its decimal digits, which read back as the number and have no leading zero. |
| DataUsa.Str | cloud_run_functions/module/datausa/ingest.py:24 | `str()` of text is the text, of a non-negative integer its digits, of a negative one a `-` followed by the digits of its magnitude, and of a list a bracketed text. |
| DataUsa.ApiUrl | cloud_run_functions/module/datausa/ingest.py:19-24 | Building the URL fails exactly when the normalisation does, with `TypeError`. |
| DataUsa.ApiUrlDecodes | cloud_run_functions/module/datausa/ingest.py:24 | The URL is `base/path?` followed by a query that decodes back to the normalised parameters, each value in its `str()` form. |
| DataUsa.ApiUrlTwo | cloud_run_functions/module/datausa/ingest.py:19-24 | `{"drilldowns": [a, b], k: v}` over unreserved words gives the query `drilldowns=a%2Cb&k=v`, as in `drilldowns=a%2Cb&year=2020`. |
| DataUsa.SnapshotPath | cloud_run_functions/module/datausa/ingest.py:32-36 | The snapshot path is `datausa/`, the region, the population folder, and the day's `isoformat()` before `.json`: ten characters, zero-padded digits with `-` at positions 4 and 7, which read back as that day. |
| Timestamps.DateShape | cloud_run_functions/module/datausa/ingest.py:35 | `date.isoformat()` is ten characters: zero-padded digits with `-` at positions 4 and 7. |
| DataUsa.SnapshotPathInjective | cloud_run_functions/module/datausa/ingest.py:32-36 | Two days share a snapshot blob exactly when they are the same day. |
| DataUsa.Configured | cloud_run_functions/module/datausa/ingest.py:19-45 | Constructing the ingester and running it fails with `TypeError` exactly when the drilldowns do not join. Otherwise the snapshot blob receives the body of a URL that is `base/path?` followed by a query decoding to the normalised parameters, or the run fails with a remote error. |
| DataUsa.Ingest | cloud_run_functions/module/datausa/ingest.py:31-45 | The API's answer lands in the day's snapshot blob, which holds exactly the body and nothing else in the bucket changes; a failed request writes nothing. |

## Left out

- HTTP, HTML parsing, BigQuery and Cloud Storage are not modelled as code.
  - The page is given as its `<pre>` anchors, each with its text, its `href`
    and its previous sibling: none, a text node, or an element.
  - The server is a map from URL to body. The code never checks the status
    code, so an error page counts as a body, as it does in the code.
  - The table is a map, and the bucket is a map from names to bytes.
- The request headers, `content_type`, the `print` calls, `__cleanup_old_files`
  (a no-op) and the Flask entry point with its YAML configuration are not
  modelled.
- `DataUsaIngest.__init__` rewrites `query_params['drilldowns']` in the
  caller's dictionary. The model returns the normalised parameters instead
  of mutating its argument; a second construction over the same dictionary
  sees the joined text and leaves it alone (`DataUsa.NormaliseIdempotent`).
- `datetime.now()` is not called. The day is a parameter of
  `DataUsa.SnapshotPath` and `DataUsa.Ingest`.
- The SQL text is not modelled. The `MERGE` interpolates the file name and
  the timestamp into quoted literals. The model keys the row by the values
  themselves, so a name containing `'` is not modelled; in the code such a
  name breaks the query.
- Metadata.Upsert: the text passed to BigQuery's `DATETIME()` is parsed with
  the `%Y-%m-%dT%H:%M:%S` format. The ingester only ever passes
  `isoformat()` text, which both accept. BigQuery's wider grammar, such as
  fractional seconds, is not modelled.
- Sink.ChunksOf: `iter_content(1024)` is modelled by fixed 1024-byte pieces.
  With chunked transfer encoding or a gzip-encoded body the pieces have other
  sizes, some possibly empty. The blob's content does not depend on this:
  `Sink.WriteStream` and `Sink.NonEmptyKeepsBytes` hold for any sequence of
  chunks.
- Metadata.Known: the metadata read cannot fail in the model. A failing
  BigQuery query in `__get_metadata` raises after the listing and before any
  write; a failing `MERGE` request is modelled only as `DATETIME` rejecting
  the text. Other BigQuery client failures are not modelled.
- A failed streaming write that leaves a partial blob is not modelled. A
  request either fails before writing or delivers its whole body.
- The metadata snapshot is read once, before the loop, as in the code. No
  concurrent writer changes the table during a run.
- Sync.SyncCovers, Sync.SyncIdempotent: these assume the listing names each
  file once. With a repeated name, the second entry is decided against the
  snapshot taken before the first was upserted.
- Timestamps.Strptime: this covers the directives the ingesters use (`%Y %m %d
  %H %I %M %S %p`), matched the way CPython's `_strptime` regular expressions
  do. Locale-dependent `%p` spellings other than `AM`/`PM` and fractional
  seconds are not modelled. Digits are ASCII digits only; CPython also
  accepts the other Unicode decimal digits.
- DataUsa.Str: parameter values are text, integers, booleans and lists of
  those. `repr` of text quotes it with `'` without escaping inner quotes or
  backslashes. Floats, `None` and dictionaries from the YAML are not modelled.
- Query.Utf8RoundTrip: this holds for texts of Unicode scalar values. Dafny's
  `char` cannot hold the lone surrogates Python would reject with an
  encoding error.
- A worked instance of `drilldowns=a%2Cb&year=2020` on literal strings is not
  proved separately. It is `DataUsa.ApiUrlTwo` (and `Query.TwoPairs`) with
  `a = "a"`, `b = "b"`, `k = "year"`, `v = "2020"`; evaluating the encoder
  symbolically on those literals is beyond the verifier's resource bounds.

=== FILE: datausa.dfy ===
/** `DataUsaIngest` in `cloud_run_functions/module/datausa/ingest.py`: the
    request URL built from the configured query parameters, and the dated
    snapshot blob the response is streamed into. */
module DataUsa {
  import opened Results
  import opened Strings
  import opened Timestamps
  import opened Sink
  import opened Query

  /** The values a query parameter can hold when the configuration is read
      from YAML: text, integers, booleans and lists of those. */
  datatype ParamValue = Text(s: string) | Number(n: int) | Flag(b: bool) | Items(items: seq<ParamValue>)

  /** `query_params`: a dictionary, its keys in insertion order. */
  type Params = seq<(string, ParamValue)>

  const Drilldowns: string := "drilldowns"

  // ---------------------------------------------------------------------
  // `str()` of a value, as `urlencode` applies it.

  /** `str(n)` of a natural number: ASCII digits that read back as `n`, with
      no leading zero except in `0` itself. */
  function DecimalDigits(n: nat): (r: string)
    ensures |r| > 0 && forall k :: 0 <= k < |r| ==> IsDigit(r[k])
    ensures Value(r) == n
    ensures r[0] == '0' ==> r == "0"
  {
    if n < 10 then
      var r := [DigitChar(n)];
      assert r[..0] == [];
      r
    else
      var p := DecimalDigits(n / 10);
      var r := p + [DigitChar(n % 10)];
      assert r[..|r| - 1] == p && r[0] == p[0];
      r
  }

  /** `str(n)` of an integer: a minus sign in front of a negative one. */
  function Decimal(n: int): (r: string)
    ensures n >= 0 ==> |r| > 0 && (forall k :: 0 <= k < |r| ==> IsDigit(r[k])) && Value(r) == n
    ensures n < 0 ==> |r| > 1 && r[0] == '-' && (forall k :: 1 <= k < |r| ==> IsDigit(r[k])) && Value(r[1..]) == -n
  {
    if n < 0 then
      var r := "-" + DecimalDigits(-n);
      assert r[1..] == DecimalDigits(-n);
      r
    else DecimalDigits(n)
  }

  /** `str(v)`. Text is itself, an integer its decimal numeral, a boolean
      `True` or `False`, and a list its items' `repr`s between brackets,
      separated by `, `. */
  function Str(v: ParamValue): (r: string)
    ensures v.Text? ==> r == v.s
    ensures v.Number? && v.n >= 0 ==> |r| > 0 && (forall k :: 0 <= k < |r| ==> IsDigit(r[k])) && Value(r) == v.n
    ensures v.Number? && v.n < 0 ==> |r| > 1 && r[0] == '-' && Value(r[1..]) == -v.n
    ensures v.Items? ==> |r| >= 2 && r[0] == '[' && r[|r| - 1] == ']'
    decreases v, 1
  {
    match v
    case Text(s) => s
    case Number(n) => Decimal(n)
    case Flag(b) => if b then "True" else "False"
    case Items(xs) => "[" + JoinReprs(xs) + "]"
  }

  /** `repr(v)`: text is quoted with single quotes. */
  function Repr(v: ParamValue): string
    decreases v, 2
  {
    if v.Text? then "'" + v.s + "'" else Str(v)
  }

  function JoinReprs(xs: seq<ParamValue>): string
    decreases xs
  {
    if |xs| == 0 then ""
    else if |xs| == 1 then Repr(xs[0])
    else Repr(xs[0]) + ", " + JoinReprs(xs[1..])
  }

  // ---------------------------------------------------------------------
  // The drilldowns normalisation of `__init__`.

  /** `','.join(items)`: the texts joined with commas; an item that is not
      text is a `TypeError`. */
  function JoinItems(items: seq<ParamValue>): (r: Result<string, Raised>)
    ensures r.Success? <==> forall k :: 0 <= k < |items| ==> items[k].Text?
    ensures r.Failure? ==> r.error == TypeError
    ensures r.Success? ==> r.value == Join(Texts(items), ',')
  {
    if forall k :: 0 <= k < |items| ==> items[k].Text? then Success(Join(Texts(items), ','))
    else Failure(TypeError)
  }

  function Texts(items: seq<ParamValue>): (r: seq<string>)
    requires forall k :: 0 <= k < |items| ==> items[k].Text?
    ensures |r| == |items| && forall k :: 0 <= k < |items| ==> r[k] == items[k].s
  {
    seq(|items|, k requires 0 <= k < |items| => items[k].s)
  }

  /** The entry of one key: a list under `drilldowns` becomes its
      comma-joined text; anything else stays. */
  function NormaliseEntry(e: (string, ParamValue)): (r: Result<(string, ParamValue), Raised>)
    ensures r.Success? ==> r.value.0 == e.0
    ensures e.0 != Drilldowns || !e.1.Items? ==> r == Success(e)
    ensures r.Success? ==> !(r.value.0 == Drilldowns && r.value.1.Items?)
  {
    if e.0 == Drilldowns && e.1.Items? then
      match JoinItems(e.1.items)
      case Failure(err) => Failure(err)
      case Success(t) => Success((e.0, Text(t)))
    else Success(e)
  }

  /** The `if` at the top of `__init__`: `query_params['drilldowns']`, when it
      is a list, is replaced by `','.join` of it. Every key stays in place,
      only a list under `drilldowns` changes, and the step fails, with
      `TypeError`, exactly when that list holds something other than text. */
  function Normalise(p: Params): (r: Result<Params, Raised>)
    ensures r.Success? <==>
      forall k :: 0 <= k < |p| && p[k].0 == Drilldowns && p[k].1.Items? ==> JoinItems(p[k].1.items).Success?
    ensures r.Failure? ==> r.error == TypeError
    ensures r.Success? ==> |r.value| == |p| && forall k :: 0 <= k < |p| ==> r.value[k].0 == p[k].0
    ensures r.Success? ==>
      forall k :: 0 <= k < |p| && (p[k].0 != Drilldowns || !p[k].1.Items?) ==> r.value[k] == p[k]
    ensures r.Success? ==>
      forall k :: 0 <= k < |p| && p[k].0 == Drilldowns && p[k].1.Items? ==> r.value[k].1 == Text(JoinItems(p[k].1.items).value)
  {
    NormaliseEntries(p);
    MapAll(p, NormaliseEntry)
  }

  lemma NormaliseEntries(p: Params)
    ensures var r := MapAll(p, NormaliseEntry);
      r.Success? <==> forall k :: 0 <= k < |p| && p[k].0 == Drilldowns && p[k].1.Items? ==> JoinItems(p[k].1.items).Success?
    ensures var r := MapAll(p, NormaliseEntry);
      r.Failure? ==> r.error == TypeError
    ensures var r := MapAll(p, NormaliseEntry);
      r.Success? ==> |r.value| == |p| && forall k :: 0 <= k < |p| ==> r.value[k].0 == p[k].0
    ensures var r := MapAll(p, NormaliseEntry);
      r.Success? ==> forall k :: 0 <= k < |p| && (p[k].0 != Drilldowns || !p[k].1.Items?) ==> r.value[k] == p[k]
    ensures var r := MapAll(p, NormaliseEntry);
      r.Success? ==> forall k :: 0 <= k < |p| && p[k].0 == Drilldowns && p[k].1.Items? ==> r.value[k].1 == Text(JoinItems(p[k].1.items).value)
  {
    var r := MapAll(p, NormaliseEntry);
    if r.Failure? {
      var k := FirstFailure(p, NormaliseEntry);
      assert NormaliseEntry(p[k]) == Failure(r.error);
      assert p[k].0 == Drilldowns && p[k].1.Items? && JoinItems(p[k].1.items).Failure?;
    } else {
      forall k | 0 <= k < |p|
        ensures r.value[k].0 == p[k].0
        ensures p[k].0 == Drilldowns && p[k].1.Items? ==> r.value[k].1 == Text(JoinItems(p[k].1.items).value)
      {
        assert NormaliseEntry(p[k]) == Success(r.value[k]);
      }
    }
  }

  /** Without a list under `drilldowns` the parameters are untouched. */
  lemma NormaliseWithoutList(p: Params)
    requires forall k :: 0 <= k < |p| ==> p[k].0 != Drilldowns || !p[k].1.Items?
    ensures Normalise(p) == Success(p)
  {
    var r := Normalise(p);
    assert r.Success?;
    assert r.value == p;
  }

  /** Normalising twice is normalising once. */
  lemma NormaliseIdempotent(p: Params)
    requires Normalise(p).Success?
    ensures Normalise(Normalise(p).value) == Normalise(p)
  {
    var q := Normalise(p).value;
    forall k | 0 <= k < |q|
      ensures q[k].0 != Drilldowns || !q[k].1.Items?
    {
      assert NormaliseEntry(p[k]) == Success(q[k]);
    }
    NormaliseWithoutList(q);
  }

  /** An empty list gives the empty string and a single item gives that item. */
  lemma JoinItemsShort(x: string)
    ensures JoinItems([]) == Success("")
    ensures JoinItems([Text(x)]) == Success(x)
  {
    assert Texts([Text(x)]) == [x];
  }

  /** A non-empty list of comma-free texts is recovered by splitting the
      joined value on commas. */
  lemma JoinItemsSplits(items: seq<ParamValue>)
    requires |items| > 0 && JoinItems(items).Success?
    requires forall k :: 0 <= k < |items| ==> ',' !in items[k].s
    ensures Split(JoinItems(items).value, ',') == Texts(items)
  {
    SplitJoin(Texts(items), ',');
  }

  // ---------------------------------------------------------------------
  // The request URL.

  /** Every pair as `urlencode` sees it: both sides through `str()`. */
  function StrPairs(p: Params): (r: seq<(string, string)>)
    ensures |r| == |p| && forall k :: 0 <= k < |p| ==> r[k] == (p[k].0, Str(p[k].1))
  {
    seq(|p|, k requires 0 <= k < |p| => (p[k].0, Str(p[k].1)))
  }

  /** `f"{base_url}/{resource_path}?{urlencode(query_params)}"` after the
      normalisation. */
  function ApiUrl(baseUrl: string, resourcePath: string, params: Params): (r: Result<string, Raised>)
    ensures r.Success? <==> Normalise(params).Success?
    ensures r.Failure? ==> r.error == TypeError
  {
    match Normalise(params)
    case Failure(e) => Failure(e)
    case Success(p) => Success(baseUrl + "/" + resourcePath + "?" + Urlencode(StrPairs(p)))
  }

  /** The URL is the endpoint, `?`, and a query string that decodes back to
      the normalised parameters, every value in its `str()` form. */
  lemma ApiUrlDecodes(baseUrl: string, resourcePath: string, params: Params)
    requires Normalise(params).Success?
    ensures var url := ApiUrl(baseUrl, resourcePath, params).value;
      var n := |baseUrl| + |resourcePath| + 2;
      n <= |url| && url[..n] == baseUrl + "/" + resourcePath + "?" &&
      ParseQuery(url[n..]) == Some(StrPairs(Normalise(params).value))
  {
    var q := Urlencode(StrPairs(Normalise(params).value));
    var head := baseUrl + "/" + resourcePath + "?";
    assert ApiUrl(baseUrl, resourcePath, params).value == head + q;
    assert (head + q)[..|head|] == head && (head + q)[|head|..] == q;
    UrlencodeRoundTrip(StrPairs(Normalise(params).value));
  }

  /** The list `["a", "b"]` under `drilldowns` becomes the single value
      `a,b`, and the other entry is left alone. */
  lemma NormaliseTwo(a: string, b: string, k2: string, v2: string)
    requires k2 != Drilldowns
    ensures Normalise([(Drilldowns, Items([Text(a), Text(b)])), (k2, Text(v2))])
      == Success([(Drilldowns, Text(a + "," + b)), (k2, Text(v2))])
  {
    var p: Params := [(Drilldowns, Items([Text(a), Text(b)])), (k2, Text(v2))];
    var q: Params := [(Drilldowns, Text(a + "," + b)), (k2, Text(v2))];
    assert Texts(p[0].1.items) == [a, b];
    JoinTwo(a, b, ',');
    assert JoinItems(p[0].1.items) == Success(a + "," + b);
    assert Normalise(p).Success?;
    var r := Normalise(p).value;
    assert r[0] == q[0] && r[1] == q[1];
    assert r == q;
  }

  lemma DrilldownsUnreserved()
    ensures AllUnreserved(Drilldowns)
  {
  }

  /** A configuration `{"drilldowns": [a, b], k2: v2}` of unreserved words,
      such as `{"drilldowns": ["a", "b"], "year": "2020"}`, gives the query
      `drilldowns=a%2Cb&year=2020`: the list joined with a comma and the comma
      escaped as `%2C`. */
  lemma ApiUrlTwo(baseUrl: string, resourcePath: string, a: string, b: string, k2: string, v2: string)
    requires AllUnreserved(a) && AllUnreserved(b) && AllUnreserved(k2) && AllUnreserved(v2)
    requires k2 != Drilldowns
    ensures ApiUrl(baseUrl, resourcePath, [(Drilldowns, Items([Text(a), Text(b)])), (k2, Text(v2))])
      == Success(baseUrl + "/" + resourcePath + "?" + (Drilldowns + "=" + a + "%2C" + b + "&" + k2 + "=" + v2))
  {
    NormaliseTwo(a, b, k2, v2);
    var q: Params := [(Drilldowns, Text(a + "," + b)), (k2, Text(v2))];
    assert StrPairs(q) == [(Drilldowns, a + "," + b), (k2, v2)];
    DrilldownsUnreserved();
    TwoPairs(Drilldowns, a, b, k2, v2);
    assert Normalise([(Drilldowns, Items([Text(a), Text(b)])), (k2, Text(v2))]) == Success(q);
  }

  // ---------------------------------------------------------------------
  // The snapshot.

  const SnapshotFolder: string := "/cube_acs_yg_total_population_data/"

  /** `f"datausa/{region}/cube_acs_yg_total_population_data/{day.isoformat()}.json"`;
      the day, `datetime.now().date()` in the source, is a parameter. The
      path is `datausa/`, the region, the population folder, then the day in
      `%Y-%m-%d` form, which reads back as that day, and `.json`. */
  function SnapshotPath(region: string, day: Date): (p: string)
    requires ValidDate(day)
    ensures |p| == |region| + |SnapshotFolder| + 23
    ensures p[..8] == "datausa/" && p[|p| - 5..] == ".json"
    ensures p[8..8 + |region|] == region && p[8 + |region|..8 + |region| + |SnapshotFolder|] == SnapshotFolder
    ensures Strptime(p[|p| - 15..|p| - 5], DateFormat) == Success(Instant(day, 0, 0, 0))
    ensures var d := p[|p| - 15..|p| - 5];
      d[4] == '-' && d[7] == '-' && forall k :: 0 <= k < 10 && k != 4 && k != 7 ==> IsDigit(d[k])
  {
    var d := Render(Instant(day, 0, 0, 0), DateFormat);
    IsoAndSpaceSpellings(Instant(day, 0, 0, 0));
    DateShape(Instant(day, 0, 0, 0));
    PathSlices(region, d);
    DateRoundTrip(day);
    "datausa/" + region + SnapshotFolder + d + ".json"
  }

  lemma PathSlices(region: string, d: string)
    requires |d| == 10
    ensures var p := "datausa/" + region + SnapshotFolder + d + ".json";
      p[..8] == "datausa/" && p[|p| - 5..] == ".json" && p[|p| - 15..|p| - 5] == d
    ensures var p, n := "datausa/" + region + SnapshotFolder + d + ".json", 8 + |region|;
      p[8..n] == region && p[n..n + |SnapshotFolder|] == SnapshotFolder
  {
    var head := "datausa/" + region + SnapshotFolder;
    var p := head + d + ".json";
    assert p[..8] == head[..8];
    assert p[8..8 + |region|] == head[8..8 + |region|];
    assert p[8 + |region|..8 + |region| + |SnapshotFolder|] == head[8 + |region|..];
  }

  /** Snapshots of different days never overwrite each other; two runs on
      the same day write the same blob. */
  lemma SnapshotPathInjective(region: string, a: Date, b: Date)
    requires ValidDate(a) && ValidDate(b)
    ensures SnapshotPath(region, a) == SnapshotPath(region, b) <==> a == b
  {
    if SnapshotPath(region, a) == SnapshotPath(region, b) {
      var p := SnapshotPath(region, a);
      assert Success(Instant(a, 0, 0, 0)) == Strptime(p[|p| - 15..|p| - 5], DateFormat) == Success(Instant(b, 0, 0, 0));
    }
  }

  /** `ingest`: stream the API's answer into the day's snapshot blob. A
      failed request writes nothing. */
  function Ingest(region: string, apiUrl: string, day: Date, remote: Remote, bucket: Bucket): (r: Result<Bucket, Raised>)
    requires ValidDate(day)
    ensures r.Success? <==> apiUrl in remote
    ensures r.Failure? ==> r.error == RemoteError
    ensures r.Success? ==> r.value == bucket[SnapshotPath(region, day) := remote[apiUrl]]
  {
    Download(remote, apiUrl, bucket, SnapshotPath(region, day))
  }

  /** Constructing the ingester and calling `ingest`: `__init__` builds the
      URL first, so a configuration it rejects writes nothing. Otherwise the
      blob of the day holds the server's answer to a request for the
      endpoint whose query string decodes to the normalised parameters, and
      no other blob changes. */
  function Configured(region: string, baseUrl: string, resourcePath: string, params: Params, day: Date, remote: Remote, bucket: Bucket): (r: Result<Bucket, Raised>)
    requires ValidDate(day)
    ensures Normalise(params).Failure? ==> r == Failure(TypeError)
    ensures r.Success? ==> Normalise(params).Success?
    ensures r.Success? ==> exists url :: url in remote && r.value == bucket[SnapshotPath(region, day) := remote[url]]
                                        && Fetches(url, baseUrl, resourcePath, Normalise(params).value)
    ensures r.Failure? && Normalise(params).Success? ==> r.error == RemoteError
  {
    match ApiUrl(baseUrl, resourcePath, params)
    case Failure(e) => Failure(e)
    case Success(url) =>
      ApiUrlDecodes(baseUrl, resourcePath, params);
      Ingest(region, url, day, remote, bucket)
  }

  /** `url` is the endpoint, `?`, and a query string that decodes to the
      given parameters in their `str()` form. */
  predicate Fetches(url: string, baseUrl: string, resourcePath: string, p: Params) {
    var n := |baseUrl| + |resourcePath| + 2;
    n <= |url| && url[..n] == baseUrl + "/" + resourcePath + "?" && ParseQuery(url[n..]) == Some(StrPairs(p))
  }
}

=== FILE: listing.dfy ===
/** The BLS directory listing as the ingester reads it (`module/bls/ingest.py`,
    `__get_file_tags` and `__parse_file_tags`): the anchors inside the page's
    `<pre>` block, minus the skip list, each turned into a file name, a
    relative path and an `isoformat()` timestamp taken from the text just
    before the anchor. */
module Listing {
  import opened Results
  import opened Strings
  import opened Timestamps

  /** What `previous_sibling` gives for an anchor: nothing, a text node, or
      another element such as `<br>`. */
  datatype Sibling = NoSibling | TextNode(content: string) | Element

  /** One `<a>` element of the `<pre>` block: its text, its `href` attribute
      (absent when the element has none) and its previous sibling. */
  datatype Anchor = Anchor(text: string, href: Option<string>, before: Sibling)

  /** The dictionary `__parse_file_tags` builds per anchor. */
  datatype FileEntry = FileEntry(fileName: string, filePath: string, lastUpdateTs: string)

  // ---------------------------------------------------------------------
  // The skip list.

  /** `[tag for tag in a_tags if tag.text not in files_to_skip]`. */
  function Keep(anchors: seq<Anchor>, skip: seq<string>): (r: seq<Anchor>)
    ensures |r| <= |anchors|
    ensures forall a :: a in r <==> a in anchors && a.text !in skip
  {
    if |anchors| == 0 then []
    else (if anchors[0].text in skip then [] else [anchors[0]]) + Keep(anchors[1..], skip)
  }

  /** The filter works anchor by anchor, so it keeps the page order: filtering
      a concatenation is concatenating the filtered halves. */
  lemma {:induction false} KeepAppend(a: seq<Anchor>, b: seq<Anchor>, skip: seq<string>)
    ensures Keep(a + b, skip) == Keep(a, skip) + Keep(b, skip)
    decreases |a|
  {
    if |a| == 0 {
      assert a + b == b;
    } else {
      assert (a + b)[0] == a[0] && (a + b)[1..] == a[1..] + b;
      KeepAppend(a[1..], b, skip);
    }
  }

  /** With nothing of the page on the skip list, every anchor is kept. */
  lemma {:induction false} KeepNothingSkipped(anchors: seq<Anchor>, skip: seq<string>)
    requires forall k :: 0 <= k < |anchors| ==> anchors[k].text !in skip
    ensures Keep(anchors, skip) == anchors
    decreases |anchors|
  {
    if |anchors| > 0 {
      KeepNothingSkipped(anchors[1..], skip);
    }
  }

  /** Filtering again changes nothing. */
  lemma KeepIdempotent(anchors: seq<Anchor>, skip: seq<string>)
    ensures Keep(Keep(anchors, skip), skip) == Keep(anchors, skip)
  {
    var r := Keep(anchors, skip);
    forall k | 0 <= k < |r|
      ensures r[k].text !in skip
    {
      assert r[k] in r;
    }
    KeepNothingSkipped(r, skip);
  }

  // ---------------------------------------------------------------------
  // One anchor.

  /** `href.strip("/")`: the relative path of the file. */
  function StripSlashes(href: string): (r: string)
    ensures r == [] || (r[0] != '/' && r[|r| - 1] != '/')
    ensures Lead(href, IsSlash) + |r| <= |href| && r == href[Lead(href, IsSlash)..Lead(href, IsSlash) + |r|]
    ensures forall k :: 0 <= k < |href| && !(Lead(href, IsSlash) <= k < Lead(href, IsSlash) + |r|) ==> href[k] == '/'
  {
    Strip(href, IsSlash)
  }

  /** A path is stripped at most once: stripping the result again changes nothing. */
  lemma StripSlashesIdempotent(href: string)
    ensures StripSlashes(StripSlashes(href)) == StripSlashes(href)
  {
    StripIdempotent(href, IsSlash);
  }

  /** The listing's instant: the text before the anchor is stripped, its
      whitespace runs collapsed and split on single spaces; the first three
      tokens (each stripped again) are joined with single spaces and parsed
      with `%m/%d/%Y %I:%M %p`. Fewer than three tokens is the `IndexError`
      of `prev_sib[2]`; text that does not parse is `strptime`'s `ValueError`. */
  function ListingInstant(before: string): (r: Result<Instant, Raised>)
    ensures r.Success? ==> Valid(r.value) && r.value.second == 0
    ensures r.Failure? <==> |Tokens(before)| < 3 || Strptime(TimestampText(Tokens(before)), ListingFormat).Failure?
    ensures r.Failure? ==> r.error == (if |Tokens(before)| < 3 then IndexError else ValueError)
  {
    var tokens := Tokens(before);
    if |tokens| < 3 then Failure(IndexError)
    else
      var text := TimestampText(tokens);
      var parsed := Strptime(text, ListingFormat);
      if parsed.Success? then
        ListingSecondIsZero(text);
        parsed
      else parsed
  }

  /** `f"{t[0].strip()} {t[1].strip()} {t[2].strip()}"`. */
  function TimestampText(tokens: seq<string>): string
    requires |tokens| >= 3
  {
    Strip(tokens[0], IsSpace) + " " + Strip(tokens[1], IsSpace) + " " + Strip(tokens[2], IsSpace)
  }

  /** The dictionary for one anchor. The steps run in the source's order, so
      the first one that fails decides the exception: no sibling before the
      anchor (`None.strip()`), an element sibling (its `strip` attribute is a
      child search that finds nothing, and calling `None` fails), then no
      `href`, then too few tokens, then an unparsable timestamp. */
  function ParseTag(a: Anchor): (r: Result<FileEntry, Raised>)
    ensures r.Success? <==> a.before.TextNode? && a.href.Some? && ListingInstant(a.before.content).Success?
    ensures a.before.NoSibling? ==> r == Failure(AttributeError)
    ensures a.before.Element? ==> r == Failure(TypeError)
    ensures a.before.TextNode? && a.href.None? ==> r == Failure(AttributeError)
    ensures a.before.TextNode? && a.href.Some? && r.Failure? ==> r.error == ListingInstant(a.before.content).error
    ensures r.Success? ==> r.value.fileName == a.text && r.value.filePath == StripSlashes(a.href.value)
    ensures r.Success? ==> r.value.lastUpdateTs == Render(ListingInstant(a.before.content).value, IsoFormat)
  {
    match a.before
    case NoSibling => Failure(AttributeError)
    case Element => Failure(TypeError)
    case TextNode(s) =>
      if a.href.None? then Failure(AttributeError)
      else
        match ListingInstant(s)
        case Failure(e) => Failure(e)
        case Success(i) => Success(FileEntry(a.text, StripSlashes(a.href.value), Render(i, IsoFormat)))
  }

  /** `__parse_file_tags`: every anchor in order, or the exception of the
      first anchor that fails. */
  function ParseAll(anchors: seq<Anchor>): (r: Result<seq<FileEntry>, Raised>)
    ensures r.Success? ==> |r.value| == |anchors|
    ensures r.Success? ==> forall k :: 0 <= k < |anchors| ==> ParseTag(anchors[k]) == Success(r.value[k])
    ensures r.Success? ==> forall k :: 0 <= k < |anchors| ==> r.value[k].fileName == anchors[k].text
    ensures r.Failure? ==>
      exists k :: 0 <= k < |anchors| && ParseTag(anchors[k]) == Failure(r.error) && forall j :: 0 <= j < k ==> ParseTag(anchors[j]).Success?
  {
    var r := MapAll(anchors, ParseTag);
    if r.Failure? then
      var k := FirstFailure(anchors, ParseTag);
      assert ParseTag(anchors[k]) == Failure(r.error);
      r
    else
      forall k | 0 <= k < |anchors|
        ensures r.value[k].fileName == anchors[k].text
      {
        assert ParseTag(anchors[k]) == Success(r.value[k]);
      }
      r
  }

  /** `__get_file_list`: the anchors the skip filter keeps, each parsed, in
      page order; a failure is the exception of one anchor of the page that
      is not on the skip list. */
  function FileList(anchors: seq<Anchor>, skip: seq<string>): (r: Result<seq<FileEntry>, Raised>)
    ensures r.Success? ==> |r.value| == |Keep(anchors, skip)| <= |anchors|
    ensures r.Success? ==> forall k :: 0 <= k < |r.value| ==> ParseTag(Keep(anchors, skip)[k]) == Success(r.value[k])
    ensures r.Success? ==> forall k :: 0 <= k < |r.value| ==> r.value[k].fileName == Keep(anchors, skip)[k].text
    ensures r.Failure? ==> exists a :: a in anchors && a.text !in skip && ParseTag(a) == Failure(r.error)
  {
    var r := ParseAll(Keep(anchors, skip));
    if r.Success? then r
    else
      KeptFailure(anchors, skip);
      r
  }

  lemma KeptFailure(anchors: seq<Anchor>, skip: seq<string>)
    requires ParseAll(Keep(anchors, skip)).Failure?
    ensures exists a :: a in anchors && a.text !in skip && ParseTag(a) == Failure(ParseAll(Keep(anchors, skip)).error)
  {
    var kept := Keep(anchors, skip);
    var e := ParseAll(kept).error;
    var k :| 0 <= k < |kept| && ParseTag(kept[k]) == Failure(e);
    assert kept[k] in kept;
  }

  /** No file on the skip list reaches the decision loop, and every other
      anchor of the page does. */
  lemma SkipRespected(anchors: seq<Anchor>, skip: seq<string>)
    requires FileList(anchors, skip).Success?
    ensures var files := FileList(anchors, skip).value;
      forall k :: 0 <= k < |files| ==> files[k].fileName !in skip
    ensures var files := FileList(anchors, skip).value;
      forall a :: a in anchors && a.text !in skip ==> exists k :: 0 <= k < |files| && files[k].fileName == a.text
  {
    var kept := Keep(anchors, skip);
    NamesFollow(anchors, kept, ParseAll(kept).value, skip);
  }

  lemma NamesFollow(anchors: seq<Anchor>, kept: seq<Anchor>, files: seq<FileEntry>, skip: seq<string>)
    requires forall a :: a in kept <==> a in anchors && a.text !in skip
    requires |files| == |kept| && forall k :: 0 <= k < |kept| ==> files[k].fileName == kept[k].text
    ensures forall k :: 0 <= k < |files| ==> files[k].fileName !in skip
    ensures forall a :: a in anchors && a.text !in skip ==> exists k :: 0 <= k < |files| && files[k].fileName == a.text
  {
    forall k | 0 <= k < |files|
      ensures files[k].fileName !in skip
    {
      assert kept[k] in kept;
    }
    forall a | a in anchors && a.text !in skip
      ensures exists k :: 0 <= k < |files| && files[k].fileName == a.text
    {
      var k :| 0 <= k < |kept| && kept[k] == a;
      assert files[k].fileName == a.text;
    }
  }

  /** Every recorded timestamp is `isoformat()` text that parses back, with
      `%Y-%m-%dT%H:%M:%S`, to the instant the listing showed. */
  lemma EntryTimestampParses(a: Anchor)
    requires ParseTag(a).Success?
    ensures Strptime(ParseTag(a).value.lastUpdateTs, IsoFormat) == ListingInstant(a.before.content)
  {
    IsoRoundTrip(ListingInstant(a.before.content).value);
  }

  // ---------------------------------------------------------------------
  // Reading back what a listing line shows.

  /** Whatever whitespace surrounds a listing line and separates its words,
      the instant is `strptime` of its first three words joined by single
      spaces: the size column and the amount of whitespace play no part. */
  lemma ListingLineReads(lead: string, d: string, g1: string, c: string, g2: string, m: string, g3: string, size: string, trail: string)
    requires forall k :: 0 <= k < |lead| ==> IsSpace(lead[k])
    requires forall k :: 0 <= k < |trail| ==> IsSpace(trail[k])
    requires Word(d) && Word(c) && Word(m) && Word(size)
    requires Gap(g1) && Gap(g2) && Gap(g3)
    ensures ListingInstant(lead + d + g1 + c + g2 + m + g3 + size + trail) == Strptime(d + " " + c + " " + m, ListingFormat)
  {
    var parts := [d, c, m, size];
    var gaps := [g1, g2, g3];
    assert lead + d + g1 + c + g2 + m + g3 + size + trail == lead + Spaced(parts, gaps) + trail by {
      SpacedFour(d, g1, c, g2, m, g3, size);
      LineAssoc(lead, d, g1, c, g2, m, g3, size, trail);
    }
    assert Tokens(lead + Spaced(parts, gaps) + trail) == parts by {
      TokensOfRuns(lead, parts, gaps, trail);
    }
    assert TimestampText(parts) == d + " " + c + " " + m by {
      StripKeeps(d, IsSpace);
      StripKeeps(c, IsSpace);
      StripKeeps(m, IsSpace);
    }
  }

  lemma SpacedFour(d: string, g1: string, c: string, g2: string, m: string, g3: string, size: string)
    ensures Spaced([d, c, m, size], [g1, g2, g3]) == d + g1 + (c + g2 + (m + g3 + size))
  {
    assert [d, c, m, size][1..] == [c, m, size] && [g1, g2, g3][1..] == [g2, g3];
    assert [c, m, size][1..] == [m, size] && [g2, g3][1..] == [g3];
    assert [m, size][1..] == [size] && [g3][1..] == [];
    assert Spaced([size], []) == size;
    assert Spaced([m, size], [g3]) == m + g3 + size;
    assert Spaced([c, m, size], [g2, g3]) == c + g2 + (m + g3 + size);
  }

  lemma LineAssoc(lead: string, d: string, g1: string, c: string, g2: string, m: string, g3: string, size: string, trail: string)
    ensures lead + d + g1 + c + g2 + m + g3 + size + trail == lead + (d + g1 + (c + g2 + (m + g3 + size))) + trail
  {
  }

  /** A listing line (any whitespace, the date, a whitespace run, the 12-hour
      clock, a whitespace run, `AM`/`PM`, a whitespace run, the size column,
      any whitespace) is read back as the instant it shows, whether its
      month, day and hour are zero-padded or not; the 12-hour clock is
      converted to the 24-hour one on the way. */
  lemma ListingLineParses(i: Instant, loose: set<Directive>, lead: string, g1: string, g2: string, g3: string, size: string, trail: string)
    requires Valid(i) && i.second == 0
    requires forall k :: 0 <= k < |lead| ==> IsSpace(lead[k])
    requires forall k :: 0 <= k < |trail| ==> IsSpace(trail[k])
    requires Gap(g1) && Gap(g2) && Gap(g3) && Word(size)
    ensures ListingInstant(lead + RenderIn(i, ListingDate, loose) + g1 + RenderIn(i, ListingClock, loose) + g2
                           + RenderIn(i, [AmPm], loose) + g3 + size + trail)
         == Success(i)
  {
    ListingWords(i, loose);
    ListingLineReads(lead, RenderIn(i, ListingDate, loose), g1, RenderIn(i, ListingClock, loose), g2,
                     RenderIn(i, [AmPm], loose), g3, size, trail);
    ListingSpelling(i, loose);
    ListingRoundTripIn(i, loose);
  }
}

=== FILE: metadata.dfy ===
/** The BigQuery metadata table of the BLS ingester (`__get_metadata` and
    `__upsert_metadata`): one `DATETIME` per (section, file name). */
module Metadata {
  import opened Results
  import opened Timestamps

  /** The instants a `DATETIME` column can hold. */
  type Stamp = i: Instant | Valid(i) witness Instant(Date(1, 1, 1), 0, 0, 0)

  /** The MERGE statement matches on `file_name` and `bls_section`, so those
      two columns key the table. */
  datatype Key = Key(section: string, fileName: string)

  type Table = map<Key, Stamp>

  /** The per-file dictionary `__get_metadata` returns: the `last_update_ts`
      column read back through `cast(... as string)`. */
  datatype KnownRow = KnownRow(lastUpdateTs: string)

  /** `__get_metadata`: the section's rows as `file_name -> {'last_update_ts': text}`. */
  function Known(t: Table, section: string): (m: map<string, KnownRow>)
    ensures forall name :: name in m <==> Key(section, name) in t
  {
    map k | k in t && k.section == section :: k.fileName := KnownRow(Render(t[k], SpaceFormat))
  }

  /** The text `__get_metadata` hands back for a file re-parses, with
      `%Y-%m-%d %H:%M:%S`, to exactly the stored instant. */
  lemma KnownParsesBack(t: Table, section: string, name: string)
    requires Key(section, name) in t
    ensures name in Known(t, section)
    ensures Strptime(Known(t, section)[name].lastUpdateTs, SpaceFormat) == Success(t[Key(section, name)])
  {
    var m := Known(t, section);
    assert m[name] == KnownRow(Render(t[Key(section, name)], SpaceFormat));
    SpaceRoundTrip(t[Key(section, name)]);
  }

  /** Rows of other sections are invisible to a run. */
  lemma KnownIgnoresOtherSections(t: Table, section: string, k: Key, v: Stamp)
    requires k.section != section
    ensures Known(t[k := v], section) == Known(t, section)
  {
    var a, b := Known(t[k := v], section), Known(t, section);
    forall name | name in a
      ensures name in b && a[name] == b[name]
    {
      assert Key(section, name) != k;
    }
  }

  /** `__upsert_metadata`: the MERGE converts the `isoformat()` text with
      `DATETIME(...)`, updates the row with the same key when there is one and
      inserts one otherwise. Text the conversion rejects fails the query. */
  function Upsert(t: Table, section: string, name: string, isoTs: string): (r: Result<Table, Raised>)
    ensures r.Success? <==> Strptime(isoTs, IsoFormat).Success?
    ensures r.Failure? ==> r.error == RemoteError
    ensures r.Success? ==> r.value.Keys == t.Keys + {Key(section, name)}
    ensures r.Success? ==> r.value[Key(section, name)] == Strptime(isoTs, IsoFormat).value
    ensures r.Success? ==> forall k :: k in t && k != Key(section, name) ==> r.value[k] == t[k]
  {
    var parsed := Strptime(isoTs, IsoFormat);
    if parsed.Success? then Success(t[Key(section, name) := parsed.value]) else Failure(RemoteError)
  }

  /** Insert or update: the row count grows by one exactly when the key was
      new, and otherwise stays the same. */
  lemma UpsertInsertOrUpdate(t: Table, section: string, name: string, isoTs: string)
    requires Upsert(t, section, name, isoTs).Success?
    ensures var r := Upsert(t, section, name, isoTs).value;
      |r| == if Key(section, name) in t then |t| else |t| + 1
  {
    var r := Upsert(t, section, name, isoTs).value;
    if Key(section, name) in t {
      assert r.Keys == t.Keys;
    } else {
      assert r.Keys == t.Keys + {Key(section, name)};
      assert |r.Keys| == |t.Keys| + 1;
    }
  }

  /** Writing the same text twice is writing it once. */
  lemma UpsertIdempotent(t: Table, section: string, name: string, isoTs: string)
    requires Upsert(t, section, name, isoTs).Success?
    ensures Upsert(Upsert(t, section, name, isoTs).value, section, name, isoTs) == Upsert(t, section, name, isoTs)
  {
    var k, i := Key(section, name), Strptime(isoTs, IsoFormat).value;
    assert t[k := i][k := i] == t[k := i];
  }

  /** Recording an instant's `isoformat()` text stores that very instant. */
  lemma UpsertStoresInstant(t: Table, section: string, name: string, i: Stamp)
    ensures Upsert(t, section, name, Render(i, IsoFormat)) == Success(t[Key(section, name) := i])
  {
    IsoRoundTrip(i);
  }
}

=== FILE: query.dfy ===
/** `urllib.parse.urlencode` as the DataUSA ingester calls it: every key and
    value goes through `quote_plus`, which encodes the text as UTF-8 and
    percent-escapes every byte outside the always-safe set, turning spaces
    into `+`. A strict decoder is the partner of each encoding step. */
module Query {
  import opened Results
  import opened Strings
  import opened Sink

  // ---------------------------------------------------------------------
  // UTF-8.

  predicate IsContinuation(b: Byte) {
    0x80 <= b < 0xC0
  }

  /** The UTF-8 bytes of one character, `c.encode('utf-8')`. */
  function EncodeChar(c: char): (r: seq<Byte>)
    ensures 1 <= |r| <= 4
    ensures (|r| == 1) <==> (c as int < 0x80)
    ensures |r| == 1 ==> r[0] == c as int
    ensures |r| > 1 ==> r[0] >= 0xC0 && forall k :: 1 <= k < |r| ==> IsContinuation(r[k])
  {
    var n := c as int;
    if n < 0x80 then [n]
    else if n < 0x800 then [0xC0 + n / 64, 0x80 + n % 64]
    else if n < 0x10000 then [0xE0 + n / 4096, 0x80 + (n / 64) % 64, 0x80 + n % 64]
    else [0xF0 + n / 262144, 0x80 + (n / 4096) % 64, 0x80 + (n / 64) % 64, 0x80 + n % 64]
  }

  function Utf8(s: string): seq<Byte>
  {
    if |s| == 0 then [] else EncodeChar(s[0]) + Utf8(s[1..])
  }

  predicate IsScalar(n: int) {
    0 <= n < 0xD800 || 0xE000 <= n < 0x110000
  }

  /** The character at the front of `b` and the number of bytes it takes, when
      `b` starts with one in the shape `EncodeChar` produces. */
  function DecodeChar(b: seq<Byte>): (r: Option<(char, nat)>)
    ensures r.Some? ==> 1 <= r.value.1 <= |b| && r.value.1 <= 4
  {
    if |b| == 0 then None
    else
      var b0: int := b[0];
      if b0 < 0x80 then Some((b0 as char, 1))
      else if b0 < 0xC0 || |b| < 2 || !IsContinuation(b[1]) then None
      else
        var n2 := (b0 - 0xC0) * 64 + (b[1] as int - 0x80);
        if b0 < 0xE0 then
          if 0x80 <= n2 then Some((n2 as char, 2)) else None
        else if |b| < 3 || !IsContinuation(b[2]) then None
        else
          var n3 := (n2 - 0x800) * 64 + (b[2] as int - 0x80);
          if b0 < 0xF0 then
            if 0x800 <= n3 && IsScalar(n3) then Some((n3 as char, 3)) else None
          else if |b| < 4 || !IsContinuation(b[3]) then None
          else
            var n4 := (n3 - 0x10000) * 64 + (b[3] as int - 0x80);
            if 0x10000 <= n4 && IsScalar(n4) then Some((n4 as char, 4)) else None
  }

  /** Strict UTF-8 decoding. */
  function Utf8Decode(b: seq<Byte>): (r: Option<string>)
    decreases |b|
  {
    if |b| == 0 then Some("")
    else match DecodeChar(b)
      case None => None
      case Some((c, n)) =>
        match Utf8Decode(b[n..])
        case None => None
        case Some(s) => Some([c] + s)
  }

  lemma DecodeTwo(n: int, b: seq<Byte>)
    requires 0x80 <= n < 0x800 && IsScalar(n) && |b| >= 2
    requires b[0] == 0xC0 + n / 64 && b[1] == 0x80 + n % 64
    ensures DecodeChar(b) == Some((n as char, 2))
  {
    assert (b[0] as int - 0xC0) * 64 + (b[1] as int - 0x80) == n;
  }

  lemma DecodeThree(n: int, b: seq<Byte>)
    requires 0x800 <= n < 0x10000 && IsScalar(n) && |b| >= 3
    requires b[0] == 0xE0 + n / 4096 && b[1] == 0x80 + (n / 64) % 64 && b[2] == 0x80 + n % 64
    ensures DecodeChar(b) == Some((n as char, 3))
  {
    var n2 := (b[0] as int - 0xC0) * 64 + (b[1] as int - 0x80);
    assert n2 == 0x800 + n / 64;
    assert (n2 - 0x800) * 64 + (b[2] as int - 0x80) == n;
  }

  lemma DecodeFour(n: int, b: seq<Byte>)
    requires 0x10000 <= n < 0x110000 && |b| >= 4
    requires b[0] == 0xF0 + n / 262144 && b[1] == 0x80 + (n / 4096) % 64
    requires b[2] == 0x80 + (n / 64) % 64 && b[3] == 0x80 + n % 64
    ensures DecodeChar(b) == Some((n as char, 4))
  {
    var n2 := (b[0] as int - 0xC0) * 64 + (b[1] as int - 0x80);
    SixBits(n / 4096);
    assert n / 4096 / 64 == n / 262144;
    assert n2 == 0xC00 + n / 4096;
    var n3 := (n2 - 0x800) * 64 + (b[2] as int - 0x80);
    SixBits(n / 64);
    assert n / 64 / 64 == n / 4096;
    assert n3 == 0x10000 + n / 64;
    SixBits(n);
    assert (n3 - 0x10000) * 64 + (b[3] as int - 0x80) == n;
  }

  /** Peeling off the low six bits of a number. */
  lemma SixBits(m: int)
    ensures (m / 64) * 64 + m % 64 == m
  {
  }

  lemma DecodeEncodeChar(c: char, rest: seq<Byte>)
    ensures DecodeChar(EncodeChar(c) + rest) == Some((c, |EncodeChar(c)|))
  {
    var n := c as int;
    var b := EncodeChar(c) + rest;
    if n < 0x80 {
    } else if n < 0x800 {
      DecodeTwo(n, b);
    } else if n < 0x10000 {
      DecodeThree(n, b);
    } else {
      DecodeFour(n, b);
    }
  }

  /** Decoding the UTF-8 bytes of a string gives the string back. */
  lemma {:induction false} Utf8RoundTrip(s: string)
    ensures Utf8Decode(Utf8(s)) == Some(s)
    decreases |s|
  {
    if |s| > 0 {
      var e, rest := EncodeChar(s[0]), Utf8(s[1..]);
      DecodeEncodeChar(s[0], rest);
      assert (e + rest)[|e|..] == rest;
      Utf8RoundTrip(s[1..]);
      assert s == [s[0]] + s[1..];
    }
  }

  lemma {:induction false} Utf8Append(a: string, b: string)
    ensures Utf8(a + b) == Utf8(a) + Utf8(b)
    decreases |a|
  {
    if |a| == 0 {
      assert a + b == b;
    } else {
      assert (a + b)[0] == a[0] && (a + b)[1..] == a[1..] + b;
      Utf8Append(a[1..], b);
    }
  }

  // ---------------------------------------------------------------------
  // Percent-encoding.

  /** `_ALWAYS_SAFE` of `urllib.parse`: ASCII letters, digits and `_.-~`. */
  predicate Unreserved(c: char) {
    ('A' <= c <= 'Z') || ('a' <= c <= 'z') || ('0' <= c <= '9') || c == '_' || c == '.' || c == '-' || c == '~'
  }

  const HexDigits: string := "0123456789ABCDEF"

  /** One byte as `quote_plus` writes it. */
  function QuoteByte(b: Byte): (r: string)
    ensures r == [b as char] <==> Unreserved(b as char)
    ensures b == 0x20 <==> r == "+"
    ensures !Unreserved(b as char) && b != 0x20 ==> |r| == 3 && r[0] == '%'
  {
    if Unreserved(b as char) then [b as char]
    else if b == 0x20 then "+"
    else ['%', HexDigits[b / 16], HexDigits[b % 16]]
  }

  function QuoteBytes(b: seq<Byte>): string
  {
    if |b| == 0 then "" else QuoteByte(b[0]) + QuoteBytes(b[1..])
  }

  /** `urllib.parse.quote_plus(s)` with its defaults (`safe=''`, UTF-8):
      the result is made of unreserved characters, `+`, `%` and hex digits
      only, so never holds the `&` and `=` that structure a query. */
  function QuotePlus(s: string): (r: string)
    ensures forall k :: 0 <= k < |r| ==> Escaped(r[k]) || HexValue(r[k]).Some?
    ensures '&' !in r && '=' !in r
  {
    QuoteBytesEscaped(Utf8(s));
    QuoteBytes(Utf8(s))
  }

  /** The characters an escaped text is made of. */
  predicate Escaped(c: char) {
    Unreserved(c) || c == '+' || c == '%'
  }

  function HexValue(c: char): Option<nat>
  {
    if '0' <= c <= '9' then Some(c as int - '0' as int)
    else if 'A' <= c <= 'F' then Some(c as int - 'A' as int + 10)
    else None
  }

  /** The bytes of an escaped text: `+` is a space, `%HH` a byte, an
      unreserved character itself; anything else is rejected. */
  function UnquoteBytes(q: string): (r: Option<seq<Byte>>)
    decreases |q|
  {
    if |q| == 0 then Some([])
    else if q[0] == '%' then
      if |q| < 3 || HexValue(q[1]).None? || HexValue(q[2]).None? then None
      else match UnquoteBytes(q[3..])
        case None => None
        case Some(rest) => Some([HexValue(q[1]).value * 16 + HexValue(q[2]).value] + rest)
    else if q[0] == '+' then
      match UnquoteBytes(q[1..])
      case None => None
      case Some(rest) => Some([0x20] + rest)
    else if Unreserved(q[0]) then
      match UnquoteBytes(q[1..])
      case None => None
      case Some(rest) => Some([q[0] as int] + rest)
    else None
  }

  /** The inverse of `QuotePlus`: `unquote_plus` on text that `QuotePlus`
      can produce. */
  function UnquotePlus(q: string): (r: Option<string>)
  {
    match UnquoteBytes(q)
    case None => None
    case Some(b) => Utf8Decode(b)
  }

  lemma HexDigitsValue(v: nat)
    requires v < 16
    ensures HexValue(HexDigits[v]) == Some(v)
  {
  }

  lemma UnquoteByte(b: Byte, rest: string)
    requires UnquoteBytes(rest).Some?
    ensures UnquoteBytes(QuoteByte(b) + rest) == Some([b] + UnquoteBytes(rest).value)
  {
    var q := QuoteByte(b) + rest;
    if Unreserved(b as char) || b == 0x20 {
      assert q[1..] == rest;
    } else {
      UnquoteEscape(b, rest);
    }
  }

  lemma UnquoteEscape(b: Byte, rest: string)
    requires !Unreserved(b as char) && b != 0x20 && UnquoteBytes(rest).Some?
    ensures UnquoteBytes(QuoteByte(b) + rest) == Some([b] + UnquoteBytes(rest).value)
  {
    var hi, lo := HexDigits[b / 16], HexDigits[b % 16];
    assert QuoteByte(b) == ['%', hi, lo];
    HexPair(b);
    UnquoteHex(hi, lo, rest);
  }

  lemma HexPair(b: Byte)
    ensures HexValue(HexDigits[b / 16]) == Some(b / 16)
    ensures HexValue(HexDigits[b % 16]) == Some(b % 16)
    ensures (b / 16) * 16 + b % 16 == b
  {
    HexDigitsValue(b / 16);
    HexDigitsValue(b % 16);
  }

  lemma UnquoteHex(hi: char, lo: char, rest: string)
    requires HexValue(hi).Some? && HexValue(lo).Some? && UnquoteBytes(rest).Some?
    ensures UnquoteBytes(['%', hi, lo] + rest) == Some([HexValue(hi).value * 16 + HexValue(lo).value] + UnquoteBytes(rest).value)
  {
    var q := ['%', hi, lo] + rest;
    assert q[0] == '%' && q[1] == hi && q[2] == lo && q[3..] == rest;
  }

  lemma {:induction false} UnquoteQuoteBytes(b: seq<Byte>)
    ensures UnquoteBytes(QuoteBytes(b)) == Some(b)
    decreases |b|
  {
    if |b| > 0 {
      UnquoteQuoteBytes(b[1..]);
      UnquoteByte(b[0], QuoteBytes(b[1..]));
      assert b == [b[0]] + b[1..];
    }
  }

  /** `unquote_plus` undoes `quote_plus`. */
  lemma QuotePlusRoundTrip(s: string)
    ensures UnquotePlus(QuotePlus(s)) == Some(s)
  {
    UnquoteQuoteBytes(Utf8(s));
    Utf8RoundTrip(s);
  }

  lemma {:induction false} QuoteBytesAppend(a: seq<Byte>, b: seq<Byte>)
    ensures QuoteBytes(a + b) == QuoteBytes(a) + QuoteBytes(b)
    decreases |a|
  {
    if |a| == 0 {
      assert a + b == b;
    } else {
      assert (a + b)[0] == a[0] && (a + b)[1..] == a[1..] + b;
      QuoteBytesAppend(a[1..], b);
    }
  }

  lemma QuotePlusAppend(a: string, b: string)
    ensures QuotePlus(a + b) == QuotePlus(a) + QuotePlus(b)
  {
    Utf8Append(a, b);
    QuoteBytesAppend(Utf8(a), Utf8(b));
  }

  /** An escaped text never holds the `&` and `=` that structure a query. */
  lemma {:induction false} QuoteBytesEscaped(b: seq<Byte>)
    ensures forall k :: 0 <= k < |QuoteBytes(b)| ==> Escaped(QuoteBytes(b)[k]) || HexValue(QuoteBytes(b)[k]).Some?
    decreases |b|
  {
    if |b| > 0 {
      QuoteBytesEscaped(b[1..]);
      QuoteByteEscaped(b[0]);
      var h, t := QuoteByte(b[0]), QuoteBytes(b[1..]);
      assert QuoteBytes(b) == h + t;
      forall k | 0 <= k < |h + t|
        ensures Escaped((h + t)[k]) || HexValue((h + t)[k]).Some?
      {
        if k >= |h| {
          assert (h + t)[k] == t[k - |h|];
        } else {
          assert (h + t)[k] == h[k];
        }
      }
    }
  }

  lemma QuoteByteEscaped(b: Byte)
    ensures forall k :: 0 <= k < |QuoteByte(b)| ==> Escaped(QuoteByte(b)[k]) || HexValue(QuoteByte(b)[k]).Some?
  {
    if !Unreserved(b as char) && b != 0x20 {
      assert QuoteByte(b)[1] == HexDigits[b / 16];
      assert QuoteByte(b)[2] == HexDigits[b % 16];
    }
  }

  predicate AllUnreserved(s: string) {
    forall k :: 0 <= k < |s| ==> Unreserved(s[k])
  }

  /** Text made only of unreserved ASCII characters is its own escape. */
  lemma {:induction false} QuotePlusUnreserved(s: string)
    requires AllUnreserved(s)
    ensures QuotePlus(s) == s
    decreases |s|
  {
    if |s| > 0 {
      QuotePlusUnreserved(s[1..]);
      assert s == [s[0]] + s[1..];
      QuotePlusAppend([s[0]], s[1..]);
      assert Utf8([s[0]]) == [s[0] as int] by {
        assert [s[0]][1..] == [];
      }
      assert QuoteBytes([s[0] as int]) == [s[0]] by {
        var one: seq<Byte> := [s[0] as int];
        assert one[1..] == [];
      }
    }
  }

  // ---------------------------------------------------------------------
  // The query string.

  /** `urlencode(pairs)` with `doseq=False`: `quote_plus(key) + '=' +
      quote_plus(value)` for each pair, in order, joined with `&`. No pair
      gives the empty query, and otherwise splitting the query on `&` gives
      the encoded fields back. */
  function Urlencode(pairs: seq<(string, string)>): (r: string)
    ensures r == "" <==> |pairs| == 0
    ensures |pairs| > 0 ==> Split(r, '&') == EncodePairs(pairs)
  {
    var fs := EncodePairs(pairs);
    if |pairs| == 0 then ""
    else
      FieldsHaveNoAmpersand(pairs);
      SplitJoin(fs, '&');
      JoinLength(fs, '&');
      Join(fs, '&')
  }

  function EncodePair(p: (string, string)): string
  {
    QuotePlus(p.0) + "=" + QuotePlus(p.1)
  }

  function EncodePairs(pairs: seq<(string, string)>): (r: seq<string>)
    ensures |r| == |pairs| && forall k :: 0 <= k < |pairs| ==> r[k] == EncodePair(pairs[k])
  {
    seq(|pairs|, k requires 0 <= k < |pairs| => EncodePair(pairs[k]))
  }

  /** One `key=value` field, split at its first `=`, both halves unescaped. */
  function DecodePair(field: string): Option<(string, string)>
  {
    match IndexOf(field, '=')
    case None => None
    case Some(i) =>
      match (UnquotePlus(field[..i]), UnquotePlus(field[i + 1..]))
      case (Some(k), Some(v)) => Some((k, v))
      case _ => None
  }

  function DecodeFields(fields: seq<string>): (r: Option<seq<(string, string)>>)
    ensures r.Some? ==> |r.value| == |fields|
  {
    if |fields| == 0 then Some([])
    else match (DecodePair(fields[0]), DecodeFields(fields[1..]))
      case (Some(p), Some(ps)) => Some([p] + ps)
      case _ => None
  }

  /** The decoder partner of `Urlencode`: split on `&`, then decode each
      field. The empty query holds no pair. */
  function ParseQuery(q: string): Option<seq<(string, string)>>
  {
    if q == "" then Some([]) else DecodeFields(Split(q, '&'))
  }

  lemma DecodeEncodePair(p: (string, string))
    ensures DecodePair(EncodePair(p)) == Some(p)
  {
    var k, v := QuotePlus(p.0), QuotePlus(p.1);
    IndexOfAfter(k, '=', v);
    var f := EncodePair(p);
    assert f == k + ['='] + v;
    assert f[..|k|] == k && f[|k| + 1..] == v;
    QuotePlusRoundTrip(p.0);
    QuotePlusRoundTrip(p.1);
  }

  lemma {:induction false} DecodeEncodeFields(pairs: seq<(string, string)>)
    ensures DecodeFields(EncodePairs(pairs)) == Some(pairs)
    decreases |pairs|
  {
    if |pairs| > 0 {
      var fs := EncodePairs(pairs);
      assert fs[1..] == EncodePairs(pairs[1..]);
      DecodeEncodePair(pairs[0]);
      DecodeEncodeFields(pairs[1..]);
      assert pairs == [pairs[0]] + pairs[1..];
    }
  }

  /** No encoded field holds a `&`, and each holds at least its `=`. */
  lemma FieldsHaveNoAmpersand(pairs: seq<(string, string)>)
    ensures forall k :: 0 <= k < |pairs| ==> '&' !in EncodePairs(pairs)[k] && |EncodePairs(pairs)[k]| > 0
  {
    forall k | 0 <= k < |pairs|
      ensures '&' !in EncodePairs(pairs)[k] && |EncodePairs(pairs)[k]| > 0
    {
      assert EncodePairs(pairs)[k] == QuotePlus(pairs[k].0) + "=" + QuotePlus(pairs[k].1);
    }
  }

  /** Parsing a query `Urlencode` built gives the pairs back, in order. */
  lemma UrlencodeRoundTrip(pairs: seq<(string, string)>)
    ensures ParseQuery(Urlencode(pairs)) == Some(pairs)
  {
    if |pairs| > 0 {
      DecodeEncodeFields(pairs);
    }
  }

  lemma {:induction false} JoinLength(parts: seq<string>, sep: char)
    requires |parts| > 0 && |parts[0]| > 0
    ensures |Join(parts, sep)| > 0
  {
  }

  /** Two pairs of unreserved text, the first value holding one comma. */
  lemma TwoPairs(k1: string, a: string, b: string, k2: string, v2: string)
    requires AllUnreserved(k1) && AllUnreserved(a) && AllUnreserved(b) && AllUnreserved(k2) && AllUnreserved(v2)
    ensures Urlencode([(k1, a + "," + b), (k2, v2)]) == k1 + "=" + a + "%2C" + b + "&" + k2 + "=" + v2
  {
    var pairs := [(k1, a + "," + b), (k2, v2)];
    var f0, f1 := k1 + "=" + (a + "%2C" + b), k2 + "=" + v2;
    assert EncodePairs(pairs) == [f0, f1] by {
      QuotePlusUnreserved(k1);
      QuotePlusUnreserved(k2);
      QuotePlusUnreserved(v2);
      QuotePlusComma(a, b);
    }
    assert Urlencode(pairs) == Join([f0, f1], '&');
    JoinTwo(f0, f1, '&');
    TwoFieldsAssoc(k1, a, b, k2, v2);
  }

  lemma TwoFieldsAssoc(k1: string, a: string, b: string, k2: string, v2: string)
    ensures k1 + "=" + (a + "%2C" + b) + ['&'] + (k2 + "=" + v2) == k1 + "=" + a + "%2C" + b + "&" + k2 + "=" + v2
  {
  }

  lemma JoinTwo(a: string, b: string, sep: char)
    ensures Join([a, b], sep) == a + [sep] + b
  {
    assert [a, b][1..] == [b];
  }

  /** `,` is escaped as `%2C`, and the unreserved text around it stays. */
  lemma QuotePlusComma(a: string, b: string)
    requires AllUnreserved(a) && AllUnreserved(b)
    ensures QuotePlus(a + "," + b) == a + "%2C" + b
  {
    CommaEscape();
    QuotePlusAround(a, ",", b, "%2C");
  }

  /** Unreserved text on either side of an escaped middle stays as it is. */
  lemma QuotePlusAround(a: string, m: string, b: string, escaped: string)
    requires AllUnreserved(a) && AllUnreserved(b) && QuotePlus(m) == escaped
    ensures QuotePlus(a + m + b) == a + escaped + b
  {
    QuotePlusAppend(m, b);
    QuotePlusUnreserved(b);
    QuotePlusAppend(a, m + b);
    QuotePlusUnreserved(a);
    AppendAssoc(a, m, b);
    AppendAssoc(a, escaped, b);
  }

  lemma CommaEscape()
    ensures QuotePlus(",") == "%2C"
  {
    var comma := ",";
    assert Utf8(comma) == [0x2C] by {
      assert comma[1..] == [];
    }
    var one: seq<Byte> := [0x2C];
    assert QuoteBytes(one) == QuoteByte(0x2C) by {
      assert one[1..] == [];
    }
  }
}

=== FILE: results.dfy ===
/** Failure-carrying return values used in place of the Python exceptions the
    ingesters raise. */
module Results {

  datatype Option<+T> = None | Some(value: T)

  /** Either a value or the error the Python code would have raised. */
  datatype Result<+T, +E> = Success(value: T) | Failure(error: E)

  /** The exceptions the modelled code can raise: Python's own while parsing
      or joining, and the failure of a remote call (a download, a blob write
      or a metadata query). */
  datatype Raised = AttributeError | IndexError | ValueError | TypeError | RemoteError

  /** The position of the first element `f` fails on, or the length when it
      fails on none. */
  function FirstFailure<A, B, E>(xs: seq<A>, f: A -> Result<B, E>): (k: nat)
    ensures k <= |xs|
    ensures forall j :: 0 <= j < k ==> f(xs[j]).Success?
    ensures k < |xs| ==> f(xs[k]).Failure?
  {
    if |xs| == 0 then 0
    else if f(xs[0]).Failure? then 0
    else 1 + FirstFailure(xs[1..], f)
  }

  /** A Python loop that appends `f(x)` for every `x` in order: the results,
      or the exception of the first element that raises. */
  function MapAll<A, B, E>(xs: seq<A>, f: A -> Result<B, E>): (r: Result<seq<B>, E>)
    ensures r.Success? <==> FirstFailure(xs, f) == |xs|
    ensures r.Success? ==> |r.value| == |xs| && forall k :: 0 <= k < |xs| ==> f(xs[k]) == Success(r.value[k])
    ensures r.Failure? ==> f(xs[FirstFailure(xs, f)]) == Failure(r.error)
  {
    if |xs| == 0 then Success([])
    else
      match f(xs[0])
      case Failure(e) => Failure(e)
      case Success(y) =>
        match MapAll(xs[1..], f)
        case Failure(e) => Failure(e)
        case Success(ys) => Success([y] + ys)
  }
}

=== FILE: sink.dfy ===
/** Streaming a download into a blob (`__ingest_file` in
    `module/bls/ingest.py`, and the DataUSA ingester's write loop): the body
    arrives as chunks, empty chunks are skipped, and the rest are written in
    order. */
module Sink {
  import opened Results

  type Byte = b: int | 0 <= b < 256

  type Chunk = seq<Byte>

  /** The bytes of a chunk sequence, in order. */
  function Concat(chunks: seq<Chunk>): (r: seq<Byte>)
    ensures |chunks| == 0 ==> r == []
  {
    if |chunks| == 0 then [] else chunks[0] + Concat(chunks[1..])
  }

  lemma {:induction false} ConcatAppend(a: seq<Chunk>, b: seq<Chunk>)
    ensures Concat(a + b) == Concat(a) + Concat(b)
    decreases |a|
  {
    if |a| == 0 {
      assert a + b == b;
    } else {
      assert (a + b)[0] == a[0] && (a + b)[1..] == a[1..] + b;
      ConcatAppend(a[1..], b);
    }
  }

  /** `[chunk for chunk in chunks if chunk]`: the chunks `if chunk:` lets through. */
  function NonEmpty(chunks: seq<Chunk>): (r: seq<Chunk>)
    ensures |r| <= |chunks|
    ensures forall k :: 0 <= k < |r| ==> r[k] != []
    ensures forall c :: c in r <==> c in chunks && c != []
  {
    if |chunks| == 0 then []
    else (if chunks[0] == [] then [] else [chunks[0]]) + NonEmpty(chunks[1..])
  }

  /** Skipping empty chunks loses no byte and reorders none. */
  lemma {:induction false} NonEmptyKeepsBytes(chunks: seq<Chunk>)
    ensures Concat(NonEmpty(chunks)) == Concat(chunks)
    decreases |chunks|
  {
    if |chunks| > 0 {
      NonEmptyKeepsBytes(chunks[1..]);
      var head := if chunks[0] == [] then [] else [chunks[0]];
      ConcatAppend(head, NonEmpty(chunks[1..]));
      assert Concat(head) == chunks[0] by {
        if head != [] {
          assert head[1..] == [];
        }
      }
    }
  }

  /** The write loop: each non-empty chunk is handed to the writer in turn.
      `written` is what the blob holds once the writer closes; `writes` lists
      the calls to `writer.write`. */
  method WriteStream(chunks: seq<Chunk>) returns (written: seq<Byte>, writes: seq<Chunk>)
    ensures written == Concat(chunks)
    ensures writes == NonEmpty(chunks)
    ensures forall k :: 0 <= k < |writes| ==> writes[k] != []
  {
    written, writes := [], [];
    var i := 0;
    while i < |chunks|
      invariant 0 <= i <= |chunks|
      invariant writes == NonEmpty(chunks[..i])
      invariant written == Concat(writes)
    {
      var chunk := chunks[i];
      if chunk != [] {
        ConcatAppend(writes, [chunk]);
        var one: seq<Chunk> := [chunk];
        assert Concat(one) == chunk by {
          assert one[1..] == [];
        }
        written := written + chunk;
        writes := writes + [chunk];
      }
      NonEmptySnoc(chunks[..i], chunk);
      assert chunks[..i + 1] == chunks[..i] + [chunk];
      i := i + 1;
    }
    assert chunks[..i] == chunks;
    NonEmptyKeepsBytes(chunks);
  }

  lemma {:induction false} NonEmptySnoc(chunks: seq<Chunk>, c: Chunk)
    ensures NonEmpty(chunks + [c]) == NonEmpty(chunks) + (if c == [] then [] else [c])
    decreases |chunks|
  {
    if |chunks| == 0 {
      assert chunks + [c] == [c];
      assert [c][1..] == [];
    } else {
      assert (chunks + [c])[0] == chunks[0] && (chunks + [c])[1..] == chunks[1..] + [c];
      NonEmptySnoc(chunks[1..], c);
    }
  }

  /** `response.iter_content(chunk_size=n)` over a fully received body: pieces
      of `n` bytes, the last one shorter. */
  function ChunksOf(body: seq<Byte>, n: nat): (r: seq<Chunk>)
    requires n > 0
    ensures forall k :: 0 <= k < |r| ==> 0 < |r[k]| <= n
    ensures forall k :: 0 <= k < |r| - 1 ==> |r[k]| == n
    ensures |r| == 0 <==> |body| == 0
    decreases |body|
  {
    if |body| == 0 then []
    else if |body| <= n then [body]
    else [body[..n]] + ChunksOf(body[n..], n)
  }

  /** Re-joining the pieces gives the body back. */
  lemma {:induction false} ChunksOfJoin(body: seq<Byte>, n: nat)
    requires n > 0
    ensures Concat(ChunksOf(body, n)) == body
    decreases |body|
  {
    if |body| > n {
      var rest := ChunksOf(body[n..], n);
      ChunksOfJoin(body[n..], n);
      assert ([body[..n]] + rest)[1..] == rest;
      assert body[..n] + body[n..] == body;
    } else if |body| > 0 {
      assert [body][1..] == [];
    }
  }

  /** What the server serves: the body behind each URL. A URL that is absent
      stands for a failed request. */
  type Remote = map<string, seq<Byte>>

  /** Blob name to content, for the storage bucket. */
  type Bucket = map<string, seq<Byte>>

  /** `chunk_size` of `iter_content`. */
  const ChunkSize: nat := 1024

  /** A streamed download into a blob: `requests.get(url, stream=True)`, then
      the write loop over `iter_content(chunk_size=1024)`. The blob ends up
      holding exactly the body; a failed request writes nothing. */
  function Download(remote: Remote, url: string, bucket: Bucket, path: string): (r: Result<Bucket, Raised>)
    ensures r.Success? <==> url in remote
    ensures r.Failure? ==> r.error == RemoteError
    ensures r.Success? ==> r.value == bucket[path := remote[url]]
  {
    if url in remote then
      var chunks := ChunksOf(remote[url], ChunkSize);
      NonEmptyKeepsBytes(chunks);
      ChunksOfJoin(remote[url], ChunkSize);
      Success(bucket[path := Concat(NonEmpty(chunks))])
    else Failure(RemoteError)
  }
}

=== FILE: strings.dfy ===
/** The handful of Python string operations the ingesters rely on: `str.strip`,
    `re.sub(r'\s+', ' ', s)`, `str.split(sep)` and `sep.join(parts)`, each stated
    over `seq<char>`. */
module Strings {
  import opened Results

  /** Python's `str.isspace()` for one character: the set `str.strip()` removes
      and the regular expression class `\s` matches. */
  predicate IsSpace(c: char) {
    var n := c as int;
    || 0x09 <= n <= 0x0D
    || 0x1C <= n <= 0x20
    || n == 0x85 || n == 0xA0 || n == 0x1680
    || 0x2000 <= n <= 0x200A
    || n == 0x2028 || n == 0x2029 || n == 0x202F || n == 0x205F || n == 0x3000
  }

  predicate IsDigit(c: char) {
    '0' <= c <= '9'
  }

  predicate IsSlash(c: char) {
    c == '/'
  }

  /** How many characters at the front of `s` `drop` accepts. */
  function Lead(s: string, drop: char -> bool): (i: nat)
    ensures i <= |s|
    ensures forall k :: 0 <= k < i ==> drop(s[k])
    ensures i == |s| || !drop(s[i])
  {
    if |s| > 0 && drop(s[0]) then 1 + Lead(s[1..], drop) else 0
  }

  /** How many characters at the back of `s` `drop` accepts. */
  function Trail(s: string, drop: char -> bool): (j: nat)
    ensures j <= |s|
    ensures forall k :: |s| - j <= k < |s| ==> drop(s[k])
    ensures j == |s| || !drop(s[|s| - 1 - j])
  {
    if |s| > 0 && drop(s[|s| - 1]) then 1 + Trail(s[..|s| - 1], drop) else 0
  }

  /** Python's `s.lstrip(chars)`. */
  function TrimLeft(s: string, drop: char -> bool): (r: string)
    ensures |r| <= |s| && r == s[|s| - |r|..]
    ensures forall k :: 0 <= k < |s| - |r| ==> drop(s[k])
    ensures r == [] || !drop(r[0])
  {
    s[Lead(s, drop)..]
  }

  /** Python's `s.strip(chars)`: the result is the slice of `s` that starts
      after the droppable prefix, only droppable characters lie outside it, and
      neither of its ends is droppable. */
  function Strip(s: string, drop: char -> bool): (r: string)
    ensures Lead(s, drop) + |r| <= |s|
    ensures r == s[Lead(s, drop)..Lead(s, drop) + |r|]
    ensures forall k :: 0 <= k < Lead(s, drop) ==> drop(s[k])
    ensures forall k :: Lead(s, drop) + |r| <= k < |s| ==> drop(s[k])
    ensures r == [] || (!drop(r[0]) && !drop(r[|r| - 1]))
  {
    var i := Lead(s, drop);
    if i == |s| then "" else s[i..|s| - Trail(s, drop)]
  }

  /** The non-whitespace characters of `s`, in order. */
  function Visible(s: string): string
  {
    if |s| == 0 then "" else (if IsSpace(s[0]) then "" else [s[0]]) + Visible(s[1..])
  }

  /** Every whitespace character is a plain space and no two spaces touch:
      the shape `re.sub(r'\s+', ' ', s)` leaves behind. */
  predicate SpaceNormal(s: string) {
    && (forall k :: 0 <= k < |s| && IsSpace(s[k]) ==> s[k] == ' ')
    && (forall k :: 0 <= k < |s| - 1 ==> !(s[k] == ' ' && s[k + 1] == ' '))
  }

  lemma {:induction false} VisibleTrimLeft(s: string)
    ensures Visible(TrimLeft(s, IsSpace)) == Visible(s)
    decreases |s|
  {
    if |s| > 0 && IsSpace(s[0]) {
      VisibleTrimLeft(s[1..]);
    }
  }

  /** Python's `re.sub(r'\s+', ' ', s)`: each maximal run of whitespace becomes
      one space and every other character is kept. */
  function Collapse(s: string): (r: string)
    ensures SpaceNormal(r)
    ensures Visible(r) == Visible(s)
    ensures |r| <= |s|
    ensures |r| > 0 <==> |s| > 0
    ensures (|r| > 0 && r[0] == ' ') <==> (|s| > 0 && IsSpace(s[0]))
    decreases |s|
  {
    if |s| == 0 then ""
    else if IsSpace(s[0]) then
      var t := TrimLeft(s[1..], IsSpace);
      VisibleTrimLeft(s[1..]);
      var r := " " + Collapse(t);
      assert r[1..] == Collapse(t);
      r
    else
      var r := [s[0]] + Collapse(s[1..]);
      assert r[1..] == Collapse(s[1..]);
      r
  }

  lemma {:induction false} CollapseFixpoint(s: string)
    requires SpaceNormal(s)
    ensures Collapse(s) == s
    decreases |s|
  {
    if |s| > 0 {
      assert SpaceNormal(s[1..]);
      if IsSpace(s[0]) {
        assert |s| == 1 || !IsSpace(s[1]);
        assert TrimLeft(s[1..], IsSpace) == s[1..];
      }
      CollapseFixpoint(s[1..]);
    }
  }

  /** Collapsing twice is collapsing once. */
  lemma CollapseIdempotent(s: string)
    ensures Collapse(Collapse(s)) == Collapse(s)
  {
    CollapseFixpoint(Collapse(s));
  }

  lemma {:induction false} CollapseKeepsLast(s: string)
    requires |s| > 0 && !IsSpace(s[|s| - 1])
    ensures |Collapse(s)| > 0 && Collapse(s)[|Collapse(s)| - 1] == s[|s| - 1]
    decreases |s|
  {
    if IsSpace(s[0]) {
      var t := TrimLeft(s[1..], IsSpace);
      assert |s| >= 2;
      assert s[1..][|s| - 2] == s[|s| - 1];
      assert |t| > 0 && t[|t| - 1] == s[|s| - 1];
      CollapseKeepsLast(t);
    } else if |s| > 1 {
      CollapseKeepsLast(s[1..]);
    }
  }

  function IndexOf(s: string, c: char): (r: Option<nat>)
    ensures r.None? <==> c !in s
    ensures r.Some? ==> r.value < |s| && s[r.value] == c && c !in s[..r.value]
  {
    if |s| == 0 then None
    else if s[0] == c then Some(0)
    else match IndexOf(s[1..], c)
      case None => None
      case Some(i) =>
        assert s[..i + 1] == [s[0]] + s[1..][..i];
        Some(i + 1)
  }

  /** Python's `s.split(sep)` with an explicit one-character separator: never
      empty, and no part holds the separator. */
  function Split(s: string, sep: char): (r: seq<string>)
    ensures |r| >= 1
    ensures forall k :: 0 <= k < |r| ==> sep !in r[k]
    decreases |s|
  {
    match IndexOf(s, sep)
    case None => [s]
    case Some(i) => [s[..i]] + Split(s[i + 1..], sep)
  }

  /** The parts' lengths added up. */
  function Lengths(parts: seq<string>): nat
  {
    if |parts| == 0 then 0 else |parts[0]| + Lengths(parts[1..])
  }

  /** Python's `sep.join(parts)`: the parts with one separator between each
      two, so as long as the parts plus one per gap. */
  function Join(parts: seq<string>, sep: char): (r: string)
    ensures |parts| == 0 ==> r == ""
    ensures |parts| > 0 ==> |r| == Lengths(parts) + |parts| - 1
  {
    if |parts| == 0 then ""
    else if |parts| == 1 then parts[0]
    else parts[0] + [sep] + Join(parts[1..], sep)
  }

  /** Joining the parts of a split restores the original string. */
  lemma {:induction false} JoinSplit(s: string, sep: char)
    ensures Join(Split(s, sep), sep) == s
    decreases |s|
  {
    match IndexOf(s, sep)
    case None =>
    case Some(i) =>
      var rest := Split(s[i + 1..], sep);
      var parts := [s[..i]] + rest;
      assert Split(s, sep) == parts;
      assert Join(parts, sep) == s[..i] + [sep] + Join(rest, sep) by {
        assert parts[1..] == rest;
      }
      JoinSplit(s[i + 1..], sep);
      CutAt(s, i);
  }

  lemma CutAt(s: string, i: nat)
    requires i < |s|
    ensures s == s[..i] + [s[i]] + s[i + 1..]
  {
  }

  /** The first separator of `p + [c] + rest` is the one after `p`, when `p`
      has none. */
  lemma {:induction false} IndexOfAfter(p: string, c: char, rest: string)
    requires c !in p
    ensures IndexOf(p + [c] + rest, c) == Some(|p|)
    decreases |p|
  {
    var s := p + [c] + rest;
    if |p| > 0 {
      assert s[0] == p[0] && s[1..] == p[1..] + [c] + rest;
      IndexOfAfter(p[1..], c, rest);
    } else {
      assert s[0] == c;
    }
  }

  /** A separator-free piece, the separator, and the rest split into the
      piece followed by the rest's parts. */
  lemma SplitCons(p: string, sep: char, rest: string)
    requires sep !in p
    ensures Split(p + [sep] + rest, sep) == [p] + Split(rest, sep)
  {
    var s := p + [sep] + rest;
    IndexOfAfter(p, sep, rest);
    assert s[..|p|] == p && s[|p| + 1..] == rest;
  }

  /** Splitting a join of separator-free parts gives the parts back. */
  lemma {:induction false} SplitJoin(parts: seq<string>, sep: char)
    requires |parts| >= 1
    requires forall k :: 0 <= k < |parts| ==> sep !in parts[k]
    ensures Split(Join(parts, sep), sep) == parts
    decreases |parts|
  {
    if |parts| > 1 {
      var rest := Join(parts[1..], sep);
      assert Join(parts, sep) == parts[0] + [sep] + rest;
      SplitCons(parts[0], sep, rest);
      SplitJoin(parts[1..], sep);
      assert parts == [parts[0]] + parts[1..];
    }
  }

  /** A string that neither starts nor ends with the separator and never holds
      it twice in a row splits into non-empty parts. */
  lemma {:induction false} SplitPartsNonEmpty(s: string, sep: char)
    requires |s| > 0 && s[0] != sep && s[|s| - 1] != sep
    requires forall k :: 0 <= k < |s| - 1 ==> !(s[k] == sep && s[k + 1] == sep)
    ensures forall k :: 0 <= k < |Split(s, sep)| ==> Split(s, sep)[k] != ""
    decreases |s|
  {
    match IndexOf(s, sep)
    case None =>
    case Some(i) =>
      var rest := s[i + 1..];
      assert i > 0;
      assert |rest| > 0 && rest[0] != sep;
      SplitPartsNonEmpty(rest, sep);
  }

  /** A non-empty run of characters none of which is whitespace. */
  predicate Word(w: string) {
    w != "" && forall k :: 0 <= k < |w| ==> !IsSpace(w[k])
  }

  /** A non-empty run of whitespace. */
  predicate Gap(w: string) {
    w != "" && forall k :: 0 <= k < |w| ==> IsSpace(w[k])
  }

  /** The tokeniser of the listing parser: `text.strip()`, whitespace runs
      collapsed to one space, then `split(" ")`. Its tokens never hold
      whitespace; when the text shows anything they are all words, and a
      blank text yields the single empty token. */
  function Tokens(text: string): (r: seq<string>)
    ensures |r| >= 1
    ensures forall k, j :: 0 <= k < |r| && 0 <= j < |r[k]| ==> !IsSpace(r[k][j])
    ensures Visible(text) != "" ==> forall k :: 0 <= k < |r| ==> Word(r[k])
    ensures Visible(text) == "" ==> r == [""]
  {
    var t := Strip(text, IsSpace);
    var c := Collapse(t);
    NormalPartsHaveNoSpace(c);
    if t == "" then
      VisibleOfSpaces(text);
      assert IndexOf(c, ' ') == None;
      Split(c, ' ')
    else
      var i := Lead(text, IsSpace);
      assert text[i] == t[0];
      VisibleHas(text, i);
      CollapseKeepsLast(t);
      SplitPartsNonEmpty(c, ' ');
      Split(c, ' ')
  }

  lemma {:induction false} VisibleOfSpaces(s: string)
    requires forall k :: 0 <= k < |s| ==> IsSpace(s[k])
    ensures Visible(s) == ""
    decreases |s|
  {
    if |s| > 0 {
      VisibleOfSpaces(s[1..]);
    }
  }

  /** The parts of a split are pieces of the string. */
  lemma PartsAreInside(s: string, sep: char, k: nat, j: nat)
    requires k < |Split(s, sep)| && j < |Split(s, sep)[k]|
    ensures exists q :: 0 <= q < |s| && s[q] == Split(s, sep)[k][j]
  {
    var parts := Split(s, sep);
    JoinSplit(s, sep);
    JoinHolds(parts, sep, k, j);
    var q := JoinOffset(parts, sep, k) + j;
    assert s[q] == parts[k][j];
  }

  /** Splitting a collapsed string on the space leaves no whitespace in any part. */
  lemma NormalPartsHaveNoSpace(c: string)
    requires SpaceNormal(c)
    ensures forall k, j :: 0 <= k < |Split(c, ' ')| && 0 <= j < |Split(c, ' ')[k]| ==> !IsSpace(Split(c, ' ')[k][j])
  {
    var parts := Split(c, ' ');
    forall k, j | 0 <= k < |parts| && 0 <= j < |parts[k]|
      ensures !IsSpace(parts[k][j])
    {
      PartsAreInside(c, ' ', k, j);
    }
  }

  lemma {:induction false} VisibleHas(s: string, i: nat)
    requires i < |s| && !IsSpace(s[i])
    ensures Visible(s) != ""
    decreases i
  {
    if i > 0 && IsSpace(s[0]) {
      VisibleHas(s[1..], i - 1);
    }
  }

  /** Where part `k` begins inside `Join(parts, sep)`. */
  function JoinOffset(parts: seq<string>, sep: char, k: nat): nat
    requires k < |parts|
  {
    if k == 0 then 0 else |parts[0]| + 1 + JoinOffset(parts[1..], sep, k - 1)
  }

  lemma {:induction false} JoinHolds(parts: seq<string>, sep: char, k: nat, j: nat)
    requires k < |parts| && j < |parts[k]|
    ensures JoinOffset(parts, sep, k) + j < |Join(parts, sep)|
    ensures Join(parts, sep)[JoinOffset(parts, sep, k) + j] == parts[k][j]
    decreases k
  {
    if k > 0 {
      assert Join(parts, sep) == parts[0] + [sep] + Join(parts[1..], sep);
      JoinHolds(parts[1..], sep, k - 1, j);
    }
  }

  lemma {:induction false} LeadOfPadded(pad: string, s: string)
    requires forall k :: 0 <= k < |pad| ==> IsSpace(pad[k])
    requires s != "" && !IsSpace(s[0])
    ensures Lead(pad + s, IsSpace) == |pad|
    decreases |pad|
  {
    if |pad| > 0 {
      assert (pad + s)[1..] == pad[1..] + s;
      LeadOfPadded(pad[1..], s);
    }
  }

  lemma {:induction false} TrailOfPadded(s: string, pad: string)
    requires forall k :: 0 <= k < |pad| ==> IsSpace(pad[k])
    requires s != "" && !IsSpace(s[|s| - 1])
    ensures Trail(s + pad, IsSpace) == |pad|
    decreases |pad|
  {
    if |pad| > 0 {
      assert (s + pad)[..|s + pad| - 1] == s + pad[..|pad| - 1];
      TrailOfPadded(s, pad[..|pad| - 1]);
    }
  }

  /** Stripping whitespace padding off a word that neither starts nor ends
      with whitespace gives the word back. */
  lemma StripPadded(lead: string, w: string, trail: string)
    requires forall k :: 0 <= k < |lead| ==> IsSpace(lead[k])
    requires forall k :: 0 <= k < |trail| ==> IsSpace(trail[k])
    requires w != "" && !IsSpace(w[0]) && !IsSpace(w[|w| - 1])
    ensures Strip(lead + w + trail, IsSpace) == w
  {
    var text := lead + w + trail;
    assert text == lead + (w + trail) == (lead + w) + trail;
    LeadOfPadded(lead, w + trail);
    TrailOfPadded(lead + w, trail);
    assert text[|lead|..|text| - |trail|] == w;
  }

  /** `Lead` is the only count its contract allows. */
  lemma {:induction false} LeadUnique(s: string, drop: char -> bool, i: nat)
    requires i <= |s|
    requires forall k :: 0 <= k < i ==> drop(s[k])
    requires i == |s| || !drop(s[i])
    ensures Lead(s, drop) == i
    decreases i
  {
    if i > 0 {
      LeadUnique(s[1..], drop, i - 1);
    }
  }

  /** Trimming the whitespace off the front of a string that shows anything
      never reaches what follows it. */
  lemma TrimLeftAppend(x: string, b: string)
    requires Lead(x, IsSpace) < |x|
    ensures TrimLeft(x + b, IsSpace) == TrimLeft(x, IsSpace) + b
  {
    var i := Lead(x, IsSpace);
    var y := x + b;
    forall k | 0 <= k <= i
      ensures y[k] == x[k]
    {
    }
    LeadUnique(y, IsSpace, i);
    SliceOfAppend(x, b, i);
  }

  lemma AppendAssoc(x: string, y: string, z: string)
    ensures x + (y + z) == x + y + z
  {
  }

  lemma SliceOfAppend(x: string, b: string, i: nat)
    requires i <= |x|
    ensures (x + b)[i..] == x[i..] + b
  {
  }

  /** A visible first character is kept and the rest is collapsed. */
  lemma CollapseVisibleHead(a: string, b: string)
    requires a != [] && !IsSpace(a[0])
    ensures Collapse(a + b) == [a[0]] + Collapse(a[1..] + b)
  {
    assert (a + b)[0] == a[0] && (a + b)[1..] == a[1..] + b;
  }

  /** A leading whitespace run, up to the first visible character, becomes
      one space. */
  lemma CollapseSpaceHead(a: string, b: string)
    requires a != [] && IsSpace(a[0])
    ensures Collapse(a + b) == " " + Collapse(TrimLeft(a[1..] + b, IsSpace))
  {
    assert (a + b)[0] == a[0] && (a + b)[1..] == a[1..] + b;
  }

  /** `re.sub` works run by run: when the seam between two strings does not
      cut through a whitespace run, collapsing the whole is collapsing the
      halves. */
  lemma {:induction false} CollapseAppend(a: string, b: string)
    requires a == [] || b == [] || !IsSpace(a[|a| - 1]) || !IsSpace(b[0])
    ensures Collapse(a + b) == Collapse(a) + Collapse(b)
    decreases |a|
  {
    if a == [] {
      assert a + b == b;
    } else if !IsSpace(a[0]) {
      CollapseAppend(a[1..], b);
      CollapseAppendVisible(a, b);
    } else if Lead(a[1..], IsSpace) < |a[1..]| {
      var u := TrimLeft(a[1..], IsSpace);
      assert u[|u| - 1] == a[|a| - 1];
      CollapseAppend(u, b);
      CollapseAppendRun(a, b);
    } else {
      CollapseAppendBlank(a, b);
    }
  }

  lemma CollapseAppendVisible(a: string, b: string)
    requires a != [] && !IsSpace(a[0])
    requires Collapse(a[1..] + b) == Collapse(a[1..]) + Collapse(b)
    ensures Collapse(a + b) == Collapse(a) + Collapse(b)
  {
    var ra, rb := Collapse(a[1..]), Collapse(b);
    assert Collapse(a + b) == [a[0]] + (ra + rb) by {
      CollapseVisibleHead(a, b);
    }
    assert Collapse(a) == [a[0]] + ra;
    AppendAssoc([a[0]], ra, rb);
  }

  lemma CollapseAppendRun(a: string, b: string)
    requires a != [] && IsSpace(a[0]) && Lead(a[1..], IsSpace) < |a[1..]|
    requires Collapse(TrimLeft(a[1..], IsSpace) + b) == Collapse(TrimLeft(a[1..], IsSpace)) + Collapse(b)
    ensures Collapse(a + b) == Collapse(a) + Collapse(b)
  {
    var t := a[1..];
    var u := TrimLeft(t, IsSpace);
    var ru, rb := Collapse(u), Collapse(b);
    assert Collapse(a + b) == " " + Collapse(TrimLeft(t + b, IsSpace)) by {
      CollapseSpaceHead(a, b);
    }
    assert TrimLeft(t + b, IsSpace) == u + b by {
      TrimLeftAppend(t, b);
    }
    assert Collapse(a) == " " + ru;
    AppendAssoc(" ", ru, rb);
  }

  lemma CollapseAppendBlank(a: string, b: string)
    requires a != [] && IsSpace(a[0]) && Lead(a[1..], IsSpace) == |a[1..]|
    requires b == [] || !IsSpace(b[0])
    ensures Collapse(a + b) == Collapse(a) + Collapse(b)
  {
    var t := a[1..];
    if b == [] {
      assert a + b == a;
    } else {
      assert Collapse(a + b) == " " + Collapse(TrimLeft(t + b, IsSpace)) by {
        CollapseSpaceHead(a, b);
      }
      assert TrimLeft(t + b, IsSpace) == b by {
        LeadOfPadded(t, b);
      }
      assert TrimLeft(t, IsSpace) == [];
      assert Collapse(a) == " ";
    }
  }

  /** A whitespace run on its own collapses to one space. */
  lemma CollapseGap(w: string)
    requires Gap(w)
    ensures Collapse(w) == " "
  {
    LeadUnique(w[1..], IsSpace, |w| - 1);
    assert TrimLeft(w[1..], IsSpace) == [];
  }

  /** Each whitespace run between two visible characters becomes exactly one
      space, whatever it held. */
  lemma CollapseSeparated(a: string, w: string, b: string)
    requires a != [] && !IsSpace(a[|a| - 1])
    requires Gap(w)
    requires b != [] && !IsSpace(b[0])
    ensures Collapse(a + w + b) == Collapse(a) + " " + Collapse(b)
  {
    assert a + w + b == a + (w + b);
    CollapseAppend(a, w + b);
    CollapseAppend(w, b);
    CollapseGap(w);
  }

  /** Words with a whitespace run between each two: `parts[0] + gaps[0] +
      parts[1] + ... + parts[n - 1]`. */
  function Spaced(parts: seq<string>, gaps: seq<string>): string
    requires |parts| >= 1 && |gaps| == |parts| - 1
    decreases |parts|
  {
    if |parts| == 1 then parts[0] else parts[0] + gaps[0] + Spaced(parts[1..], gaps[1..])
  }

  lemma {:induction false} SpacedEnds(parts: seq<string>, gaps: seq<string>)
    requires |parts| >= 1 && |gaps| == |parts| - 1
    requires forall k :: 0 <= k < |parts| ==> Word(parts[k])
    ensures Word(parts[0]) && Word(parts[|parts| - 1])
    ensures |Spaced(parts, gaps)| > 0 && Spaced(parts, gaps)[0] == parts[0][0]
    ensures Spaced(parts, gaps)[|Spaced(parts, gaps)| - 1] == parts[|parts| - 1][|parts[|parts| - 1]| - 1]
    decreases |parts|
  {
    if |parts| > 1 {
      assert Word(parts[0]);
      SpacedEnds(parts[1..], gaps[1..]);
    }
  }

  /** Collapsing words separated by arbitrary whitespace runs is joining them
      with single spaces. */
  lemma {:induction false} CollapseSpaced(parts: seq<string>, gaps: seq<string>)
    requires |parts| >= 1 && |gaps| == |parts| - 1
    requires forall k :: 0 <= k < |parts| ==> Word(parts[k])
    requires forall k :: 0 <= k < |gaps| ==> Gap(gaps[k])
    ensures Collapse(Spaced(parts, gaps)) == Join(parts, ' ')
    decreases |parts|
  {
    assert Word(parts[0]);
    CollapseFixpoint(parts[0]);
    if |parts| > 1 {
      var rest := Spaced(parts[1..], gaps[1..]);
      SpacedEnds(parts[1..], gaps[1..]);
      CollapseSpaced(parts[1..], gaps[1..]);
      assert Gap(gaps[0]);
      CollapseSeparated(parts[0], gaps[0], rest);
    }
  }

  /** However much whitespace surrounds the text and separates its words,
      the tokeniser gives the words back. */
  lemma TokensOfRuns(lead: string, parts: seq<string>, gaps: seq<string>, trail: string)
    requires forall k :: 0 <= k < |lead| ==> IsSpace(lead[k])
    requires forall k :: 0 <= k < |trail| ==> IsSpace(trail[k])
    requires |parts| >= 1 && |gaps| == |parts| - 1
    requires forall k :: 0 <= k < |parts| ==> Word(parts[k])
    requires forall k :: 0 <= k < |gaps| ==> Gap(gaps[k])
    ensures Tokens(lead + Spaced(parts, gaps) + trail) == parts
  {
    var s := Spaced(parts, gaps);
    SpacedEnds(parts, gaps);
    StripPadded(lead, s, trail);
    CollapseSpaced(parts, gaps);
    forall k | 0 <= k < |parts|
      ensures ' ' !in parts[k]
    {
      assert Word(parts[k]);
    }
    SplitJoin(parts, ' ');
  }

  /** Python's `a < b` on strings: code points compared left to right, a
      proper prefix sorting first. */
  predicate StringLess(a: string, b: string) {
    if |a| == 0 then |b| > 0
    else if |b| == 0 then false
    else if a[0] != b[0] then a[0] < b[0]
    else StringLess(a[1..], b[1..])
  }

  lemma {:induction false} StringLessAfterPrefix(p: string, a: string, b: string)
    requires |a| > 0 && |b| > 0 && a[0] < b[0]
    ensures StringLess(p + a, p + b)
    decreases |p|
  {
    if |p| > 0 {
      assert (p + a)[1..] == p[1..] + a && (p + b)[1..] == p[1..] + b;
      StringLessAfterPrefix(p[1..], a, b);
    } else {
      assert p + a == a && p + b == b;
    }
  }

  /** Stripping a string with nothing to drop at either end changes nothing. */
  lemma StripKeeps(s: string, drop: char -> bool)
    requires s == [] || (!drop(s[0]) && !drop(s[|s| - 1]))
    ensures Strip(s, drop) == s
  {
    if s != [] {
      assert Lead(s, drop) == 0;
      assert Trail(s, drop) == 0;
    }
  }

  /** Stripping twice is stripping once. */
  lemma StripIdempotent(s: string, drop: char -> bool)
    ensures Strip(Strip(s, drop), drop) == Strip(s, drop)
  {
    StripKeeps(Strip(s, drop), drop);
  }
}

=== FILE: sync.dfy ===
/** `BLSIngest.ingest` in `module/bls/ingest.py`: list the section's files,
    read the metadata table once, then for every file decide whether the
    listing is newer than the record; if so, download it into the bucket and
    upsert its record. The first exception ends the run. */
module Sync {
  import opened Results
  import opened Strings
  import opened Timestamps
  import opened Listing
  import opened Metadata
  import opened Sink

  /** The constructor's inputs that the run depends on. */
  datatype Config = Config(baseUrl: string, section: string, skip: seq<string>)

  datatype Store = Store(table: Table, bucket: Bucket)

  /** `f"{self.base_url}/{file_name}"`, with `self.base_url` already
      `f"{base_url}/{section}"`. */
  function FileUrl(c: Config, name: string): (u: string)
    ensures |u| == |c.baseUrl| + |c.section| + |name| + 2
    ensures u[..|u| - |name|] == c.baseUrl + "/" + c.section + "/"
    ensures u[|u| - |name|..] == name
  {
    c.baseUrl + "/" + c.section + "/" + name
  }

  /** Different files of one section are fetched from different URLs. */
  lemma FileUrlInjective(c: Config, a: string, b: string)
    requires FileUrl(c, a) == FileUrl(c, b)
    ensures a == b
  {
    var p := c.baseUrl + "/" + c.section + "/";
    assert FileUrl(c, a) == p + a && FileUrl(c, b) == p + b;
    assert a == (p + a)[|p|..];
    assert b == (p + b)[|p|..];
  }

  /** `f"bls/{file_path}"`. */
  function BlobPath(filePath: string): (p: string)
    ensures |p| == |filePath| + 4 && p[..4] == "bls/"
    ensures p[4..] == filePath
  {
    "bls/" + filePath
  }

  /** Different paths land in different blobs. */
  lemma BlobPathInjective(a: string, b: string)
    requires BlobPath(a) == BlobPath(b)
    ensures a == b
  {
    assert a == BlobPath(a)[4..];
  }

  // ---------------------------------------------------------------------
  // One file.

  /** The condition of the `if` in the loop. The name missing from the
      metadata settles it; otherwise the listing's `isoformat()` text is
      parsed with `%Y-%m-%dT%H:%M:%S` first and the recorded text with
      `%Y-%m-%d %H:%M:%S` second (either can raise `ValueError`), and the file
      is ingested when the listing is strictly later. */
  function Decide(e: FileEntry, known: map<string, KnownRow>): (r: Result<bool, Raised>)
    ensures e.fileName !in known ==> r == Success(true)
    ensures r.Failure? <==>
      e.fileName in known && (Strptime(e.lastUpdateTs, IsoFormat).Failure? || Strptime(known[e.fileName].lastUpdateTs, SpaceFormat).Failure?)
    ensures r.Failure? ==> r.error == ValueError
    ensures r.Success? && e.fileName in known ==>
      (r.value <==> Before(Strptime(known[e.fileName].lastUpdateTs, SpaceFormat).value, Strptime(e.lastUpdateTs, IsoFormat).value))
  {
    if e.fileName !in known then Success(true)
    else
      var listed := Strptime(e.lastUpdateTs, IsoFormat);
      if listed.Failure? then Failure(listed.error)
      else
        var recorded := Strptime(known[e.fileName].lastUpdateTs, SpaceFormat);
        if recorded.Failure? then Failure(recorded.error)
        else Success(Before(recorded.value, listed.value))
  }

  /** The decision is a comparison of positions on the timeline: a recorded
      file is fetched again exactly when the listing shows a later second. */
  lemma DecideByTimeline(e: FileEntry, known: map<string, KnownRow>)
    requires e.fileName in known && Decide(e, known).Success?
    ensures var listed := Strptime(e.lastUpdateTs, IsoFormat).value;
      var recorded := Strptime(known[e.fileName].lastUpdateTs, SpaceFormat).value;
      Decide(e, known).value <==> Ordinal(recorded) < Ordinal(listed)
  {
    BeforeIsEarlier(Strptime(known[e.fileName].lastUpdateTs, SpaceFormat).value, Strptime(e.lastUpdateTs, IsoFormat).value);
  }

  /** `__ingest_file`: stream the body in chunks of `ChunkSize` bytes and
      write the non-empty ones to `bls/<file_path>`. */
  function IngestFile(c: Config, remote: Remote, bucket: Bucket, e: FileEntry): (r: Result<Bucket, Raised>)
    ensures r.Success? <==> FileUrl(c, e.fileName) in remote
    ensures r.Failure? ==> r.error == RemoteError
    ensures r.Success? ==> r.value == bucket[BlobPath(e.filePath) := remote[FileUrl(c, e.fileName)]]
  {
    Download(remote, FileUrl(c, e.fileName), bucket, BlobPath(e.filePath))
  }

  /** What one iteration leaves behind: the store, whether the file's blob was
      written, and the exception that ends the run, if any. */
  datatype Outcome = Outcome(store: Store, wrote: bool, error: Option<Raised>)

  /** One iteration: decide, then write the blob, then upsert the record. */
  function Step(c: Config, remote: Remote, known: map<string, KnownRow>, s: Store, e: FileEntry): (o: Outcome)
    ensures !o.wrote ==> o.store == s
    ensures o.error.Some? ==> o.store.table == s.table
    ensures o.wrote ==> FileUrl(c, e.fileName) in remote && o.store.bucket == s.bucket[BlobPath(e.filePath) := remote[FileUrl(c, e.fileName)]]
  {
    var d := Decide(e, known);
    if d.Failure? then Outcome(s, false, Some(d.error))
    else if !d.value then Outcome(s, false, None)
    else
      var b := IngestFile(c, remote, s.bucket, e);
      if b.Failure? then Outcome(s, false, Some(b.error))
      else
        var t := Upsert(s.table, c.section, e.fileName, e.lastUpdateTs);
        if t.Failure? then Outcome(Store(s.table, b.value), true, Some(t.error))
        else Outcome(Store(t.value, b.value), true, None)
  }

  /** The file is downloaded exactly when the decision says so and the
      server answers; the iteration then completes exactly when the upsert
      does, or when the decision was to leave the file alone. */
  lemma StepDecides(c: Config, remote: Remote, known: map<string, KnownRow>, s: Store, e: FileEntry)
    ensures var o := Step(c, remote, known, s, e);
      o.wrote <==> Decide(e, known) == Success(true) && FileUrl(c, e.fileName) in remote
    ensures var o := Step(c, remote, known, s, e);
      o.error.None? <==> Decide(e, known) == Success(false) || (o.wrote && Upsert(s.table, c.section, e.fileName, e.lastUpdateTs).Success?)
  {
  }

  /** A completed download is followed by the upsert of the listed text. */
  lemma StepRecords(c: Config, remote: Remote, known: map<string, KnownRow>, s: Store, e: FileEntry)
    requires Step(c, remote, known, s, e).wrote && Step(c, remote, known, s, e).error.None?
    ensures Upsert(s.table, c.section, e.fileName, e.lastUpdateTs) == Success(Step(c, remote, known, s, e).store.table)
  {
  }

  /** The table rows an iteration may touch: only the file's own. */
  lemma StepTableFrame(c: Config, remote: Remote, known: map<string, KnownRow>, s: Store, e: FileEntry, k: Key)
    requires k != Key(c.section, e.fileName)
    ensures var t := Step(c, remote, known, s, e).store.table;
      (k in t <==> k in s.table) && (k in t ==> t[k] == s.table[k])
  {
  }

  // ---------------------------------------------------------------------
  // The whole run.

  /** The names of the listed files, in order. */
  function Names(files: seq<FileEntry>): (r: seq<string>)
    ensures |r| == |files| && forall k :: 0 <= k < |files| ==> r[k] == files[k].fileName
  {
    seq(|files|, k requires 0 <= k < |files| => files[k].fileName)
  }

  /** The blobs the listed files are written to. */
  function Paths(files: seq<FileEntry>): (r: seq<string>)
    ensures |r| == |files| && forall k :: 0 <= k < |files| ==> r[k] == BlobPath(files[k].filePath)
  {
    seq(|files|, k requires 0 <= k < |files| => BlobPath(files[k].filePath))
  }

  /** The outcome of `ingest`: the store it leaves, the files whose blob it
      wrote, in order, and the exception that ended it early, if any. */
  datatype Run = Run(store: Store, written: seq<string>, error: Option<Raised>)

  /** The `for` loop over the file list, against the metadata read before it
      started. */
  function Loop(c: Config, remote: Remote, known: map<string, KnownRow>, s: Store, files: seq<FileEntry>): (r: Run)
    ensures |r.written| <= |files|
    ensures forall n :: n in r.written ==> n in Names(files)
    decreases |files|
  {
    if |files| == 0 then Run(s, [], None)
    else
      var o := Step(c, remote, known, s, files[0]);
      var here := if o.wrote then [files[0].fileName] else [];
      if o.error.Some? then Run(o.store, here, o.error)
      else
        var rest := Loop(c, remote, known, o.store, files[1..]);
        assert forall n :: n in Names(files[1..]) ==> n in Names(files) by {
          assert forall k :: 0 <= k < |files| - 1 ==> Names(files[1..])[k] == Names(files)[k + 1];
        }
        Run(rest.store, here + rest.written, rest.error)
  }

  /** `ingest`: the file list (the skip filter and parsing of every anchor),
      then the metadata of the section, then the loop. */
  function Sync(c: Config, page: seq<Anchor>, remote: Remote, s: Store): (r: Run)
    ensures FileList(page, c.skip).Failure? ==> r.store == s && r.written == [] && r.error == Some(FileList(page, c.skip).error)
    ensures |r.written| <= |page|
    ensures forall n :: n in r.written ==> n !in c.skip && exists a :: a in page && a.text == n
  {
    var files := FileList(page, c.skip);
    if files.Failure? then Run(s, [], Some(files.error))
    else
      var r := Loop(c, remote, Known(s.table, c.section), s, files.value);
      NamesFromPage(page, c.skip, files.value, r.written);
      r
  }

  /** Names taken from a successful file list are those of anchors of the
      page that are not on the skip list. */
  lemma NamesFromPage(page: seq<Anchor>, skip: seq<string>, files: seq<FileEntry>, names: seq<string>)
    requires FileList(page, skip) == Success(files)
    requires forall n :: n in names ==> n in Names(files)
    ensures forall n :: n in names ==> n !in skip && exists a :: a in page && a.text == n
  {
    forall n | n in names
      ensures n !in skip && exists a :: a in page && a.text == n
    {
      var k :| 0 <= k < |files| && Names(files)[k] == n;
      var a := Keep(page, skip)[k];
      assert a in Keep(page, skip) && a.text == n;
    }
  }

  // ---------------------------------------------------------------------
  // What a run may change.

  lemma NamesCons(files: seq<FileEntry>)
    requires |files| > 0
    ensures Names(files) == [files[0].fileName] + Names(files[1..])
  {
    var n, t := Names(files), Names(files[1..]);
    forall k | 0 < k < |files|
      ensures n[k] == t[k - 1]
    {
      assert files[1..][k - 1] == files[k];
    }
    assert n == [n[0]] + t;
  }

  lemma PathsCons(files: seq<FileEntry>)
    requires |files| > 0
    ensures Paths(files) == [BlobPath(files[0].filePath)] + Paths(files[1..])
  {
    var p, q := Paths(files), Paths(files[1..]);
    forall k | 0 < k < |files|
      ensures p[k] == q[k - 1]
    {
      assert files[1..][k - 1] == files[k];
    }
    assert p == [p[0]] + q;
  }

  /** A row of another section, or of a file the run did not list, keeps its
      value. */
  lemma {:induction false} LoopKeepsRow(c: Config, remote: Remote, known: map<string, KnownRow>, s: Store, files: seq<FileEntry>, k: Key)
    requires k in s.table && (k.section != c.section || k.fileName !in Names(files))
    ensures var t := Loop(c, remote, known, s, files).store.table;
      k in t && t[k] == s.table[k]
    decreases |files|
  {
    if |files| > 0 {
      NamesCons(files);
      var o := Step(c, remote, known, s, files[0]);
      StepTableFrame(c, remote, known, s, files[0], k);
      if o.error.None? {
        LoopKeepsRow(c, remote, known, o.store, files[1..], k);
      }
    }
  }

  /** The only rows a run adds are those of listed files of its section. */
  lemma {:induction false} LoopAddsListedRow(c: Config, remote: Remote, known: map<string, KnownRow>, s: Store, files: seq<FileEntry>, k: Key)
    requires k in Loop(c, remote, known, s, files).store.table && k !in s.table
    ensures k.section == c.section && k.fileName in Names(files)
    decreases |files|
  {
    NamesCons(files);
    var o := Step(c, remote, known, s, files[0]);
    if k != Key(c.section, files[0].fileName) {
      StepTableFrame(c, remote, known, s, files[0], k);
      LoopAddsListedRow(c, remote, known, o.store, files[1..], k);
    }
  }

  /** A blob no listed file is written to keeps its content. */
  lemma {:induction false} LoopKeepsBlob(c: Config, remote: Remote, known: map<string, KnownRow>, s: Store, files: seq<FileEntry>, p: string)
    requires p in s.bucket && p !in Paths(files)
    ensures var b := Loop(c, remote, known, s, files).store.bucket;
      p in b && b[p] == s.bucket[p]
    decreases |files|
  {
    if |files| > 0 {
      PathsCons(files);
      var o := Step(c, remote, known, s, files[0]);
      if o.error.None? {
        LoopKeepsBlob(c, remote, known, o.store, files[1..], p);
      }
    }
  }

  /** The first exception ends the run: files after the failing one make no
      difference. */
  lemma {:induction false} LoopStopsAtError(c: Config, remote: Remote, known: map<string, KnownRow>, s: Store, files: seq<FileEntry>, more: seq<FileEntry>)
    requires Loop(c, remote, known, s, files).error.Some?
    ensures Loop(c, remote, known, s, files + more) == Loop(c, remote, known, s, files)
    decreases |files|
  {
    var o := Step(c, remote, known, s, files[0]);
    assert (files + more)[0] == files[0];
    if o.error.None? {
      assert (files + more)[1..] == files[1..] + more;
      LoopStopsAtError(c, remote, known, o.store, files[1..], more);
    }
  }

  /** Files on the skip list are never written, and no record is created for
      one. */
  lemma SyncSkips(c: Config, page: seq<Anchor>, remote: Remote, s: Store)
    ensures var r := Sync(c, page, remote, s);
      forall n :: n in r.written ==> n !in c.skip
    ensures var t := Sync(c, page, remote, s).store.table;
      forall k :: k in t && k !in s.table ==> k.section == c.section && k.fileName !in c.skip
  {
    var fl := FileList(page, c.skip);
    if fl.Success? {
      var files := fl.value;
      var t := Sync(c, page, remote, s).store.table;
      SkipRespected(page, c.skip);
      forall n | n in Names(files)
        ensures n !in c.skip
      {
        var k :| 0 <= k < |files| && Names(files)[k] == n;
      }
      forall k | k in t && k !in s.table
        ensures k.section == c.section && k.fileName !in c.skip
      {
        LoopAddsListedRow(c, remote, Known(s.table, c.section), s, files, k);
      }
    }
  }

  /** Rows of other sections and blobs outside the `bls/` folder are left
      alone. */
  lemma SyncKeepsOthers(c: Config, page: seq<Anchor>, remote: Remote, s: Store)
    ensures var t := Sync(c, page, remote, s).store.table;
      forall k :: k in s.table && k.section != c.section ==> k in t && t[k] == s.table[k]
    ensures var b := Sync(c, page, remote, s).store.bucket;
      forall p :: p in s.bucket && (|p| < 4 || p[..4] != "bls/") ==> p in b && b[p] == s.bucket[p]
  {
    var fl := FileList(page, c.skip);
    if fl.Success? {
      var files := fl.value;
      var known := Known(s.table, c.section);
      forall k | k in s.table && k.section != c.section
        ensures var t := Loop(c, remote, known, s, files).store.table; k in t && t[k] == s.table[k]
      {
        LoopKeepsRow(c, remote, known, s, files, k);
      }
      forall p | p in s.bucket && (|p| < 4 || p[..4] != "bls/")
        ensures var b := Loop(c, remote, known, s, files).store.bucket; p in b && b[p] == s.bucket[p]
      {
        assert p !in Paths(files);
        LoopKeepsBlob(c, remote, known, s, files, p);
      }
    }
  }

  // ---------------------------------------------------------------------
  // A completed run leaves every listed file recorded at least as late as
  // the listing, so running again with the same listing changes nothing.

  /** Every listed timestamp parses with `%Y-%m-%dT%H:%M:%S`. */
  predicate Parsed(files: seq<FileEntry>) {
    forall k :: 0 <= k < |files| ==> Strptime(files[k].lastUpdateTs, IsoFormat).Success?
  }

  predicate DistinctNames(files: seq<FileEntry>) {
    forall i, j :: 0 <= i < j < |files| ==> files[i].fileName != files[j].fileName
  }

  /** The table records every listed file at or after its listed instant. */
  predicate Covers(t: Table, section: string, files: seq<FileEntry>)
    requires Parsed(files)
  {
    forall k :: 0 <= k < |files| ==>
      Key(section, files[k].fileName) in t && !Before(t[Key(section, files[k].fileName)], Strptime(files[k].lastUpdateTs, IsoFormat).value)
  }

  /** The metadata read before the loop still describes the table, as far as
      the remaining files are concerned. */
  predicate Agrees(known: map<string, KnownRow>, t: Table, section: string, files: seq<FileEntry>) {
    forall k :: 0 <= k < |files| ==>
      (files[k].fileName in known <==> Key(section, files[k].fileName) in t) &&
      (files[k].fileName in known ==> known[files[k].fileName] == KnownRow(Render(t[Key(section, files[k].fileName)], SpaceFormat)))
  }

  lemma KnownAgrees(t: Table, section: string, files: seq<FileEntry>)
    ensures Agrees(Known(t, section), t, section, files)
  {
  }

  /** After the first file's step, the snapshot still agrees with the table
      on the other files. */
  lemma AgreesAfterStep(c: Config, remote: Remote, known: map<string, KnownRow>, s: Store, files: seq<FileEntry>)
    requires |files| > 0 && DistinctNames(files) && Agrees(known, s.table, c.section, files)
    ensures Agrees(known, Step(c, remote, known, s, files[0]).store.table, c.section, files[1..])
  {
    var t := Step(c, remote, known, s, files[0]).store.table;
    forall k | 0 <= k < |files| - 1
      ensures var n := files[1..][k].fileName;
        (n in known <==> Key(c.section, n) in t) &&
        (n in known ==> known[n] == KnownRow(Render(t[Key(c.section, n)], SpaceFormat)))
    {
      assert files[1..][k] == files[k + 1];
      StepTableFrame(c, remote, known, s, files[0], Key(c.section, files[k + 1].fileName));
    }
  }

  /** A step that completes leaves the file's record no earlier than its
      listed instant. */
  lemma StepCovers(c: Config, remote: Remote, known: map<string, KnownRow>, s: Store, e: FileEntry)
    requires Strptime(e.lastUpdateTs, IsoFormat).Success?
    requires e.fileName in known <==> Key(c.section, e.fileName) in s.table
    requires e.fileName in known ==> known[e.fileName] == KnownRow(Render(s.table[Key(c.section, e.fileName)], SpaceFormat))
    requires Step(c, remote, known, s, e).error.None?
    ensures var t := Step(c, remote, known, s, e).store.table;
      Key(c.section, e.fileName) in t && !Before(t[Key(c.section, e.fileName)], Strptime(e.lastUpdateTs, IsoFormat).value)
  {
    var key := Key(c.section, e.fileName);
    var listed := Strptime(e.lastUpdateTs, IsoFormat).value;
    if e.fileName in known {
      SpaceRoundTrip(s.table[key]);
      BeforeStrictTotal(s.table[key], listed, listed);
    } else {
      BeforeStrictTotal(listed, listed, listed);
    }
  }

  lemma {:induction false} LoopCovers(c: Config, remote: Remote, known: map<string, KnownRow>, s: Store, files: seq<FileEntry>)
    requires Parsed(files) && DistinctNames(files) && Agrees(known, s.table, c.section, files)
    requires Loop(c, remote, known, s, files).error.None?
    ensures Covers(Loop(c, remote, known, s, files).store.table, c.section, files)
    decreases |files|
  {
    if |files| > 0 {
      var o := Step(c, remote, known, s, files[0]);
      var t := Loop(c, remote, known, o.store, files[1..]).store.table;
      LoopGoesOn(c, remote, known, s, files);
      TailParsed(files);
      AgreesAfterStep(c, remote, known, s, files);
      LoopCovers(c, remote, known, o.store, files[1..]);
      FirstCovered(c, remote, known, s, files);
      FirstKept(c, remote, known, s, files);
      CoversCons(t, c.section, files);
    }
  }

  /** A loop that completes completed its first step and the rest of it. */
  lemma LoopGoesOn(c: Config, remote: Remote, known: map<string, KnownRow>, s: Store, files: seq<FileEntry>)
    requires |files| > 0 && Loop(c, remote, known, s, files).error.None?
    ensures var o := Step(c, remote, known, s, files[0]);
      && o.error.None?
      && Loop(c, remote, known, o.store, files[1..]).error.None?
      && Loop(c, remote, known, s, files).store == Loop(c, remote, known, o.store, files[1..]).store
  {
  }

  lemma TailParsed(files: seq<FileEntry>)
    requires |files| > 0 && Parsed(files) && DistinctNames(files)
    ensures Parsed(files[1..]) && DistinctNames(files[1..])
  {
    forall k | 0 <= k < |files| - 1
      ensures files[1..][k] == files[k + 1]
    {
    }
  }

  /** The first step, when it completes, leaves the first file's record no
      earlier than its listed instant. */
  lemma FirstCovered(c: Config, remote: Remote, known: map<string, KnownRow>, s: Store, files: seq<FileEntry>)
    requires |files| > 0 && Parsed(files) && Agrees(known, s.table, c.section, files)
    requires Step(c, remote, known, s, files[0]).error.None?
    ensures var t, key := Step(c, remote, known, s, files[0]).store.table, Key(c.section, files[0].fileName);
      key in t && !Before(t[key], Strptime(files[0].lastUpdateTs, IsoFormat).value)
  {
    assert Strptime(files[0].lastUpdateTs, IsoFormat).Success?;
    StepCovers(c, remote, known, s, files[0]);
  }

  /** The rest of the loop leaves the first file's record alone, as no
      other listed file bears its name. */
  lemma FirstKept(c: Config, remote: Remote, known: map<string, KnownRow>, s: Store, files: seq<FileEntry>)
    requires |files| > 0 && DistinctNames(files)
    requires Key(c.section, files[0].fileName) in Step(c, remote, known, s, files[0]).store.table
    ensures var o, key := Step(c, remote, known, s, files[0]), Key(c.section, files[0].fileName);
      var t := Loop(c, remote, known, o.store, files[1..]).store.table;
      key in t && t[key] == o.store.table[key]
  {
    NamesCons(files);
    assert files[0].fileName !in Names(files[1..]);
    LoopKeepsRow(c, remote, known, Step(c, remote, known, s, files[0]).store, files[1..], Key(c.section, files[0].fileName));
  }

  /** Covering the first file and the rest is covering all of them. */
  lemma CoversCons(t: Table, section: string, files: seq<FileEntry>)
    requires |files| > 0 && Parsed(files) && Parsed(files[1..])
    requires Key(section, files[0].fileName) in t
    requires !Before(t[Key(section, files[0].fileName)], Strptime(files[0].lastUpdateTs, IsoFormat).value)
    requires Covers(t, section, files[1..])
    ensures Covers(t, section, files)
  {
    forall k | 0 < k < |files|
      ensures files[k] == files[1..][k - 1]
    {
    }
  }

  /** With every file already covered, the loop writes nothing and changes
      nothing. */
  lemma {:induction false} LoopSettled(c: Config, remote: Remote, known: map<string, KnownRow>, s: Store, files: seq<FileEntry>)
    requires Parsed(files) && Covers(s.table, c.section, files) && Agrees(known, s.table, c.section, files)
    ensures Loop(c, remote, known, s, files) == Run(s, [], None)
    decreases |files|
  {
    if |files| > 0 {
      var e := files[0];
      var key := Key(c.section, e.fileName);
      SpaceRoundTrip(s.table[key]);
      assert Decide(e, known) == Success(false);
      assert Parsed(files[1..]) && Covers(s.table, c.section, files[1..]) && Agrees(known, s.table, c.section, files[1..]) by {
        forall k | 0 <= k < |files| - 1
          ensures files[1..][k] == files[k + 1]
        {
        }
      }
      LoopSettled(c, remote, known, s, files[1..]);
    }
  }

  /** The listed files of a page whose file list was read, in order. */
  lemma ListedParse(page: seq<Anchor>, skip: seq<string>)
    requires FileList(page, skip).Success?
    ensures Parsed(FileList(page, skip).value)
  {
    var kept := Keep(page, skip);
    var files := ParseAll(kept).value;
    forall k | 0 <= k < |files|
      ensures Strptime(files[k].lastUpdateTs, IsoFormat).Success?
    {
      assert ParseTag(kept[k]) == Success(files[k]);
      EntryTimestampParses(kept[k]);
    }
  }

  /** After a run that completes, every listed file has a record no earlier
      than the instant the listing shows. Names on a directory page are
      unique; the statement needs that. */
  lemma SyncCovers(c: Config, page: seq<Anchor>, remote: Remote, s: Store)
    requires Sync(c, page, remote, s).error.None?
    requires FileList(page, c.skip).Success? && DistinctNames(FileList(page, c.skip).value)
    ensures Parsed(FileList(page, c.skip).value)
    ensures Covers(Sync(c, page, remote, s).store.table, c.section, FileList(page, c.skip).value)
  {
    var files := FileList(page, c.skip).value;
    ListedParse(page, c.skip);
    KnownAgrees(s.table, c.section, files);
    LoopCovers(c, remote, Known(s.table, c.section), s, files);
  }

  /** Running again over the same page right after a run that completed
      fetches nothing and leaves the table and the bucket as they are. */
  lemma SyncIdempotent(c: Config, page: seq<Anchor>, remote: Remote, s: Store)
    requires Sync(c, page, remote, s).error.None?
    requires FileList(page, c.skip).Success? && DistinctNames(FileList(page, c.skip).value)
    ensures var once := Sync(c, page, remote, s);
      Sync(c, page, remote, once.store) == Run(once.store, [], None)
  {
    var once := Sync(c, page, remote, s);
    var files := FileList(page, c.skip).value;
    SyncCovers(c, page, remote, s);
    KnownAgrees(once.store.table, c.section, files);
    LoopSettled(c, remote, Known(once.store.table, c.section), once.store, files);
  }

  // ---------------------------------------------------------------------
  // Records only move forward.

  /** One iteration never moves a record earlier than it was in the table
      the metadata snapshot was read from: the file's row is only rewritten
      when the snapshot shows it strictly earlier than the listing. */
  lemma StepMonotone(c: Config, remote: Remote, t0: Table, s: Store, e: FileEntry, k: Key)
    requires k in t0 && k in s.table && !Before(s.table[k], t0[k])
    ensures var t := Step(c, remote, Known(t0, c.section), s, e).store.table;
      k in t && !Before(t[k], t0[k])
  {
    var known := Known(t0, c.section);
    var o := Step(c, remote, known, s, e);
    if k != Key(c.section, e.fileName) {
      StepTableFrame(c, remote, known, s, e, k);
    } else if o.store.table != s.table {
      var listed := Strptime(e.lastUpdateTs, IsoFormat).value;
      StepDecides(c, remote, known, s, e);
      KnownParsesBack(t0, c.section, e.fileName);
      assert Before(t0[k], listed);
      assert o.store.table[k] == listed;
      BeforeStrictTotal(t0[k], listed, listed);
    }
  }

  /** A row after one iteration is the row before it, or the file's own row
      holding the instant the listing shows. */
  lemma StepRowOrigin(c: Config, remote: Remote, known: map<string, KnownRow>, s: Store, e: FileEntry, k: Key)
    requires k in Step(c, remote, known, s, e).store.table
    ensures var t := Step(c, remote, known, s, e).store.table;
      (k in s.table && t[k] == s.table[k])
      || (k == Key(c.section, e.fileName) && Strptime(e.lastUpdateTs, IsoFormat) == Success(t[k]))
  {
    if k != Key(c.section, e.fileName) {
      StepTableFrame(c, remote, known, s, e, k);
    }
  }

  lemma {:induction false} LoopMonotone(c: Config, remote: Remote, t0: Table, s: Store, files: seq<FileEntry>, k: Key)
    requires k in t0 && k in s.table && !Before(s.table[k], t0[k])
    ensures var t := Loop(c, remote, Known(t0, c.section), s, files).store.table;
      k in t && !Before(t[k], t0[k])
    decreases |files|
  {
    if |files| > 0 {
      var o := Step(c, remote, Known(t0, c.section), s, files[0]);
      StepMonotone(c, remote, t0, s, files[0], k);
      if o.error.None? {
        LoopMonotone(c, remote, t0, o.store, files[1..], k);
      }
    }
  }

  /** Some listed file is keyed `k` and shows the instant `v`. */
  predicate ListedAt(section: string, files: seq<FileEntry>, k: Key, v: Stamp) {
    exists j :: 0 <= j < |files| && k == Key(section, files[j].fileName) && Strptime(files[j].lastUpdateTs, IsoFormat) == Success(v)
  }

  lemma ListedHead(section: string, files: seq<FileEntry>, k: Key, v: Stamp)
    requires |files| > 0 && k == Key(section, files[0].fileName) && Strptime(files[0].lastUpdateTs, IsoFormat) == Success(v)
    ensures ListedAt(section, files, k, v)
  {
  }

  lemma ListedTail(section: string, files: seq<FileEntry>, k: Key, v: Stamp)
    requires |files| > 0 && ListedAt(section, files[1..], k, v)
    ensures ListedAt(section, files, k, v)
  {
    var j :| 0 <= j < |files[1..]| && k == Key(section, files[1..][j].fileName) && Strptime(files[1..][j].lastUpdateTs, IsoFormat) == Success(v);
    assert files[1..][j] == files[j + 1];
  }

  /** Every row a loop leaves is the row it started from, or the row of a
      listed file holding that file's listed instant. */
  lemma {:induction false} LoopRowOrigin(c: Config, remote: Remote, known: map<string, KnownRow>, s: Store, files: seq<FileEntry>, k: Key)
    requires k in Loop(c, remote, known, s, files).store.table
    ensures var t := Loop(c, remote, known, s, files).store.table;
      (k in s.table && t[k] == s.table[k]) || ListedAt(c.section, files, k, t[k])
    decreases |files|
  {
    if |files| > 0 {
      var o := Step(c, remote, known, s, files[0]);
      if o.error.Some? {
        RowOriginStop(c, remote, known, s, files, k);
      } else {
        LoopRowOrigin(c, remote, known, o.store, files[1..], k);
        RowOriginGo(c, remote, known, s, files, k);
      }
    }
  }

  /** The loop stops at the first file: its step is the whole run. */
  lemma RowOriginStop(c: Config, remote: Remote, known: map<string, KnownRow>, s: Store, files: seq<FileEntry>, k: Key)
    requires |files| > 0 && Step(c, remote, known, s, files[0]).error.Some?
    requires k in Loop(c, remote, known, s, files).store.table
    ensures var t := Loop(c, remote, known, s, files).store.table;
      (k in s.table && t[k] == s.table[k]) || ListedAt(c.section, files, k, t[k])
  {
    var t := Loop(c, remote, known, s, files).store.table;
    var v := t[k];
    assert t == Step(c, remote, known, s, files[0]).store.table;
    StepRowOrigin(c, remote, known, s, files[0], k);
    if !(k in s.table && v == s.table[k]) {
      ListedHead(c.section, files, k, v);
    }
  }

  /** The loop goes on after the first file: a row comes from the first
      step or from the rest of the loop. */
  lemma RowOriginGo(c: Config, remote: Remote, known: map<string, KnownRow>, s: Store, files: seq<FileEntry>, k: Key)
    requires |files| > 0 && Step(c, remote, known, s, files[0]).error.None?
    requires k in Loop(c, remote, known, s, files).store.table
    requires var o := Step(c, remote, known, s, files[0]);
      var t := Loop(c, remote, known, o.store, files[1..]).store.table;
      k in t && ((k in o.store.table && t[k] == o.store.table[k]) || ListedAt(c.section, files[1..], k, t[k]))
    ensures var t := Loop(c, remote, known, s, files).store.table;
      (k in s.table && t[k] == s.table[k]) || ListedAt(c.section, files, k, t[k])
  {
    var o := Step(c, remote, known, s, files[0]);
    var t := Loop(c, remote, known, s, files).store.table;
    var v := t[k];
    assert t == Loop(c, remote, known, o.store, files[1..]).store.table;
    if k in o.store.table && v == o.store.table[k] {
      StepRowOrigin(c, remote, known, s, files[0], k);
      if !(k in s.table && v == s.table[k]) {
        ListedHead(c.section, files, k, v);
      }
    } else {
      ListedTail(c.section, files, k, v);
    }
  }

  /** A run never moves a record earlier: every row the table held before
      `ingest` is still there, at the same instant or a later one. */
  lemma SyncMonotone(c: Config, page: seq<Anchor>, remote: Remote, s: Store, k: Key)
    requires k in s.table
    ensures var t := Sync(c, page, remote, s).store.table;
      k in t && !Before(t[k], s.table[k])
  {
    BeforeStrictTotal(s.table[k], s.table[k], s.table[k]);
    var files := FileList(page, c.skip);
    if files.Success? {
      LoopMonotone(c, remote, s.table, s, files.value, k);
    }
  }

  /** Every row after a run is the row before it, or the row of a file of
      the parsed listing holding the instant the listing shows for it. */
  lemma SyncRowOrigin(c: Config, page: seq<Anchor>, remote: Remote, s: Store, k: Key)
    requires k in Sync(c, page, remote, s).store.table
    ensures var t := Sync(c, page, remote, s).store.table;
      (k in s.table && t[k] == s.table[k])
      || (FileList(page, c.skip).Success?
          && exists e :: e in FileList(page, c.skip).value && k == Key(c.section, e.fileName) && Strptime(e.lastUpdateTs, IsoFormat) == Success(t[k]))
  {
    var files := FileList(page, c.skip);
    if files.Success? {
      var t := Sync(c, page, remote, s).store.table;
      LoopRowOrigin(c, remote, Known(s.table, c.section), s, files.value, k);
      if !(k in s.table && t[k] == s.table[k]) {
        var j :| 0 <= j < |files.value| && k == Key(c.section, files.value[j].fileName) && Strptime(files.value[j].lastUpdateTs, IsoFormat) == Success(t[k]);
        assert files.value[j] in files.value;
      }
    }
  }
}

=== FILE: timestamps.dfy ===
/** Calendar instants and the two Python `datetime` conversions the BLS
    ingester uses: `datetime.strptime(text, format)` and `isoformat()`, plus
    BigQuery's `CAST(DATETIME AS STRING)`.

    Parsing follows CPython's `_strptime`: each format directive becomes a
    regular expression (`%Y` is exactly four digits, `%m %d %H %I %M %S` one or
    two, `%p` is `am`/`pm`), whitespace in the format matches any run of
    whitespace, the whole match is case-insensitive and must consume the whole
    text, and the fields are then checked by the `datetime` constructor. */
module Timestamps {
  import opened Results
  import opened Strings

  datatype Date = Date(year: int, month: int, day: int)

  /** A naive (zone-less) instant with whole seconds, like the BigQuery
      `DATETIME` column and a Python `datetime` whose microsecond is 0. */
  datatype Instant = Instant(date: Date, hour: int, minute: int, second: int)

  predicate IsLeapYear(y: int) {
    y % 4 == 0 && (y % 100 != 0 || y % 400 == 0)
  }

  function DaysInMonth(year: int, month: int): int
    requires 1 <= month <= 12
  {
    if month == 2 then (if IsLeapYear(year) then 29 else 28)
    else if month == 4 || month == 6 || month == 9 || month == 11 then 30
    else 31
  }

  /** The dates Python's `datetime.date` accepts (years 1 to 9999). */
  predicate ValidDate(d: Date) {
    1 <= d.year <= 9999 && 1 <= d.month <= 12 && 1 <= d.day <= DaysInMonth(d.year, d.month)
  }

  predicate Valid(i: Instant) {
    ValidDate(i.date) && 0 <= i.hour < 24 && 0 <= i.minute < 60 && 0 <= i.second < 60
  }

  /** Python's `datetime` ordering: fields compared lexicographically from the
      year down to the second. */
  predicate Before(a: Instant, b: Instant) {
    if a.date.year != b.date.year then a.date.year < b.date.year
    else if a.date.month != b.date.month then a.date.month < b.date.month
    else if a.date.day != b.date.day then a.date.day < b.date.day
    else if a.hour != b.hour then a.hour < b.hour
    else if a.minute != b.minute then a.minute < b.minute
    else a.second < b.second
  }

  // ---------------------------------------------------------------------
  // An independent reading of the order: seconds elapsed since 0001-01-01.

  function DaysInYear(y: int): int {
    if IsLeapYear(y) then 366 else 365
  }

  function DaysBeforeYear(y: int): nat
    requires y >= 1
  {
    if y == 1 then 0 else DaysBeforeYear(y - 1) + DaysInYear(y - 1)
  }

  function DaysBeforeMonth(y: int, m: int): nat
    requires 1 <= m <= 13
  {
    if m == 1 then 0 else DaysBeforeMonth(y, m - 1) + DaysInMonth(y, m - 1)
  }

  function Ordinal(i: Instant): int
    requires Valid(i)
  {
    var d := i.date;
    var days := DaysBeforeYear(d.year) + DaysBeforeMonth(d.year, d.month) + d.day - 1;
    days * 86400 + i.hour * 3600 + i.minute * 60 + i.second
  }

  lemma {:induction false} MonthsFillYear(y: int)
    ensures DaysBeforeMonth(y, 13) == DaysInYear(y)
  {
    var feb := DaysInMonth(y, 2);
    assert DaysBeforeMonth(y, 2) == 31;
    assert DaysBeforeMonth(y, 3) == 31 + feb;
    assert DaysBeforeMonth(y, 4) == 62 + feb;
    assert DaysBeforeMonth(y, 5) == 92 + feb;
    assert DaysBeforeMonth(y, 6) == 123 + feb;
    assert DaysBeforeMonth(y, 7) == 153 + feb;
    assert DaysBeforeMonth(y, 8) == 184 + feb;
    assert DaysBeforeMonth(y, 9) == 215 + feb;
    assert DaysBeforeMonth(y, 10) == 245 + feb;
    assert DaysBeforeMonth(y, 11) == 276 + feb;
    assert DaysBeforeMonth(y, 12) == 306 + feb;
    assert DaysBeforeMonth(y, 13) == 337 + feb;
  }

  lemma {:induction false} MonthsIncrease(y: int, m1: int, m2: int)
    requires 1 <= m1 < m2 <= 13
    ensures DaysBeforeMonth(y, m1) + DaysInMonth(y, m1) <= DaysBeforeMonth(y, m2)
    decreases m2
  {
    if m2 > m1 + 1 {
      MonthsIncrease(y, m1, m2 - 1);
    }
  }

  lemma {:induction false} YearsIncrease(y1: int, y2: int)
    requires 1 <= y1 < y2
    ensures DaysBeforeYear(y1) + DaysInYear(y1) <= DaysBeforeYear(y2)
    decreases y2
  {
    if y2 > y1 + 1 {
      YearsIncrease(y1, y2 - 1);
    }
  }

  /** The day offset of a valid date within its year is less than the year's length. */
  lemma DayWithinYear(d: Date)
    requires ValidDate(d)
    ensures DaysBeforeMonth(d.year, d.month) + d.day - 1 < DaysInYear(d.year)
  {
    MonthsFillYear(d.year);
    if d.month < 12 {
      MonthsIncrease(d.year, d.month, 13);
    }
  }

  /** Python's field-by-field comparison agrees with comparing positions on the
      timeline: `Before` is exactly "fewer seconds since 0001-01-01". */
  lemma BeforeIsEarlier(a: Instant, b: Instant)
    requires Valid(a) && Valid(b)
    ensures Before(a, b) <==> Ordinal(a) < Ordinal(b)
  {
    if Before(a, b) {
      BeforeOrdinal(a, b);
    } else if a != b {
      BeforeOrdinal(b, a);
    }
  }

  lemma BeforeOrdinal(a: Instant, b: Instant)
    requires Valid(a) && Valid(b) && Before(a, b)
    ensures Ordinal(a) < Ordinal(b)
  {
    var da, db := a.date, b.date;
    var dayA := DaysBeforeYear(da.year) + DaysBeforeMonth(da.year, da.month) + da.day - 1;
    var dayB := DaysBeforeYear(db.year) + DaysBeforeMonth(db.year, db.month) + db.day - 1;
    if da.year != db.year {
      DayWithinYear(da);
      YearsIncrease(da.year, db.year);
      assert dayA < dayB;
    } else if da.month != db.month {
      MonthsIncrease(da.year, da.month, db.month);
      assert dayA < dayB;
    }
  }

  /** `Before` is a strict total order. */
  lemma BeforeStrictTotal(a: Instant, b: Instant, c: Instant)
    ensures !Before(a, a)
    ensures Before(a, b) && Before(b, c) ==> Before(a, c)
    ensures a == b || Before(a, b) || Before(b, a)
    ensures !(Before(a, b) && Before(b, a))
  {
  }

  // ---------------------------------------------------------------------
  // Hours on the 12-hour clock.

  /** `%I` with `%p`: `12 AM` is hour 0, `12 PM` is hour 12, any other
      afternoon hour gains 12. */
  function To24(h12: int, pm: bool): (h: int)
    requires 1 <= h12 <= 12
    ensures 0 <= h < 24
    ensures h >= 12 <==> pm
  {
    if pm then (if h12 == 12 then 12 else h12 + 12)
    else (if h12 == 12 then 0 else h12)
  }

  /** The 12-hour clock reading of a 24-hour hour. */
  function To12(h: int): (h12: int)
    requires 0 <= h < 24
    ensures 1 <= h12 <= 12
  {
    if h % 12 == 0 then 12 else h % 12
  }

  /** The two clocks convert into each other both ways. */
  lemma ClockRoundTrip(h: int, h12: int, pm: bool)
    requires 0 <= h < 24 && 1 <= h12 <= 12
    ensures To24(To12(h), h >= 12) == h
    ensures To12(To24(h12, pm)) == h12
  {
  }

  // ---------------------------------------------------------------------
  // Decimal digits.

  function Pow10(n: nat): nat {
    if n == 0 then 1 else 10 * Pow10(n - 1)
  }

  function DigitChar(v: int): char
    requires 0 <= v < 10
  {
    ('0' as int + v) as char
  }

  /** The number an ASCII digit string denotes, as Python's `int()` reads it. */
  function Value(ds: string): nat
  {
    if |ds| == 0 then 0
    else
      var c := ds[|ds| - 1];
      10 * Value(ds[..|ds| - 1]) + (if IsDigit(c) then c as int - '0' as int else 0)
  }

  /** `n` zero-padded to exactly `width` digits, as `%0<width>d` prints it. */
  function Digits(n: nat, width: nat): (r: string)
    ensures |r| == width
    ensures forall k :: 0 <= k < |r| ==> IsDigit(r[k])
  {
    if width == 0 then "" else Digits(n / 10, width - 1) + [DigitChar(n % 10)]
  }

  lemma {:induction false} ValueOfDigits(n: nat, width: nat)
    requires n < Pow10(width)
    ensures Value(Digits(n, width)) == n
    decreases width
  {
    if width > 0 {
      var r := Digits(n, width);
      assert r[..width - 1] == Digits(n / 10, width - 1);
      ValueOfDigits(n / 10, width - 1);
    }
  }

  // ---------------------------------------------------------------------
  // Formats.

  /** One element of a `strptime` format: a `%` directive, a run of
      whitespace, or a literal character. */
  datatype Directive =
    | Year      // %Y
    | Month     // %m
    | Day       // %d
    | Hour24    // %H
    | Hour12    // %I
    | Minute    // %M
    | Second    // %S
    | AmPm      // %p
    | Blank     // whitespace in the format: matches \s+
    | Lit(c: char)

  type Format = seq<Directive>

  predicate IsNumeric(d: Directive) {
    d.Year? || d.Month? || d.Day? || d.Hour24? || d.Hour12? || d.Minute? || d.Second?
  }

  /** How many digits the directive's regular expression takes at most; also
      the width it is printed with. */
  function MaxWidth(d: Directive): nat
    requires IsNumeric(d)
  {
    if d == Year then 4 else 2
  }

  /** How many digits the directive's regular expression takes at least. */
  function MinWidth(d: Directive): nat
    requires IsNumeric(d)
  {
    if d == Year then 4 else 1
  }

  /** The values the directive's regular expression admits. */
  predicate InRange(d: Directive, v: int)
    requires IsNumeric(d)
  {
    match d
    case Year => 0 <= v <= 9999
    case Month => 1 <= v <= 12
    case Day => 1 <= v <= 31
    case Hour24 => 0 <= v <= 23
    case Hour12 => 1 <= v <= 12
    case Minute => 0 <= v <= 59
    case Second => 0 <= v <= 61
  }

  /** `%Y-%m-%d`, also `date.isoformat()`. */
  const DateFormat: Format := [Year, Lit('-'), Month, Lit('-'), Day]
  const ClockFormat: Format := [Hour24, Lit(':'), Minute, Lit(':'), Second]
  /** `%Y-%m-%dT%H:%M:%S`, the shape of `datetime.isoformat()`. */
  const IsoFormat: Format := [Year, Lit('-'), Month, Lit('-'), Day, Lit('T'), Hour24, Lit(':'), Minute, Lit(':'), Second]
  /** `%Y-%m-%d %H:%M:%S`, the shape of BigQuery's `CAST(DATETIME AS STRING)`. */
  const SpaceFormat: Format := [Year, Lit('-'), Month, Lit('-'), Day, Blank, Hour24, Lit(':'), Minute, Lit(':'), Second]
  /** `%m/%d/%Y %I:%M %p`, the listing page's timestamps. */
  const ListingFormat: Format := [Month, Lit('/'), Day, Lit('/'), Year, Blank, Hour12, Lit(':'), Minute, Blank, AmPm]

  // ---------------------------------------------------------------------
  // Parsing.

  datatype HourField = Clock24(h: int) | Clock12(h: int)

  /** The fields `_strptime` collects before building the `datetime`. */
  datatype Fields = Fields(year: int, month: int, day: int, hour: Option<HourField>,
                           pm: Option<bool>, minute: int, second: int)

  /** `_strptime`'s starting values: 1900-01-01 00:00:00. */
  const Defaults := Fields(1900, 1, 1, None, None, 0, 0)

  function Store(f: Fields, d: Directive, v: int): Fields
    requires IsNumeric(d)
  {
    match d
    case Year => f.(year := v)
    case Month => f.(month := v)
    case Day => f.(day := v)
    case Hour24 => f.(hour := Some(Clock24(v)))
    case Hour12 => f.(hour := Some(Clock12(v)))
    case Minute => f.(minute := v)
    case Second => f.(second := v)
  }

  function Lower(c: char): char {
    if 'A' <= c <= 'Z' then (c as int + 32) as char else c
  }

  /** Literal format characters match case-insensitively. */
  predicate SameLetter(x: char, c: char) {
    Lower(x) == Lower(c)
  }

  /** `%p` in the C locale: `am` or `pm` in any case; `Some(true)` is `pm`. */
  function Meridiem(s: string): Option<bool>
    requires |s| == 2
  {
    if Lower(s[1]) != 'm' then None
    else if Lower(s[0]) == 'a' then Some(false)
    else if Lower(s[0]) == 'p' then Some(true)
    else None
  }

  /** What one directive's regular expression takes from the front of `s`:
      how many characters, and the fields it records. A numeric directive takes
      the maximal run of ASCII digits, which is what its regular expression
      settles on whenever the next element cannot begin with a digit, as in
      every format used here. */
  function Step(s: string, d: Directive, f: Fields): (r: Option<(nat, Fields)>)
    ensures r.Some? ==> r.value.0 <= |s|
    ensures r.Some? && !d.Lit? && d != Blank && d != AmPm ==> r.value.0 > 0 && IsDigit(s[r.value.0 - 1])
  {
    if d.Lit? then
      if |s| > 0 && SameLetter(s[0], d.c) then Some((1, f)) else None
    else if d == Blank then
      var n := Lead(s, IsSpace);
      if n == 0 then None else Some((n, f))
    else if d == AmPm then
      if |s| >= 2 && Meridiem(s[..2]).Some? then Some((2, f.(pm := Meridiem(s[..2])))) else None
    else if d == Day && |s| >= 2 && s[0] == ' ' then
      // `%d` also admits one space followed by one digit from 1 to 9
      if '1' <= s[1] <= '9' && Lead(s[2..], IsDigit) == 0 then Some((2, Store(f, Day, s[1] as int - '0' as int)))
      else None
    else
      var n := Lead(s, IsDigit);
      var v := Value(s[..n]);
      if MinWidth(d) <= n <= MaxWidth(d) && InRange(d, v) then Some((n, Store(f, d, v))) else None
  }

  /** Matches the whole of `s` against `fmt`, collecting fields into `f`;
      `None` is the `ValueError` "does not match format" or "unconverted data
      remains". */
  function Match(s: string, fmt: Format, f: Fields): Option<Fields>
    decreases |fmt|
  {
    if |fmt| == 0 then
      if |s| == 0 then Some(f) else None
    else
      match Step(s, fmt[0], f)
      case None => None
      case Some((n, f')) => Match(s[n..], fmt[1..], f')
  }

  /** The hour `_strptime` settles on: `%I` is read through `%p` (absent means
      morning), `%H` as is, neither gives 0. */
  function HourOf(f: Fields): int {
    match f.hour
    case None => 0
    case Some(Clock24(h)) => h
    case Some(Clock12(h)) =>
      if 1 <= h <= 12 then To24(h, f.pm == Some(true)) else h
  }

  /** The `datetime` constructor's check: an impossible date (year 0, 31 April,
      29 February of a common year) or second 60 or 61 is a `ValueError`. */
  function Build(f: Fields): (r: Result<Instant, Raised>)
    ensures r.Success? ==> Valid(r.value)
    ensures r.Success? ==> r.value.date == Date(f.year, f.month, f.day) && r.value.minute == f.minute && r.value.second == f.second
    ensures r.Failure? ==> r.error == ValueError
  {
    var i := Instant(Date(f.year, f.month, f.day), HourOf(f), f.minute, f.second);
    if Valid(i) then Success(i) else Failure(ValueError)
  }

  /** Python's `datetime.strptime(s, fmt)`; every failure is a `ValueError`. */
  function Strptime(s: string, fmt: Format): (r: Result<Instant, Raised>)
    ensures r.Success? ==> Valid(r.value)
    ensures r.Failure? ==> r.error == ValueError
  {
    match Match(s, fmt, Defaults)
    case None => Failure(ValueError)
    case Some(f) => Build(f)
  }

  // ---------------------------------------------------------------------
  // Rendering.

  /** The number a numeric directive prints for `i`. */
  function FieldValue(i: Instant, d: Directive): (v: nat)
    requires Valid(i) && IsNumeric(d)
    ensures v < Pow10(MaxWidth(d)) && InRange(d, v)
  {
    match d
    case Year => i.date.year
    case Month => i.date.month
    case Day => i.date.day
    case Hour24 => i.hour
    case Hour12 => To12(i.hour)
    case Minute => i.minute
    case Second => i.second
  }

  function RenderOne(i: Instant, d: Directive): string
    requires Valid(i)
  {
    match d
    case AmPm => if i.hour >= 12 then "PM" else "AM"
    case Blank => " "
    case Lit(c) => [c]
    case _ => Digits(FieldValue(i, d), MaxWidth(d))
  }

  /** How many characters a directive prints: numbers are zero-padded to
      their full width. */
  function Width(d: Directive): nat {
    match d
    case AmPm => 2
    case Blank => 1
    case Lit(_) => 1
    case _ => MaxWidth(d)
  }

  function FormatWidth(fmt: Format): nat {
    if |fmt| == 0 then 0 else Width(fmt[0]) + FormatWidth(fmt[1..])
  }

  /** `i` printed in `fmt` with zero-padded numbers, one space per blank and
      `AM`/`PM`: `Render(i, IsoFormat)` is `isoformat()` and
      `Render(i, SpaceFormat)` is BigQuery's `CAST(... AS STRING)`. */
  function Render(i: Instant, fmt: Format): string
    requires Valid(i)
  {
    if |fmt| == 0 then "" else RenderOne(i, fmt[0]) + Render(i, fmt[1..])
  }

  /** Numbers are zero-padded, so every instant prints to the same width. */
  lemma {:induction false} RenderWidth(i: Instant, fmt: Format)
    requires Valid(i)
    ensures |Render(i, fmt)| == FormatWidth(fmt)
    decreases |fmt|
  {
    if |fmt| > 0 {
      RenderWidth(i, fmt[1..]);
    }
  }

  lemma {:induction false} RenderAppend(i: Instant, f1: Format, f2: Format)
    requires Valid(i)
    ensures Render(i, f1 + f2) == Render(i, f1) + Render(i, f2)
    decreases |f1|
  {
    if |f1| > 0 {
      assert (f1 + f2)[0] == f1[0] && (f1 + f2)[1..] == f1[1..] + f2;
      RenderAppend(i, f1[1..], f2);
    } else {
      assert f1 + f2 == f2;
    }
  }

  /** How many digits `v` takes without zero padding, for the two-digit
      fields. */
  function Narrow(v: nat): nat {
    if v < 10 then 1 else 2
  }

  /** `RenderOne`, except that the numbers of the directives in `loose` are
      printed without zero padding (`1/5/2024 9:03 AM` rather than
      `01/05/2024 09:03 AM` when `loose` holds `%m %d %I`); a year always
      takes its four digits. */
  function RenderOneIn(i: Instant, d: Directive, loose: set<Directive>): string
    requires Valid(i)
  {
    if IsNumeric(d) && d != Year && d in loose then Digits(FieldValue(i, d), Narrow(FieldValue(i, d)))
    else RenderOne(i, d)
  }

  function RenderIn(i: Instant, fmt: Format, loose: set<Directive>): string
    requires Valid(i)
  {
    if |fmt| == 0 then "" else RenderOneIn(i, fmt[0], loose) + RenderIn(i, fmt[1..], loose)
  }

  /** With nothing loose, every number is zero-padded: the plain rendering. */
  lemma {:induction false} RenderInPadded(i: Instant, fmt: Format)
    requires Valid(i)
    ensures RenderIn(i, fmt, {}) == Render(i, fmt)
    decreases |fmt|
  {
    if |fmt| > 0 {
      RenderInPadded(i, fmt[1..]);
    }
  }

  lemma {:induction false} RenderInAppend(i: Instant, f1: Format, f2: Format, loose: set<Directive>)
    requires Valid(i)
    ensures RenderIn(i, f1 + f2, loose) == RenderIn(i, f1, loose) + RenderIn(i, f2, loose)
    decreases |f1|
  {
    if |f1| > 0 {
      assert (f1 + f2)[0] == f1[0] && (f1 + f2)[1..] == f1[1..] + f2;
      RenderInAppend(i, f1[1..], f2, loose);
    } else {
      assert f1 + f2 == f2;
    }
  }

  // ---------------------------------------------------------------------
  // The round trip.

  /** A literal character is neither a digit nor whitespace. */
  predicate LitOk(d: Directive) {
    d.Lit? ==> !IsDigit(d.c) && !IsSpace(d.c)
  }

  /** Two neighbours that cannot run into each other: not two numbers, not
      two blanks. */
  predicate Fits(a: Directive, b: Directive) {
    !(IsNumeric(a) && IsNumeric(b)) && !(a == Blank && b == Blank)
  }

  /** Every element is an acceptable literal and fits its successor. */
  predicate WellFormed(fmt: Format) {
    forall k :: 0 <= k < |fmt| ==> LitOk(fmt[k]) && (k + 1 < |fmt| ==> Fits(fmt[k], fmt[k + 1]))
  }

  /** The field one directive fixes, read from `i`, on top of `f`. */
  function Put(f: Fields, i: Instant, d: Directive): Fields
    requires Valid(i)
  {
    if IsNumeric(d) then Store(f, d, FieldValue(i, d))
    else if d == AmPm then f.(pm := Some(i.hour >= 12))
    else f
  }

  /** The fields `fmt` fixes, read from `i`, on top of `f`. */
  function Assign(f: Fields, i: Instant, fmt: Format): Fields
    requires Valid(i)
    decreases |fmt|
  {
    if |fmt| == 0 then f else Assign(Put(f, i, fmt[0]), i, fmt[1..])
  }

  /** A format pins `i` down: every field `i` has is either printed, or
      equals `_strptime`'s default for it. */
  predicate Determines(fmt: Format, i: Instant) {
    && (Year in fmt || i.date.year == 1900)
    && (Month in fmt || i.date.month == 1)
    && (Day in fmt || i.date.day == 1)
    && (Minute in fmt || i.minute == 0)
    && (Second in fmt || i.second == 0)
    && (|| (Hour24 in fmt && Hour12 !in fmt)
        || (Hour12 in fmt && AmPm in fmt && Hour24 !in fmt)
        || (Hour24 !in fmt && Hour12 !in fmt && i.hour == 0))
  }

  lemma {:induction false} RenderStart(i: Instant, fmt: Format, loose: set<Directive>)
    requires Valid(i) && |fmt| > 0 && WellFormed(fmt)
    ensures |RenderIn(i, fmt, loose)| > 0
    ensures IsDigit(RenderIn(i, fmt, loose)[0]) <==> IsNumeric(fmt[0])
    ensures fmt[0] != Blank ==> !IsSpace(RenderIn(i, fmt, loose)[0])
  {
    var h := RenderOneIn(i, fmt[0], loose);
    assert |h| > 0;
    assert RenderIn(i, fmt, loose)[0] == h[0];
  }

  lemma {:induction false} LeadOfPrefix(p: string, s: string, drop: char -> bool)
    requires forall k :: 0 <= k < |p| ==> drop(p[k])
    requires s == "" || !drop(s[0])
    ensures Lead(p + s, drop) == |p|
    decreases |p|
  {
    if |p| > 0 {
      assert (p + s)[1..] == p[1..] + s;
      LeadOfPrefix(p[1..], s, drop);
    }
  }

  /** A number directive reads a run of `w` digits worth `v` when its width
      admits `w`, the value is in its range, and no digit follows. */
  lemma StepDigits(d: Directive, v: nat, w: nat, t: string, f: Fields)
    requires IsNumeric(d) && MinWidth(d) <= w <= MaxWidth(d) && v < Pow10(w) && InRange(d, v)
    requires t == "" || !IsDigit(t[0])
    ensures Step(Digits(v, w) + t, d, f) == Some((w, Store(f, d, v)))
  {
    var h := Digits(v, w);
    var s := h + t;
    ValueOfDigits(v, w);
    LeadOfPrefix(h, t, IsDigit);
    assert s[..w] == h;
    assert s[0] == h[0] && IsDigit(h[0]);
    StepReadsDigits(s, d, f, w);
  }

  /** The number branch of `Step`: a digit run of admissible width and
      in-range value is taken whole. */
  lemma StepReadsDigits(s: string, d: Directive, f: Fields, w: nat)
    requires IsNumeric(d) && |s| > 0 && s[0] != ' ' && w <= |s| && Lead(s, IsDigit) == w
    requires MinWidth(d) <= w <= MaxWidth(d) && InRange(d, Value(s[..w]))
    ensures Step(s, d, f) == Some((w, Store(f, d, Value(s[..w]))))
  {
  }

  /** A number is read back whether it was printed padded or not. */
  lemma StepNumber(i: Instant, d: Directive, loose: set<Directive>, t: string, f: Fields)
    requires Valid(i) && IsNumeric(d)
    requires t == "" || !IsDigit(t[0])
    ensures Step(RenderOneIn(i, d, loose) + t, d, f) == Some((|RenderOneIn(i, d, loose)|, Put(f, i, d)))
  {
    var v := FieldValue(i, d);
    assert Pow10(1) == 10 && Pow10(2) == 100;
    var w := if d != Year && d in loose then Narrow(v) else MaxWidth(d);
    assert RenderOneIn(i, d, loose) == Digits(v, w);
    StepDigits(d, v, w, t, f);
  }

  lemma StepBlank(i: Instant, t: string, f: Fields)
    requires Valid(i)
    requires t == "" || !IsSpace(t[0])
    ensures Step(RenderOne(i, Blank) + t, Blank, f) == Some((1, f))
  {
    LeadOfPrefix(" ", t, IsSpace);
  }

  lemma StepAmPm(i: Instant, t: string, f: Fields)
    requires Valid(i)
    ensures Step(RenderOne(i, AmPm) + t, AmPm, f) == Some((2, f.(pm := Some(i.hour >= 12))))
  {
    var s := RenderOne(i, AmPm) + t;
    assert s[..2] == RenderOne(i, AmPm);
  }

  /** One directive takes exactly its own rendering, provided what follows
      cannot be mistaken for more of it. */
  lemma StepRender(i: Instant, d: Directive, loose: set<Directive>, t: string, f: Fields)
    requires Valid(i) && LitOk(d)
    requires IsNumeric(d) ==> t == "" || !IsDigit(t[0])
    requires d == Blank ==> t == "" || !IsSpace(t[0])
    ensures Step(RenderOneIn(i, d, loose) + t, d, f) == Some((|RenderOneIn(i, d, loose)|, Put(f, i, d)))
  {
    if d == Blank {
      StepBlank(i, t, f);
    } else if d == AmPm {
      StepAmPm(i, t, f);
    } else if IsNumeric(d) {
      StepNumber(i, d, loose, t, f);
    } else {
      assert (RenderOneIn(i, d, loose) + t)[0] == d.c;
    }
  }

  /** A directive that takes exactly `h` leaves the rest of the format to
      match the rest of the text. */
  lemma MatchCons(h: string, t: string, fmt: Format, more: Format, f: Fields, g: Fields)
    requires |fmt| > 0 && Step(h + t, fmt[0], f) == Some((|h|, g))
    ensures Match(h + t, fmt + more, f) == Match(t, fmt[1..] + more, g)
  {
    assert (h + t)[|h|..] == t;
    assert (fmt + more)[0] == fmt[0] && (fmt + more)[1..] == fmt[1..] + more;
  }

  /** In a well-formed format, the text after the first directive's rendering
      cannot be mistaken for more of it. */
  lemma NextStarts(i: Instant, fmt: Format, loose: set<Directive>, tail: string)
    requires Valid(i) && WellFormed(fmt) && |fmt| > 0
    requires IsNumeric(fmt[|fmt| - 1]) ==> tail == "" || !IsDigit(tail[0])
    requires fmt[|fmt| - 1] == Blank ==> tail == "" || !IsSpace(tail[0])
    ensures var t := RenderIn(i, fmt[1..], loose) + tail;
      && LitOk(fmt[0])
      && (IsNumeric(fmt[0]) ==> t == "" || !IsDigit(t[0]))
      && (fmt[0] == Blank ==> t == "" || !IsSpace(t[0]))
  {
    assert LitOk(fmt[0]);
    if |fmt| > 1 {
      var rest := RenderIn(i, fmt[1..], loose);
      RenderStart(i, fmt[1..], loose);
      assert Fits(fmt[0], fmt[1]);
      assert (rest + tail)[0] == rest[0];
    }
  }

  /** Matching a rendering, padded or not, consumes exactly it and collects
      `i`'s fields. */
  lemma {:induction false} MatchRenderIn(i: Instant, fmt: Format, loose: set<Directive>, more: Format, tail: string, f: Fields)
    requires Valid(i) && WellFormed(fmt)
    requires |fmt| > 0 && IsNumeric(fmt[|fmt| - 1]) ==> tail == "" || !IsDigit(tail[0])
    requires |fmt| > 0 && fmt[|fmt| - 1] == Blank ==> tail == "" || !IsSpace(tail[0])
    ensures Match(RenderIn(i, fmt, loose) + tail, fmt + more, f) == Match(tail, more, Assign(f, i, fmt))
    decreases |fmt|
  {
    if |fmt| > 0 {
      var d := fmt[0];
      var h := RenderOneIn(i, d, loose);
      var t := RenderIn(i, fmt[1..], loose) + tail;
      assert RenderIn(i, fmt, loose) + tail == h + t;
      NextStarts(i, fmt, loose, tail);
      StepRender(i, d, loose, t, f);
      MatchCons(h, t, fmt, more, f, Put(f, i, d));
      assert WellFormed(fmt[1..]);
      MatchRenderIn(i, fmt[1..], loose, more, tail, Put(f, i, d));
    } else {
      assert RenderIn(i, fmt, loose) + tail == tail && fmt + more == more;
    }
  }

  lemma MatchRender(i: Instant, fmt: Format, more: Format, tail: string, f: Fields)
    requires Valid(i) && WellFormed(fmt)
    requires |fmt| > 0 && IsNumeric(fmt[|fmt| - 1]) ==> tail == "" || !IsDigit(tail[0])
    requires |fmt| > 0 && fmt[|fmt| - 1] == Blank ==> tail == "" || !IsSpace(tail[0])
    ensures Match(Render(i, fmt) + tail, fmt + more, f) == Match(tail, more, Assign(f, i, fmt))
  {
    RenderInPadded(i, fmt);
    MatchRenderIn(i, fmt, {}, more, tail, f);
  }

  lemma {:induction false} AssignDate(f: Fields, i: Instant, fmt: Format)
    requires Valid(i)
    ensures var r := Assign(f, i, fmt);
      && r.year == (if Year in fmt then i.date.year else f.year)
      && r.month == (if Month in fmt then i.date.month else f.month)
      && r.day == (if Day in fmt then i.date.day else f.day)
    decreases |fmt|
  {
    if |fmt| > 0 {
      AssignDate(Put(f, i, fmt[0]), i, fmt[1..]);
      assert forall e :: e in fmt <==> e == fmt[0] || e in fmt[1..];
    }
  }

  lemma {:induction false} AssignClock(f: Fields, i: Instant, fmt: Format)
    requires Valid(i)
    ensures var r := Assign(f, i, fmt);
      && r.minute == (if Minute in fmt then i.minute else f.minute)
      && r.second == (if Second in fmt then i.second else f.second)
      && r.pm == (if AmPm in fmt then Some(i.hour >= 12) else f.pm)
    decreases |fmt|
  {
    if |fmt| > 0 {
      AssignClock(Put(f, i, fmt[0]), i, fmt[1..]);
      assert forall e :: e in fmt <==> e == fmt[0] || e in fmt[1..];
    }
  }

  lemma {:induction false} AssignHour(f: Fields, i: Instant, fmt: Format)
    requires Valid(i)
    ensures var r := Assign(f, i, fmt);
      && (Hour24 in fmt && Hour12 !in fmt ==> r.hour == Some(Clock24(i.hour)))
      && (Hour12 in fmt && Hour24 !in fmt ==> r.hour == Some(Clock12(To12(i.hour))))
      && (Hour12 !in fmt && Hour24 !in fmt ==> r.hour == f.hour)
    decreases |fmt|
  {
    if |fmt| > 0 {
      AssignHour(Put(f, i, fmt[0]), i, fmt[1..]);
      assert forall e :: e in fmt <==> e == fmt[0] || e in fmt[1..];
    }
  }

  /** The hour the collected fields settle on is the instant's own. */
  lemma AssignedHour(i: Instant, fmt: Format)
    requires Valid(i) && Determines(fmt, i)
    ensures HourOf(Assign(Defaults, i, fmt)) == i.hour
  {
    AssignHour(Defaults, i, fmt);
    AssignClock(Defaults, i, fmt);
    ClockRoundTrip(i.hour, 1, false);
  }

  /** Printing a valid instant in a well-formed format that determines it,
      with or without zero padding, and parsing the text back with the same
      format returns the instant. */
  lemma RoundTripIn(i: Instant, fmt: Format, loose: set<Directive>)
    requires Valid(i) && WellFormed(fmt) && Determines(fmt, i)
    ensures Strptime(RenderIn(i, fmt, loose), fmt) == Success(i)
  {
    var text := RenderIn(i, fmt, loose);
    MatchRenderIn(i, fmt, loose, [], "", Defaults);
    assert text + "" == text && fmt + [] == fmt;
    var f := Assign(Defaults, i, fmt);
    AssignDate(Defaults, i, fmt);
    AssignClock(Defaults, i, fmt);
    AssignedHour(i, fmt);
    assert Match(text, fmt, Defaults) == Some(f);
  }

  lemma RoundTrip(i: Instant, fmt: Format)
    requires Valid(i) && WellFormed(fmt) && Determines(fmt, i)
    ensures Strptime(Render(i, fmt), fmt) == Success(i)
  {
    RenderInPadded(i, fmt);
    RoundTripIn(i, fmt, {});
  }

  lemma IsoWellFormed()
    ensures WellFormed(IsoFormat)
  {
    forall k | 0 <= k < |IsoFormat|
      ensures LitOk(IsoFormat[k]) && (k + 1 < |IsoFormat| ==> Fits(IsoFormat[k], IsoFormat[k + 1]))
    {
      if k == 0 {} else if k == 1 {} else if k == 2 {} else if k == 3 {} else if k == 4 {} else if k == 5 {}
      else if k == 6 {} else if k == 7 {} else if k == 8 {} else if k == 9 {} else {}
    }
  }

  lemma SpaceWellFormed()
    ensures WellFormed(SpaceFormat)
  {
    forall k | 0 <= k < |SpaceFormat|
      ensures LitOk(SpaceFormat[k]) && (k + 1 < |SpaceFormat| ==> Fits(SpaceFormat[k], SpaceFormat[k + 1]))
    {
      if k == 0 {} else if k == 1 {} else if k == 2 {} else if k == 3 {} else if k == 4 {} else if k == 5 {}
      else if k == 6 {} else if k == 7 {} else if k == 8 {} else if k == 9 {} else {}
    }
  }

  lemma ListingWellFormed()
    ensures WellFormed(ListingFormat)
  {
    forall k | 0 <= k < |ListingFormat|
      ensures LitOk(ListingFormat[k]) && (k + 1 < |ListingFormat| ==> Fits(ListingFormat[k], ListingFormat[k + 1]))
    {
      if k == 0 {} else if k == 1 {} else if k == 2 {} else if k == 3 {} else if k == 4 {} else if k == 5 {}
      else if k == 6 {} else if k == 7 {} else if k == 8 {} else if k == 9 {} else {}
    }
  }

  lemma DateWellFormed()
    ensures WellFormed(DateFormat)
  {
    forall k | 0 <= k < |DateFormat|
      ensures LitOk(DateFormat[k]) && (k + 1 < |DateFormat| ==> Fits(DateFormat[k], DateFormat[k + 1]))
    {
      if k == 0 {} else if k == 1 {} else if k == 2 {} else if k == 3 {} else {}
    }
  }

  lemma IsoDetermines(i: Instant)
    ensures Determines(IsoFormat, i)
  {
    assert IsoFormat[0] == Year && IsoFormat[2] == Month && IsoFormat[4] == Day;
    assert IsoFormat[6] == Hour24 && IsoFormat[8] == Minute && IsoFormat[10] == Second;
    assert Hour12 !in IsoFormat;
  }

  lemma SpaceDetermines(i: Instant)
    ensures Determines(SpaceFormat, i)
  {
    assert SpaceFormat[0] == Year && SpaceFormat[2] == Month && SpaceFormat[4] == Day;
    assert SpaceFormat[6] == Hour24 && SpaceFormat[8] == Minute && SpaceFormat[10] == Second;
    assert Hour12 !in SpaceFormat;
  }

  lemma ListingDetermines(i: Instant)
    requires i.second == 0
    ensures Determines(ListingFormat, i)
  {
    assert ListingFormat[0] == Month && ListingFormat[2] == Day && ListingFormat[4] == Year;
    assert ListingFormat[6] == Hour12 && ListingFormat[8] == Minute && ListingFormat[10] == AmPm;
    assert Hour24 !in ListingFormat;
  }

  /** `isoformat()` text re-parses with `%Y-%m-%dT%H:%M:%S` to the same instant. */
  lemma IsoRoundTrip(i: Instant)
    requires Valid(i)
    ensures Strptime(Render(i, IsoFormat), IsoFormat) == Success(i)
  {
    IsoWellFormed();
    IsoDetermines(i);
    RoundTrip(i, IsoFormat);
  }

  /** BigQuery's text for a stored instant re-parses with
      `%Y-%m-%d %H:%M:%S` to the same instant. */
  lemma SpaceRoundTrip(i: Instant)
    requires Valid(i)
    ensures Strptime(Render(i, SpaceFormat), SpaceFormat) == Success(i)
  {
    SpaceWellFormed();
    SpaceDetermines(i);
    RoundTrip(i, SpaceFormat);
  }

  /** A listing timestamp (which never shows seconds) re-parses with
      `%m/%d/%Y %I:%M %p` to the same instant. */
  lemma ListingRoundTrip(i: Instant)
    requires Valid(i) && i.second == 0
    ensures Strptime(Render(i, ListingFormat), ListingFormat) == Success(i)
  {
    ListingWellFormed();
    ListingDetermines(i);
    RoundTrip(i, ListingFormat);
  }

  /** `date.isoformat()` re-parses with `%Y-%m-%d` to the same date. */
  lemma DateRoundTrip(d: Date)
    requires ValidDate(d)
    ensures Strptime(Render(Instant(d, 0, 0, 0), DateFormat), DateFormat) == Success(Instant(d, 0, 0, 0))
  {
    DateWellFormed();
    RoundTrip(Instant(d, 0, 0, 0), DateFormat);
  }

  lemma {:induction false} MatchKeepsSecond(s: string, fmt: Format, f: Fields)
    requires Second !in fmt && Match(s, fmt, f).Some?
    ensures Match(s, fmt, f).value.second == f.second
    decreases |fmt|
  {
    if |fmt| > 0 {
      assert Second !in fmt[1..];
      var p := Step(s, fmt[0], f).value;
      assert p.1.second == f.second;
      MatchKeepsSecond(s[p.0..], fmt[1..], p.1);
    }
  }

  /** A format without `%S` always parses to second 0. */
  lemma NoSecondIsZero(s: string, fmt: Format)
    requires Second !in fmt && Strptime(s, fmt).Success?
    ensures Strptime(s, fmt).value.second == 0
  {
    MatchKeepsSecond(s, fmt, Defaults);
  }

  /** Whatever the listing text, a parsed listing timestamp has second 0. */
  lemma ListingSecondIsZero(s: string)
    requires Strptime(s, ListingFormat).Success?
    ensures Strptime(s, ListingFormat).value.second == 0
  {
    ListingHasNoSecond();
    NoSecondIsZero(s, ListingFormat);
  }

  lemma ListingHasNoSecond()
    ensures Second !in ListingFormat
  {
    forall k | 0 <= k < |ListingFormat|
      ensures ListingFormat[k] != Second
    {
      if k == 0 {} else if k == 1 {} else if k == 2 {} else if k == 3 {} else if k == 4 {} else if k == 5 {}
      else if k == 6 {} else if k == 7 {} else if k == 8 {} else if k == 9 {} else {}
    }
  }

  /** The two stored spellings of one instant differ only in the separator. */
  lemma IsoAndSpaceSpellings(i: Instant)
    requires Valid(i)
    ensures Render(i, IsoFormat) == Render(i, DateFormat) + "T" + Render(i, ClockFormat)
    ensures Render(i, SpaceFormat) == Render(i, DateFormat) + " " + Render(i, ClockFormat)
    ensures |Render(i, DateFormat)| == 10
  {
    IsoSpelling(i);
    var d, c := Render(i, DateFormat), Render(i, ClockFormat);
    assert d + ("T" + c) == d + "T" + c;
    SpaceSpelling(i);
    RenderDateLength(i);
  }

  lemma IsoSpelling(i: Instant)
    requires Valid(i)
    ensures Render(i, IsoFormat) == Render(i, DateFormat) + ("T" + Render(i, ClockFormat))
  {
    assert IsoFormat == DateFormat + ([Lit('T')] + ClockFormat);
    RenderAppend(i, DateFormat, [Lit('T')] + ClockFormat);
    assert Render(i, [Lit('T')] + ClockFormat) == "T" + Render(i, ClockFormat);
  }

  lemma SpaceSpelling(i: Instant)
    requires Valid(i)
    ensures Render(i, SpaceFormat) == Render(i, DateFormat) + " " + Render(i, ClockFormat)
  {
    assert SpaceFormat == DateFormat + ([Blank] + ClockFormat);
    RenderAppend(i, DateFormat, [Blank] + ClockFormat);
    assert Render(i, [Blank] + ClockFormat) == " " + Render(i, ClockFormat);
  }

  lemma RenderDateLength(i: Instant)
    requires Valid(i)
    ensures |Render(i, DateFormat)| == 10
  {
    var f := DateFormat;
    assert Render(i, f[4..]) == Digits(i.date.day, 2);
    assert |Render(i, f[3..])| == 3;
    assert |Render(i, f[2..])| == 5;
    assert |Render(i, f[1..])| == 6;
  }

  /** `date.isoformat()`: ten characters, zero-padded digits with `-` at
      positions 4 and 7. */
  lemma DateShape(i: Instant)
    requires Valid(i)
    ensures var d := Render(i, DateFormat);
      |d| == 10 && d[4] == '-' && d[7] == '-'
      && forall k :: 0 <= k < 10 && k != 4 && k != 7 ==> IsDigit(d[k])
  {
    var y, m, dd := Digits(i.date.year, 4), Digits(i.date.month, 2), Digits(i.date.day, 2);
    DateSpelling(i);
    DashedShape(y, m, dd);
  }

  lemma DateSpelling(i: Instant)
    requires Valid(i)
    ensures Render(i, DateFormat) == Digits(i.date.year, 4) + ("-" + (Digits(i.date.month, 2) + ("-" + Digits(i.date.day, 2))))
  {
    var f := DateFormat;
    var m, dd := Digits(i.date.month, 2), Digits(i.date.day, 2);
    assert Render(i, f[4..]) == dd;
    assert Render(i, f[3..]) == "-" + dd;
    assert Render(i, f[2..]) == m + ("-" + dd);
  }

  lemma DashedShape(y: string, m: string, dd: string)
    requires |y| == 4 && |m| == 2 && |dd| == 2
    requires forall k :: 0 <= k < |y| ==> IsDigit(y[k])
    requires forall k :: 0 <= k < |m| ==> IsDigit(m[k])
    requires forall k :: 0 <= k < |dd| ==> IsDigit(dd[k])
    ensures var d := y + ("-" + (m + ("-" + dd)));
      |d| == 10 && d[4] == '-' && d[7] == '-'
      && forall k :: 0 <= k < 10 && k != 4 && k != 7 ==> IsDigit(d[k])
  {
    var d := y + ("-" + (m + ("-" + dd)));
    forall k | 0 <= k < 10 && k != 4 && k != 7
      ensures IsDigit(d[k])
    {
      if k < 4 {
        assert d[k] == y[k];
      } else if k < 7 {
        assert d[k] == m[k - 5];
      } else {
        assert d[k] == dd[k - 8];
      }
    }
  }

  /** A blank in the format needs whitespace in the text. */
  lemma BlankNeedsSpace(t: string, fmt: Format, f: Fields)
    requires |fmt| > 0 && fmt[0] == Blank && |t| > 0 && !IsSpace(t[0])
    ensures Match(t, fmt, f) == None
  {
  }

  /** Text that has some other character where a format wants whitespace
      after a rendered date does not parse. */
  lemma NoBlankAfterDate(i: Instant, date: Format, tail: string, clock: Format)
    requires Valid(i) && WellFormed(date) && |date| > 0 && IsNumeric(date[|date| - 1])
    requires |tail| > 0 && !IsSpace(tail[0]) && !IsDigit(tail[0])
    ensures Strptime(Render(i, date) + tail, date + ([Blank] + clock)).Failure?
  {
    MatchRender(i, date, [Blank] + clock, tail, Defaults);
    BlankNeedsSpace(tail, [Blank] + clock, Assign(Defaults, i, date));
  }

  /** The `isoformat()` spelling does not parse with BigQuery's format: each
      string has to be read with its own format, as the ingester does. */
  lemma IsoIsNotSpaceFormat(i: Instant)
    requires Valid(i)
    ensures Strptime(Render(i, IsoFormat), SpaceFormat).Failure?
  {
    IsoSpelling(i);
    DateWellFormed();
    assert SpaceFormat == DateFormat + ([Blank] + ClockFormat);
    NoBlankAfterDate(i, DateFormat, "T" + Render(i, ClockFormat), ClockFormat);
  }

  /** Compared as raw strings, the `isoformat()` spelling of an instant sorts
      after BigQuery's spelling of the very same instant, so a raw comparison
      would call an unchanged file newer on every run. */
  lemma RawComparisonMisleads(i: Instant)
    requires Valid(i)
    ensures StringLess(Render(i, SpaceFormat), Render(i, IsoFormat))
  {
    IsoAndSpaceSpellings(i);
    SeparatorOrder(Render(i, DateFormat), Render(i, ClockFormat));
  }

  /** A space sorts before a `T` after any common prefix. */
  lemma SeparatorOrder(d: string, c: string)
    ensures StringLess(d + " " + c, d + "T" + c)
  {
    StringLessAfterPrefix(d, " " + c, "T" + c);
    assert d + " " + c == d + (" " + c) && d + "T" + c == d + ("T" + c);
  }

  /** Parsed each with its own format, the two spellings give the same instant. */
  lemma SpellingsAgree(i: Instant)
    requires Valid(i)
    ensures Strptime(Render(i, SpaceFormat), SpaceFormat) == Strptime(Render(i, IsoFormat), IsoFormat) == Success(i)
  {
    IsoRoundTrip(i);
    SpaceRoundTrip(i);
  }

  /** The date and the clock halves of the listing format. */
  const ListingDate: Format := [Month, Lit('/'), Day, Lit('/'), Year]
  const ListingClock: Format := [Hour12, Lit(':'), Minute]

  /** With no blank and only acceptable literals, a rendering is non-empty
      when the format is, and holds no whitespace. */
  lemma {:induction false} RenderNoSpace(i: Instant, fmt: Format, loose: set<Directive>)
    requires Valid(i) && Blank !in fmt
    requires forall k :: 0 <= k < |fmt| ==> LitOk(fmt[k])
    ensures |fmt| > 0 ==> |RenderIn(i, fmt, loose)| > 0
    ensures forall k :: 0 <= k < |RenderIn(i, fmt, loose)| ==> !IsSpace(RenderIn(i, fmt, loose)[k])
    decreases |fmt|
  {
    if |fmt| > 0 {
      var h, t := RenderOneIn(i, fmt[0], loose), RenderIn(i, fmt[1..], loose);
      assert fmt[0] != Blank && LitOk(fmt[0]);
      assert forall k :: 0 <= k < |fmt[1..]| ==> LitOk(fmt[1..][k]) by {
        assert forall k :: 0 <= k < |fmt[1..]| ==> fmt[1..][k] == fmt[k + 1];
      }
      assert Blank !in fmt[1..] by {
        assert forall k :: 0 <= k < |fmt[1..]| ==> fmt[1..][k] == fmt[k + 1];
      }
      RenderNoSpace(i, fmt[1..], loose);
      RenderOneNoSpace(i, fmt[0], loose);
      assert RenderIn(i, fmt, loose) == h + t;
    }
  }

  lemma RenderOneNoSpace(i: Instant, d: Directive, loose: set<Directive>)
    requires Valid(i) && d != Blank && LitOk(d)
    ensures |RenderOneIn(i, d, loose)| > 0
    ensures forall k :: 0 <= k < |RenderOneIn(i, d, loose)| ==> !IsSpace(RenderOneIn(i, d, loose)[k])
  {
  }

  /** A listing timestamp is its date, a space, its clock, a space and the
      meridiem, padded or not. */
  lemma ListingSpelling(i: Instant, loose: set<Directive>)
    requires Valid(i)
    ensures RenderIn(i, ListingFormat, loose)
         == RenderIn(i, ListingDate, loose) + " " + RenderIn(i, ListingClock, loose) + " " + RenderIn(i, [AmPm], loose)
  {
    var tail0: Format := [Blank] + ListingClock + [Blank, AmPm];
    assert ListingFormat == ListingDate + tail0;
    RenderInAppend(i, ListingDate, tail0, loose);
    ListingTail(i, loose);
  }

  lemma ListingTail(i: Instant, loose: set<Directive>)
    requires Valid(i)
    ensures RenderIn(i, [Blank] + ListingClock + [Blank, AmPm], loose)
         == " " + RenderIn(i, ListingClock, loose) + " " + RenderIn(i, [AmPm], loose)
  {
    var y, z := RenderIn(i, ListingClock, loose), RenderIn(i, [AmPm], loose);
    assert RenderIn(i, [Blank, AmPm], loose) == " " + z;
    RenderInAppend(i, ListingClock, [Blank, AmPm], loose);
    assert ([Blank] + ListingClock + [Blank, AmPm])[1..] == ListingClock + [Blank, AmPm];
  }

  /** Each of the three listing pieces is a word: non-empty, without
      whitespace. */
  lemma ListingWords(i: Instant, loose: set<Directive>)
    requires Valid(i)
    ensures Word(RenderIn(i, ListingDate, loose)) && Word(RenderIn(i, ListingClock, loose)) && Word(RenderIn(i, [AmPm], loose))
  {
    forall k | 0 <= k < |ListingDate|
      ensures LitOk(ListingDate[k]) && ListingDate[k] != Blank
    {
      if k == 0 {} else if k == 1 {} else if k == 2 {} else if k == 3 {} else {}
    }
    forall k | 0 <= k < |ListingClock|
      ensures LitOk(ListingClock[k]) && ListingClock[k] != Blank
    {
      if k == 0 {} else if k == 1 {} else {}
    }
    RenderNoSpace(i, ListingDate, loose);
    RenderNoSpace(i, ListingClock, loose);
    RenderNoSpace(i, [AmPm], loose);
  }

  /** A listing timestamp, padded or not, re-parses with `%m/%d/%Y %I:%M %p`
      to the same instant. */
  lemma ListingRoundTripIn(i: Instant, loose: set<Directive>)
    requires Valid(i) && i.second == 0
    ensures Strptime(RenderIn(i, ListingFormat, loose), ListingFormat) == Success(i)
  {
    ListingWellFormed();
    ListingDetermines(i);
    RoundTripIn(i, ListingFormat, loose);
  }
}
